=== FILE: README.md ===
# A verified model of the BCR ranking core

BCR merges two badminton ranking sources that share no player key. From them it
builds an Elo ranking and predicts the outcome of upcoming first-round matches.
This project models, in Dafny, the logic that does this work:

- **Player identity** (`identity.dfy`, `index.dfy`, `doubles.dfy`). A display name
  becomes a lookup key: stripped, lower-cased, accents removed, punctuation turned
  into spaces, whitespace collapsed, and "Last, First" swapped to "first last".
  The name indexes map keys to player ids; when two rows write the same key, the
  later row wins. A doubles team name printed as two names run together is cut into
  "left / right".
- **Seeding** (`seeding.dfy`, `stable_sort.dfy`). An entrant's seed comes from the
  national table, then the provincial table, first by id and then through the name
  index; otherwise the entrant is unseeded (9999). The first round sorts entrants by
  seed with Python's stable sort and pairs them from both ends inward.
- **Elo arithmetic** (`elo_math.dfy`). The K-factor tiers (100/75/50), the rating a
  seed stands for, and the four win/loss deltas of a prediction.
- **The Elo fold** (`rating.dfy`). Every player starts at 1500. Each history row is
  resolved to an opponent id, filtered by the 52-week cutoff, and de-duplicated by a
  key made of the sorted ids, tournament, date text and score text. The first
  report of a match moves both ratings by the same amount in opposite directions.
  When no real match is applied, the first rounds of upcoming draws are simulated
  instead, the better seed winning.
- **The ranking composer** (`ranking.dfy`). A player with results in at least three
  tournaments is active. Active players are sorted by average delta per match and
  then by rating, both descending (stable), and ranked 1..n. Inactive players
  follow with rank 0, in player order.
- **Draw text** (`draw_text.dfy`):
  - the names of a draw's lines: seed marks such as `[3/4]` removed; filler,
    header, event-code, digit and short lines skipped; duplicates dropped, keeping
    the first;
  - the event code a category title stands for;
  - the two date tests on tournament listings.
- **Infrastructure** (`rate_limit.dfy`, `ttl_cache.dfy`, `media_storage.dfy`):
  - the sliding-window write rate limit;
  - the one-hour response cache;
  - the object keys and public addresses of the local and S3 media backends.

`text.dfy` holds the string helpers these share (Python's `strip`, `\s+` collapsing,
`split`/`join`, substring and whole-word search, code-point order). `option.dfy`
holds `Option`.

Four behaviours of the code are easy to miss; the model follows the code in each:

- History rows are applied in discovery order (players in dictionary order, each
  player's rows in fetch order). There is no sort by date.
- Seed 1 maps to 1995, not to the 2000 ceiling (`SeedOneRating`).
- A simulated match adds the tournament name to both players' sets even when it is
  empty. A real match adds only a non-empty name.
- The men's-singles draw filter keeps every women's draw, because "MEN" is part of
  "WOMEN". This is modelled as written (`WomenDrawsPassMenFilter`).

## Model

| member | source | states |
|---|---|---|
| Identity.Clean | api/main.py:1363-1366 | the cleaned name is collapsed (single spaces, none at either end) and holds only characters that lower-casing, accent stripping and punctuation removal all leave alone |
| Identity.NormalizePersonName | api/main.py:1363-1371 | the key is collapsed and made of key characters; a cleaned name without a comma is its own key; a cleaned name with a comma and at least two non-empty stripped pieces gives the second piece, a space and the first, and one with fewer pieces is its own key |
| Identity.NormalizeIdempotent | api/main.py:1363-1371 | normalizing a key again gives the same key |
| Identity.CommaNameKeys | api/main.py:1363-1371 | "Last, First" has key "first last" and alternate key "last first", each part cleaned, for any two comma-free parts whose end characters are letters or digits, accented or not |
| Identity.SpaceNameKey | api/main.py:1363-1371 | "A B" has as key the cleaned A and the cleaned B around one space, for the same parts |
| Identity.NameOrderInsensitive | api/main.py:1367-1370 | "Last, First" and "First Last" share a key, and the alternate key of "Last, First" is the key of "Last First", for the same parts |
| Identity.AccentedNameExample | api/main.py:1357-1371 | "Côté, André" and "André Côté" share a key |
| Identity.LaiVictorExample | api/main.py:1363-1371 | "Lai, Victor" and "Victor Lai" share a key |
| Index.AddEntry | api/main.py:2615-2629 | after one ranking row the index holds the old keys plus the ones the row writes (its non-empty key and its alternate key, only when it has an id); those map to its id and every other key is unchanged |
| Index.BuildIndexDomain | api/main.py:2615-2629 | a key is in the index exactly when some row writes it |
| Index.BuildIndexLastWriteWins | api/main.py:2615-2629 | the id under a key is the id of the last row that writes it |
| Index.IndexResolvesNameOrders | api/main.py:2615-2629 | a row spelled "Last, First" is found under "Last, First", "First Last" and "Last First" |
| Index.PutAllDomain | api/main.py:2014 | the Elo name index holds exactly the keys of the players' names |
| Index.PlayerIndexValues | api/main.py:2014 | the Elo name index only yields ids of the player list |
| Index.PutAllLastWriteWins | api/main.py:2014 | of two players whose names share a key, the later one keeps it |
| EloMath.KFactor | api/main.py:1379-1388 | the weight is 100 exactly for championship names, 75 exactly for national names that are not championships, and 50 exactly for all others, ignoring case |
| EloMath.KFactorRange | api/main.py:1379-1388 | only the weights 50, 75 and 100 exist |
| EloMath.KFactorMonotone | api/main.py:1379-1388 | adding text around a tournament name never lowers its weight |
| EloMath.KFactorCaseInsensitive | api/main.py:1380 | the weight ignores case |
| EloMath.KFactorDefault | api/main.py:1387-1388 | the empty name weighs 50 |
| EloMath.SeedToRating | api/main.py:1684-1689 | the rating lies in [1200, 2000]; unseeded and non-positive seeds give 1500; otherwise it is 2000 - 5*seed, floored at 1200 |
| EloMath.SeedToRatingMonotone | api/main.py:1684-1689 | a better seed never maps to a lower rating |
| EloMath.SeedOneRating | api/main.py:1684-1689 | seed 1 maps to 1995 and no seed reaches 2000 |
| EloMath.Predict | api/main.py:1722-1741 | A wins k times B's expectation and loses k times A's expectation; the two expectations sum to 1; B's win and loss deltas are the negated loss and win deltas of A; A's win and loss deltas differ by k; with e in [0,1] and k >= 0 a win never costs and a loss never gains |
| EloMath.PredictMirror | api/main.py:1775-1778 | predicting from the other side (expectation 1 - e) gives the same four deltas with the players swapped |
| Seeding.SeedOrder | api/main.py:1408-1425 | a seeded id gets its national seed, else its provincial seed; otherwise the id the normalised name resolves to gets its national seed, else its provincial seed, and an unresolved name, an empty resolved id or an unseeded one gets 9999; every seed is the sentinel or a table value |
| Seeding.SeedOrderIdFirst | api/main.py:1415-1418 | a seeded id decides the seed whatever the name says |
| Seeding.SeedOrderByName | api/main.py:1419-1422 | an entrant without id whose name key is indexed takes the national seed of the indexed id |
| Seeding.SeedOrderPositions | api/main.py:1673 | the sort yields every position once, in ascending seed order, ties in draw order |
| Seeding.SortedDrawUnchanged | api/main.py:1673 | a draw already in seed order keeps its order |
| Seeding.PairFromEnds | api/main.py:1676-1680 | the loop walking in from both ends pairs position i with position n-1-i for every i below n/2 |
| Seeding.SeedOrdered | api/main.py:1669-1674 | the seed-ordered entrants are a permutation of the draw |
| Seeding.PairFirstRound | api/main.py:1668-1681 | there are n/2 pairs, the ends-inward pairs of the seed-ordered entrants |
| Seeding.PairedSeedsOrdered | api/main.py:1673-1680 | in every pair of sorted positions the left seed is no greater than the right |
| Seeding.LeftSeedNoWorse | api/main.py:1668-1681 | in every first-round pair the left entrant is seeded no worse than the right one |
| Seeding.PairPositionsDisjoint | api/main.py:1676-1680 | no position is in two pairs or twice in one pair, and the left one comes first |
| Seeding.PairPositionsCover | api/main.py:1676-1680 | with an even field every entrant plays; with an odd one exactly the middle entrant sits out |
| Seeding.EightSeedsExample | api/main.py:1676-1680 | seeds 1..8 pair as (1,8), (2,7), (3,6), (4,5) |
| StableSort.Sort | api/main.py:2182 | the positions are a permutation, ordered by key, and positions with equal keys keep their order |
| StableSort.StableOrderUnique | api/main.py:2182 | only one arrangement is stably sorted |
| StableSort.ArrangePermutation | api/main.py:2182 | the sorted entries are a permutation of the input |
| Rating.Assign | api/main.py:2001 | writing an id into the ordered player dictionary adds the id to the ids present, keeps them distinct, stores the new name under it and leaves every other entry as it was |
| Rating.Universe | api/main.py:1998-2001 | the player ids are distinct and are exactly the non-empty ids of the ranking rows |
| Rating.UniverseLastName | api/main.py:1998-2001 | a player keeps the name of the last row with its id |
| Rating.Initial | api/main.py:2017-2020 | every player starts at 1500 with no delta, no match and no tournament |
| Rating.InitialBalanced | api/main.py:2017-2020 | the starting state is balanced and counts no match |
| Rating.Update | api/main.py:2073-2090 | one player moves up by delta and the other down by delta, both counts grow by one, the tournament is added to both sets when recorded, nobody else changes |
| Rating.DeltaSign | api/main.py:2076-2078 | a win never lowers the winner's rating and a loss never raises it |
| Rating.UpdateSums | api/main.py:2078-2087 | an update is zero-sum over any list of distinct players holding both, and adds two to the match count |
| Rating.UpdateBalanced | api/main.py:2073-2087 | an update keeps ratings at 1500 plus the total delta and the deltas summing to zero |
| Rating.Judge | api/main.py:2054-2064 | a dated row older than the cutoff is too old; otherwise the row applies exactly when both ids are rated and its key is new |
| Rating.Classify | api/main.py:2040-2071 | no opponent when the name does not resolve; a row is applied exactly when it has a distinct opponent, is not older than the cutoff, both ids are rated and its key is new; an applied row pairs owner and opponent in id order, with the result turned to the first id's side |
| Rating.ApplyRow | api/main.py:2039-2090 | a row that does not apply changes nothing; one that applies records exactly its key, and moves the two players by the delta of the stripped tournament's K, the row's winner and the expected score of their current ratings, recording the tournament when its name is not empty |
| Rating.RealFold | api/main.py:2037-2090 | the fold over all rows keeps the player set and only adds match keys |
| Rating.ApplyRowBalanced | api/main.py:2073-2090 | applying a row keeps the state balanced and the match count at twice the applied matches |
| Rating.RealFoldBalanced | api/main.py:2037-2090 | the whole history fold keeps both invariants |
| Rating.RatingsSum | api/main.py:2017-2087 | in a balanced state the ratings sum to 1500 per player |
| Rating.RowKeySymmetric | api/main.py:2060-2061 | the dedup key is the same from either player's side |
| Rating.ClassifyMirror | api/main.py:2040-2071 | the two reports of one match get the same verdict |
| Rating.MirroredRowsApplyOnce | api/main.py:2060-2064 | of two mirrored reports either one alone has the same effect and the second is a no-op after the first |
| Rating.MirroredHistoryRowsApplyOnce | api/main.py:2039-2064 | the same through the name index: a match both players report counts once |
| Rating.KeysDifferByScore | api/main.py:2058-2061 | two reports of a match whose stripped score texts differ get different keys |
| Rating.FreshRowApplied | api/main.py:2048-2064 | an undated row between two rated players with a new key is applied and records its key |
| Rating.DifferentScoreTextsBothApplied | api/main.py:2058-2064 | when the two reports' score texts differ, the first leaves the second's key unrecorded, so both are applied |
| Rating.NeverUntracked | api/main.py:2040-2045 | with the index built from the player list, a resolved opponent always has a rating |
| Rating.WomenDrawsPassMenFilter | api/main.py:2115 | every women's draw passes the men's singles filter |
| Rating.SimStep | api/main.py:2129-2160 | a simulated pair changes the state exactly when it holds two distinct rated ids; match keys and the player set never change |
| Rating.SimulatedLeftWins | api/main.py:2139-2153 | in a simulated pair the left entrant gains and the right one loses |
| Rating.SimStepBalanced | api/main.py:2144-2159 | a simulated match keeps the state balanced |
| Rating.SimPairsBalanced | api/main.py:2129-2160 | the pairs of a draw keep it balanced |
| Rating.SimDrawsBalanced | api/main.py:2112-2160 | the draws of a tournament keep it balanced |
| Rating.SimTournamentsBalanced | api/main.py:2105-2160 | the whole simulation keeps it balanced |
| Rating.EloRatings | api/main.py:2014-2160 | the computation rates exactly the players of the list |
| Rating.EloRatingsConserved | api/main.py:2017-2160 | whatever the histories and draws, the deltas cancel out and the ratings sum to 1500 per player |
| Ranking.AvgPerMatch | api/main.py:2166 | the average times the match count is the total delta; 0 without matches |
| Ranking.EntryOf | api/main.py:2164-2178 | a line starts unranked and is active exactly with at least three tournaments |
| Ranking.Entries | api/main.py:2164-2178 | one line per player, in player order |
| Ranking.SplitByActivity | api/main.py:2180-2181 | splitting by the flag loses and duplicates nothing |
| Ranking.ByScoreOrder | api/main.py:2182 | the sort key order is total and transitive |
| Ranking.SortedByScore | api/main.py:2182 | the sorted lines are a permutation of the input, in descending (average, rating) order, with tied lines in input order |
| Ranking.SortedActives | api/main.py:2180-2182 | the same for the active lines |
| Ranking.RankIsPermutation | api/main.py:2180-2187 | every line comes back exactly once, rank aside |
| Ranking.RankShape | api/main.py:2180-2187 | active lines come first, ranked 1..n in order; the inactive ones follow with rank 0 and are exactly the inactive lines, in row order |
| Ranking.FilterKeepsOrder | api/main.py:2180-2181 | each filter keeps its lines in row order: they sit at strictly increasing indices of the rows, and an index is among them exactly when its line has the flag |
| Ranking.RankOrdered | api/main.py:2182-2184 | ranked lines are in descending (average, rating) order, and tied lines keep player order |
| DrawText.RemoveMarksClean | api/main.py:1563 | no seed mark is left after removal |
| DrawText.RemoveMarksNoop | api/main.py:1563 | text without marks comes back unchanged |
| DrawText.RemoveMarksIdempotent | api/main.py:1563 | removing marks twice is removing them once |
| DrawText.SeedMarkRemoved | api/main.py:1563 | a name followed by its seed mark loses the mark and keeps the rest |
| DrawText.CleanLine | api/main.py:1560-1563 | a cleaned line has no seed mark and no space at either end |
| DrawText.NameOf | api/main.py:1559-1576 | a line yields its cleaned text exactly when that passes every filter, and nothing when it is blank or fails one |
| DrawText.NameIsFixpoint | api/main.py:1559-1576 | a name read from a line reads back as itself |
| DrawText.SeededNameRead | api/main.py:1559-1576 | "Lai Victor [3/4]" yields "Lai Victor" |
| DrawText.ByeSkipped | api/main.py:1565-1566 | "Bye" yields no name |
| DrawText.ScoreSkipped | api/main.py:1571-1573 | "21-15" yields no name |
| DrawText.FirstOccurrences | api/main.py:1577-1585 | the de-duplicated list holds exactly the input's values, each once |
| DrawText.FirstOccurrencesOrder | api/main.py:1577-1585 | the kept values are in the order of their first occurrences |
| DrawText.CollectNames | api/main.py:1559-1576 | the first loop collects the names of the lines in line order |
| DrawText.KeepFirst | api/main.py:1577-1585 | the loop with the seen set keeps exactly the first occurrences |
| DrawText.ExtractNames | api/main.py:1557-1585 | the result holds each name of a line exactly once, in first-occurrence order, each a clean name |
| DrawText.CategoryCodeAsWritten | api/main.py:606-618 | as written, no title holding "women" maps to WS or WD |
| DrawText.CategoryCode | api/main.py:606-618 | corrected: each code is produced exactly when its words are in the title, the women's tests first; no code when nothing matches |
| DrawText.CategoryCodeAgrees | api/main.py:606-618 | for titles naming no women the two mappings agree |
| DrawText.WomensSinglesMisread | api/main.py:608-611 | "Women's Singles" maps to MS as written and to WS once corrected |
| DrawText.OverlapsSeason | api/main.py:790-798 | only an event with a start date can overlap, and then it starts no later than the season ends and ends (its start when the end is missing) no earlier than the season starts; without an end date it overlaps exactly when its start lies in the season |
| DrawText.OverlapsDates | api/main.py:790-798 | for ten-character dates, an event overlaps exactly when it starts no later than the season ends and ends no earlier than the season starts |
| DrawText.OverlapsWiderSeason | api/main.py:790-798 | an event overlapping a season overlaps every season containing it |
| DrawText.OverlapsIgnoresTime | api/main.py:796-797 | a time after the ten-character date changes nothing |
| DrawText.InsideSeasonOverlaps | api/main.py:790-798 | an event inside the season overlaps it |
| DrawText.IsLiveTournament | api/main.py:989-996 | only an event with a start date is live, and then not before it; without an end date it is live exactly on its start date |
| DrawText.LiveIgnoresTime | api/main.py:992 | a time after the start date changes nothing |
| DrawText.OneDayLive | api/main.py:989-996 | a one-day event is live on that day and no other |
| DrawText.LiveBetween | api/main.py:989-996 | an event is live exactly on the days from its start to its end |
| Doubles.InsertCaseBreaks | api/main.py:300 | every character moves right by the number of boundaries before it, exactly one space follows the lower-case letter of each boundary, and the result is no longer than that; no boundary is left, and the non-space characters are the same, in order |
| Doubles.PlacementDetermines | api/main.py:300 | any text that places the characters and spaces that way is the substitution's result, so the placement above fixes the output |
| Doubles.BreaksAppend | api/main.py:300 | the breaks of a concatenation are the breaks of each part, with one more space where the parts meet at a boundary |
| Doubles.DanielLeungTimothyLock | api/main.py:290-291 | "Daniel LeungTimothy Lock" becomes "Daniel Leung / Timothy Lock" |
| Doubles.InsertCaseBreaksIdempotent | api/main.py:300 | inserting the breaks twice is inserting them once |
| Doubles.SpacedName | api/main.py:300-301 | the spaced name is collapsed and has no slash the name lacks |
| Doubles.NormalizeDoublesName | api/main.py:288-311 | a blank name stays blank, a name with a slash comes back stripped, and a name that stays one word after case-spacing is only spaced |
| Doubles.HalvesOfSpaced | api/main.py:302-308 | a spaced name of several words cuts into two non-empty collapsed halves that join back with a space, the right half with at least as many words |
| Doubles.DoublesHalves | api/main.py:302-310 | a name of several words becomes "left / right" with those halves; the fallback never fires |
| Doubles.PartnerIsRightHalf | api/main.py:437-442 | splitting the result at the slash gives back the two halves, the partner being the second |
| Doubles.SlashParts | api/main.py:440 | "left / right" splits at the slash into the two stripped halves |
| RateLimit.Recent | api/main.py:107 | a moment is kept exactly when it is inside the window, as many times as it is stored |
| RateLimit.Enforce | api/main.py:101-111 | a request is allowed exactly when the limit is off or fewer than limit recent moments remain; a refused request changes nothing; an accepted one stores the recent moments plus its own, at most limit; other keys are untouched |
| RateLimit.WindowReopens | api/main.py:107-108 | once every stored moment has left the window the next request is allowed |
| RateLimit.EnforceInsideWindow | api/main.py:107-111 | while all stored moments are inside the window, an accepted request adds exactly its own moment |
| RateLimit.RunStoresAccepted | api/main.py:101-111 | within one window a new key stores exactly as many moments as were accepted, all from the run, at most limit |
| RateLimit.AtMostLimitPerWindow | api/main.py:101-111 | within one window at most limit requests of a new key are accepted |
| TtlCache.Get | api/main_backup.py:53-59 | a hit returns the data stored under the key |
| TtlCache.Save | api/main_backup.py:61-63 | the key holds the new data and moment; other keys are untouched |
| TtlCache.Clear | api/main_backup.py:314-318 | nothing is left |
| TtlCache.SaveThenGet | api/main_backup.py:53-63 | saved data is served for the next hour and not after |
| TtlCache.SaveKeepsOtherKeys | api/main_backup.py:61-63 | saving one key leaves every other key's lookups as they were |
| TtlCache.LastSaveWins | api/main_backup.py:61-63 | the last save of a key wins |
| TtlCache.ClearMisses | api/main_backup.py:314-318 | after a clear every lookup misses |
| TtlCache.ExpiryIsFinal | api/main_backup.py:53-59 | an expired entry stays expired and stays stored |
| TtlCache.ServedByScraper | api/main_backup.py:98-101 | the scraper uses only a non-empty hit; an empty list counts as a miss |
| TtlCache.EmptyResultRescraped | api/main_backup.py:98-101 | a cached empty result is never used by the scraper, though the plain lookup returns it |
| TtlCache.NonEmptyResultServed | api/main_backup.py:98-101 | a non-empty result is used exactly within the hour after it was saved |
| MediaStorage.NewLocal | api/media_storage.py:33-35 | the prefix loses its trailing slashes and nothing else |
| MediaStorage.NewS3 | api/media_storage.py:91 | the base loses its trailing slashes and is absent exactly when nothing is left |
| MediaStorage.PublicUrlFor | api/media_storage.py:56-58 | local addresses are the prefix, a slash and the key without leading slashes; S3 gives an address exactly when it has a base |
| MediaStorage.PutBytes | api/media_storage.py:41-46 | the local backend keeps the key as given and S3 strips its leading slashes; the address is the one for the key given and for the key reported |
| MediaStorage.PutThenExists | api/media_storage.py:41-62 | after a put the object is found under the key given and the key reported, and every key found before is still found; on S3 a key is found afterwards only when it was found before or names the put object once leading slashes are stripped |
| MediaStorage.DefaultLocalUrl | api/media_storage.py:161 | the fallback local backend keeps the prefix "/media-files" and publishes every key at "/media-files/" plus the key without leading slashes |
| MediaStorage.UrlIgnoresLeadingSlashes | api/media_storage.py:56-58 | leading slashes of a key never reach its address |
| MediaStorage.LocalPrefixTrailingSlash | api/media_storage.py:35 | a trailing slash on the prefix changes nothing |
| MediaStorage.S3WithoutBaseHasNoUrls | api/media_storage.py:122-126 | without a usable base no address is published |
| MediaStorage.BackendsAgree | api/media_storage.py:56-58 | given the same base, the two backends publish the same address |
| MediaStorage.LocalUrlRoundTrip | api/media_storage.py:56-58 | the key without leading slashes reads back from a local address after the prefix and one slash, never doubled |
| MediaStorage.SameAddressSameKey | api/media_storage.py:56-58 | two keys get the same local address exactly when they agree without their leading slashes |

## Left out

- The expected score `1 / (1 + 10^((rb - ra) / 400))` is a parameter `expected`. Ratings are exact reals, so floating-point rounding is not modelled.
- Date parsing: a history row carries its raw date text and the moment a parser made of it (`MatchRow.when`). The 52-week cutoff is an input.
- Clocks: the rate limit's `time.time()`, the cache's `datetime.now()` and the listings' "today" are inputs.
- The client address of `_client_ip` is part of the rate-limit key given by the caller. A refusal is `allowed == false`, not an HTTP 429.
- Fetching and parsing remote pages is not modelled. The ranking rows, players' histories, upcoming tournaments, draws and entrants are inputs.
- The debug counters of the Elo endpoint are not modelled. Neither is the early return for an empty player list: the model gives an empty table there too.
- The prediction endpoints are modelled only through the numbers they compute (`Predict`). The choice of the name passed to `_k_factor` (`tournament_name or d.name`, `or "ABC"`) and the copying of names into `PredictionMatchup` are not.
- File and bucket writes, deletes, ACL flags, path joining under the media root, and reading the backend choice from the environment are I/O. Only keys, addresses and the `exists` answer are modelled.
- Unicode is approximated in `text.dfy` and `identity.dfy`:
  - whitespace is Python's `isspace` set;
  - lower-casing covers ASCII and Latin-1;
  - NFD decomposition covers the precomposed Latin-1 letters and the combining block U+0300..U+036F;
  - `\w` is ASCII letters, digits and `_`, Latin-1 letters, and every non-space character above U+00FF.
- Text.Upper: maps only a-z and U+00E0..U+00FE (except U+00F7) to their capitals. Python's `upper()` (api/main.py:2114) also turns "ß" into "SS", "ÿ" into "Ÿ", "µ" into "Μ" and "ſ" into "S", and maps letters above Latin-1; a draw name holding those may be classified differently.
- DrawText.HasDigit: only ASCII 0-9 count as digits. The `\d` of api/main.py:1571 also matches every other Unicode decimal digit, such as Arabic-Indic or full-width digits.
- Dates with a UTC offset: `datetime.fromisoformat` gives an aware datetime for them, and comparing it with the naive cutoff (`dt < cutoff`, api/main.py:2054) raises TypeError. The model gives every parsed date a moment that compares, so it has no such error path.
- Identity.CommaNameKeys: stated only for parts whose first and last characters are not spaces and become a letter or digit after lower-casing, accent stripping and punctuation removal. A part that starts or ends with punctuation ("Jr.") or a combining mark is not covered.
- Identity.SpaceNameKey: stated for the same parts only.
- Identity.NameOrderInsensitive: stated for the same parts only.
- Index.IndexResolvesNameOrders: stated for the same parts only.
- MediaStorage.PutThenExists: the "found afterwards only when" direction is stated for S3 alone. The local lookup is a file-system test, `os.path.exists` (api/media_storage.py:60-62). It also finds the parent directories that `os.makedirs` creates on a write (line 43), and paths that the operating system resolves to the same file, such as "a//p.png" for "a/p.png".
- MediaStorage.Exists: `stored` stands for the keys whose lookup succeeds. An S3 `head_object` call that fails for a reason other than a missing key also answers False (api/media_storage.py:131-134); that error is not modelled.
- Rating.EloRatings: its contract states only the player set; conservation is stated by `EloRatingsConserved`.
- RateLimit.RunStoresAccepted: stated for a key with no stored moments and a run that spans less than one window.
- RateLimit.AtMostLimitPerWindow: stated under the same conditions.
- Rating.SimStep: the rating change of the simulated winner is stated in `SimulatedLeftWins`, under an expected score in [0, 1].

## Findings

| source | as written | input that shows it | evidently intended | confidence | as-written member | corrected member |
|---|---|---|---|---|---|---|
| api/main.py:608-611 | the men's tests run before the women's, and "men" is a substring of "women" | "Women's Singles" maps to MS | "Women's Singles" maps to WS, "Women's Doubles" to WD | high; not executed | DrawText.CategoryCodeAsWritten (shown by DrawText.WomensSinglesMisread) | DrawText.CategoryCode |

=== FILE: doubles.dfy ===
/**
 Splitting a doubles team name that the ranking table prints as two player
 names run together ("Daniel LeungTimothy Lock") into "left / right".
 */
module Doubles {
  import opened Text

  /** The class `[a-zà-ÿ]` of the look-behind (it includes U+00F7, as the range does). */
  predicate LowerClass(c: char) { ('a' <= c <= 'z') || ('à' <= c <= 'ÿ') }

  /** The class `[A-ZÀ-Ý]` of the look-ahead (it includes U+00D7, as the range does). */
  predicate UpperClass(c: char) { ('A' <= c <= 'Z') || ('À' <= c <= 'Ý') }

  /** A lower-then-upper boundary at position i. */
  predicate BoundaryAt(s: string, i: int)
    requires 0 <= i < |s| - 1
  {
    LowerClass(s[i]) && UpperClass(s[i + 1])
  }

  predicate NoBoundary(s: string) {
    forall i :: 0 <= i < |s| - 1 ==> !BoundaryAt(s, i)
  }

  /** The text with every space removed. */
  function Unspaced(s: string): (r: string)
    ensures ' ' !in r
    decreases |s|
  {
    if |s| == 0 then "" else (if s[0] == ' ' then "" else [s[0]]) + Unspaced(s[1..])
  }

  /** Putting a character in front keeps a boundary-free text boundary-free unless it makes one. */
  lemma ConsNoBoundary(c: char, rest: string)
    requires NoBoundary(rest)
    requires |rest| == 0 || !(LowerClass(c) && UpperClass(rest[0]))
    ensures NoBoundary([c] + rest)
  {
    var t := [c] + rest;
    forall i | 0 <= i < |t| - 1 ensures !BoundaryAt(t, i) {
      if i > 0 {
        assert t[i] == rest[i - 1] && t[i + 1] == rest[i];
        assert !BoundaryAt(rest, i - 1);
      }
    }
  }

  /** The number of lower-to-upper boundaries before position i. */
  function BreaksBefore(s: string, i: nat): nat
    requires i <= |s|
  {
    if i == 0 then 0 else BreaksBefore(s, i - 1) + (if i < |s| && BoundaryAt(s, i - 1) then 1 else 0)
  }

  /** r is s with one space inserted at each boundary: character i of s sits at i plus the number
      of boundaries before it, the slot after each boundary's lower-case character is a space, and
      nothing else is added. */
  predicate BreaksPlaced(s: string, r: string) {
    |r| == |s| + BreaksBefore(s, |s|) && CharsShifted(s, r) && SpacesAtBreaks(s, r)
  }

  predicate CharsShifted(s: string, r: string) {
    forall i {:trigger s[i]} :: 0 <= i < |s| ==> i + BreaksBefore(s, i) < |r| && r[i + BreaksBefore(s, i)] == s[i]
  }

  predicate SpacesAtBreaks(s: string, r: string) {
    forall i {:trigger BoundaryAt(s, i)} :: 0 <= i < |s| - 1 && BoundaryAt(s, i) ==>
      i + BreaksBefore(s, i) + 1 < |r| && r[i + BreaksBefore(s, i) + 1] == ' '
  }

  /** Counting boundaries in s from position 1 on is counting them in s[1..]. */
  lemma {:induction false} BreaksShift(s: string, i: nat)
    requires 0 < |s| && i < |s|
    ensures BreaksBefore(s, i + 1) == (if |s| >= 2 && BoundaryAt(s, 0) then 1 else 0) + BreaksBefore(s[1..], i)
  {
    if i > 0 {
      BreaksShift(s, i - 1);
      if i < |s| - 1 {
        assert BoundaryAt(s[1..], i - 1) == BoundaryAt(s, i);
      }
    }
  }

  /** The placement of the breaks in s[1..] carries over to s once s[0] and, at a boundary, a
      space are put in front. */
  lemma PlacedCons(s: string, rest: string, r: string)
    requires |s| >= 2 && BreaksPlaced(s[1..], rest)
    requires r == [s[0]] + (if BoundaryAt(s, 0) then [' '] else []) + rest
    ensures BreaksPlaced(s, r)
  {
    var b0 := if BoundaryAt(s, 0) then 1 else 0;
    assert forall k :: 0 <= k < |rest| ==> r[1 + b0 + k] == rest[k];
    PlacedConsCore(s, s[1..], rest, r, b0);
  }

  lemma PlacedConsCore(s: string, t: string, rest: string, r: string, b0: nat)
    requires |s| >= 2 && t == s[1..] && BreaksPlaced(t, rest)
    requires b0 == (if BoundaryAt(s, 0) then 1 else 0)
    requires |r| == 1 + b0 + |rest| && r[0] == s[0] && (b0 == 1 ==> r[1] == ' ')
    requires forall k :: 0 <= k < |rest| ==> r[1 + b0 + k] == rest[k]
    ensures BreaksPlaced(s, r)
  {
    LengthPlaced(s, t, rest, r, b0);
    CharsPlaced(s, t, rest, r, b0);
    SpacesPlaced(s, t, rest, r, b0);
  }

  lemma LengthPlaced(s: string, t: string, rest: string, r: string, b0: nat)
    requires |s| >= 2 && t == s[1..] && |rest| == |t| + BreaksBefore(t, |t|)
    requires b0 == (if BoundaryAt(s, 0) then 1 else 0)
    requires |r| == 1 + b0 + |rest|
    ensures |r| == |s| + BreaksBefore(s, |s|)
  {
    BreaksShift(s, |s| - 1);
  }

  lemma CharsPlaced(s: string, t: string, rest: string, r: string, b0: nat)
    requires |s| >= 2 && t == s[1..] && CharsShifted(t, rest)
    requires b0 == (if BoundaryAt(s, 0) then 1 else 0)
    requires |r| == 1 + b0 + |rest| && r[0] == s[0]
    requires forall k :: 0 <= k < |rest| ==> r[1 + b0 + k] == rest[k]
    ensures CharsShifted(s, r)
  {
    forall i | 0 <= i < |s| ensures i + BreaksBefore(s, i) < |r| && r[i + BreaksBefore(s, i)] == s[i] {
      if i > 0 {
        PlacedChar(t, rest, i - 1);
        CharStep(s, t, rest, r, b0, i);
      }
    }
  }

  lemma SpacesPlaced(s: string, t: string, rest: string, r: string, b0: nat)
    requires |s| >= 2 && t == s[1..] && SpacesAtBreaks(t, rest)
    requires b0 == (if BoundaryAt(s, 0) then 1 else 0)
    requires |r| == 1 + b0 + |rest| && (b0 == 1 ==> r[1] == ' ')
    requires forall k :: 0 <= k < |rest| ==> r[1 + b0 + k] == rest[k]
    ensures SpacesAtBreaks(s, r)
  {
    forall i | 0 <= i < |s| - 1 && BoundaryAt(s, i)
      ensures i + BreaksBefore(s, i) + 1 < |r| && r[i + BreaksBefore(s, i) + 1] == ' '
    {
      if i > 0 {
        SpaceAt(s, t, rest, r, b0, i);
      }
    }
  }

  lemma SpaceAt(s: string, t: string, rest: string, r: string, b0: nat, i: nat)
    requires |s| >= 2 && t == s[1..] && SpacesAtBreaks(t, rest) && 0 < i < |s| - 1 && BoundaryAt(s, i)
    requires b0 == (if BoundaryAt(s, 0) then 1 else 0)
    requires |r| == 1 + b0 + |rest| && forall k :: 0 <= k < |rest| ==> r[1 + b0 + k] == rest[k]
    ensures i + BreaksBefore(s, i) + 1 < |r| && r[i + BreaksBefore(s, i) + 1] == ' '
  {
    assert BoundaryAt(t, i - 1) by { assert t[i - 1] == s[i] && t[i] == s[i + 1]; }
    PlacedSpace(t, rest, i - 1);
    SpaceStep(s, t, rest, r, b0, i);
  }

  lemma CharStep(s: string, t: string, rest: string, r: string, b0: nat, i: nat)
    requires |s| >= 2 && t == s[1..] && 0 < i < |s|
    requires b0 == (if BoundaryAt(s, 0) then 1 else 0)
    requires i - 1 + BreaksBefore(t, i - 1) < |rest| && rest[i - 1 + BreaksBefore(t, i - 1)] == t[i - 1]
    requires |r| == 1 + b0 + |rest| && forall k :: 0 <= k < |rest| ==> r[1 + b0 + k] == rest[k]
    ensures i + BreaksBefore(s, i) < |r| && r[i + BreaksBefore(s, i)] == s[i]
  {
    BreaksShift(s, i - 1);
    ShiftedChar(s, t, rest, r, b0, i);
  }

  lemma SpaceStep(s: string, t: string, rest: string, r: string, b0: nat, i: nat)
    requires |s| >= 2 && t == s[1..] && 0 < i < |s| - 1
    requires b0 == (if BoundaryAt(s, 0) then 1 else 0)
    requires i - 1 + BreaksBefore(t, i - 1) + 1 < |rest| && rest[i - 1 + BreaksBefore(t, i - 1) + 1] == ' '
    requires |r| == 1 + b0 + |rest| && forall k :: 0 <= k < |rest| ==> r[1 + b0 + k] == rest[k]
    ensures i + BreaksBefore(s, i) + 1 < |r| && r[i + BreaksBefore(s, i) + 1] == ' '
  {
    BreaksShift(s, i - 1);
    assert r[1 + b0 + (i - 1 + BreaksBefore(t, i - 1) + 1)] == rest[i - 1 + BreaksBefore(t, i - 1) + 1];
  }

  lemma PlacedSpace(t: string, rest: string, j: nat)
    requires SpacesAtBreaks(t, rest) && j < |t| - 1 && BoundaryAt(t, j)
    ensures j + BreaksBefore(t, j) + 1 < |rest| && rest[j + BreaksBefore(t, j) + 1] == ' '
  {
  }

  lemma PlacedChar(t: string, rest: string, j: nat)
    requires CharsShifted(t, rest) && j < |t|
    ensures j + BreaksBefore(t, j) < |rest| && rest[j + BreaksBefore(t, j)] == t[j]
  {
  }

  /** Character i of s is character i - 1 of t = s[1..], moved right by 1 + b0. */
  lemma ShiftedChar(s: string, t: string, rest: string, r: string, b0: nat, i: nat)
    requires 0 < i < |s| && t == s[1..]
    requires i - 1 + BreaksBefore(t, i - 1) < |rest| && rest[i - 1 + BreaksBefore(t, i - 1)] == t[i - 1]
    requires |r| == 1 + b0 + |rest| && forall k :: 0 <= k < |rest| ==> r[1 + b0 + k] == rest[k]
    requires BreaksBefore(s, i) == b0 + BreaksBefore(t, i - 1)
    ensures i + BreaksBefore(s, i) < |r| && r[i + BreaksBefore(s, i)] == s[i]
  {
    assert r[1 + b0 + (i - 1 + BreaksBefore(t, i - 1))] == rest[i - 1 + BreaksBefore(t, i - 1)];
  }

  /** `re.sub(r"(?<=[a-zà-ÿ])(?=[A-ZÀ-Ý])", " ", s)`: a space at every lower-to-upper boundary. */
  function InsertCaseBreaks(s: string): (r: string)
    ensures BreaksPlaced(s, r)
    ensures |s| > 0 ==> |r| > 0 && r[0] == s[0]
    ensures NoBoundary(r)
    ensures Unspaced(r) == Unspaced(s)
    ensures forall c :: c in r ==> c in s || c == ' '
    decreases |s|
  {
    if |s| < 2 then s
    else
      var rest := InsertCaseBreaks(s[1..]);
      if LowerClass(s[0]) && UpperClass(s[1]) then
        BreakCons(s, rest);
        [s[0]] + ([' '] + rest)
      else
        PlainCons(s, rest);
        [s[0]] + rest
  }

  /** A boundary at the front: the first character, a space, then the broken rest. */
  lemma BreakCons(s: string, rest: string)
    requires |s| >= 2 && BoundaryAt(s, 0)
    requires BreaksPlaced(s[1..], rest) && |rest| > 0 && rest[0] == s[1] && NoBoundary(rest)
    requires Unspaced(rest) == Unspaced(s[1..]) && forall c :: c in rest ==> c in s[1..] || c == ' '
    ensures var r := [s[0]] + ([' '] + rest);
      && BreaksPlaced(s, r) && NoBoundary(r) && Unspaced(r) == Unspaced(s)
      && forall c :: c in r ==> c in s || c == ' '
  {
    var tail := [' '] + rest;
    var r := [s[0]] + tail;
    assert Unspaced(s) == (if s[0] == ' ' then "" else [s[0]]) + Unspaced(s[1..]);
    assert forall c :: c in s[1..] ==> c in s;
    ConsNoBoundary(' ', rest);
    ConsNoBoundary(s[0], tail);
    assert Unspaced(tail) == Unspaced(rest) by {
      assert tail[1..] == rest;
    }
    assert r[1..] == tail;
    PlacedCons(s, rest, r);
  }

  /** No boundary at the front: the first character, then the broken rest. */
  lemma PlainCons(s: string, rest: string)
    requires |s| >= 2 && !BoundaryAt(s, 0)
    requires BreaksPlaced(s[1..], rest) && |rest| > 0 && rest[0] == s[1] && NoBoundary(rest)
    requires Unspaced(rest) == Unspaced(s[1..]) && forall c :: c in rest ==> c in s[1..] || c == ' '
    ensures var r := [s[0]] + rest;
      && BreaksPlaced(s, r) && NoBoundary(r) && Unspaced(r) == Unspaced(s)
      && forall c :: c in r ==> c in s || c == ' '
  {
    var r := [s[0]] + rest;
    assert Unspaced(s) == (if s[0] == ' ' then "" else [s[0]]) + Unspaced(s[1..]);
    assert forall c :: c in s[1..] ==> c in s;
    ConsNoBoundary(s[0], rest);
    assert r[1..] == rest;
    PlacedCons(s, rest, r);
  }

  /** The placement determines the text: whatever places the breaks as `BreaksPlaced` says is
      what the substitution produces. */
  lemma {:induction false} PlacementDetermines(s: string, r: string)
    requires BreaksPlaced(s, r)
    ensures r == InsertCaseBreaks(s)
    decreases |s|
  {
    if |s| < 2 {
      PlacedShort(s, r);
    } else {
      var b0 := if BoundaryAt(s, 0) then 1 else 0;
      var t := s[1..];
      PlacedHead(s, t, r, b0);
      var tail := r[1 + b0..];
      TailChars(s, t, r, tail, b0);
      TailSpaces(s, t, r, tail, b0);
      PlacementDetermines(t, tail);
      Reassemble(s, r, tail, b0);
    }
  }

  lemma PlacedShort(s: string, r: string)
    requires |s| < 2 && BreaksPlaced(s, r)
    ensures r == s
  {
    assert BreaksBefore(s, |s|) == 0;
    forall i | 0 <= i < |s| ensures r[i] == s[i] {
      assert BreaksBefore(s, i) == 0;
    }
  }

  lemma PlacedHead(s: string, t: string, r: string, b0: nat)
    requires |s| >= 2 && t == s[1..] && BreaksPlaced(s, r)
    requires b0 == (if BoundaryAt(s, 0) then 1 else 0)
    ensures 1 + b0 <= |r| && r[0] == s[0] && (b0 == 1 ==> r[1] == ' ')
    ensures |r| - 1 - b0 == |t| + BreaksBefore(t, |t|)
  {
    assert BreaksBefore(s, 0) == 0;
    assert r[0] == s[0];
    BreaksShift(s, |s| - 1);
  }

  lemma Reassemble(s: string, r: string, tail: string, b0: nat)
    requires |s| >= 2 && b0 == (if BoundaryAt(s, 0) then 1 else 0)
    requires 1 + b0 <= |r| && r[0] == s[0] && (b0 == 1 ==> r[1] == ' ')
    requires tail == r[1 + b0..] && tail == InsertCaseBreaks(s[1..])
    ensures r == InsertCaseBreaks(s)
  {
    HeadThenTail(s, r, tail, b0);
    InsertCaseBreaksHead(s);
  }

  lemma HeadThenTail(s: string, r: string, tail: string, b0: nat)
    requires |s| >= 2 && b0 == (if BoundaryAt(s, 0) then 1 else 0)
    requires 1 + b0 <= |r| && r[0] == s[0] && (b0 == 1 ==> r[1] == ' ')
    requires tail == r[1 + b0..]
    ensures r == Head(s) + tail
  {
    if b0 == 1 {
      assert r == [r[0]] + [r[1]] + tail;
    } else {
      assert r == [r[0]] + tail;
    }
  }

  lemma InsertCaseBreaksUnfold(s: string)
    requires |s| >= 2
    ensures BoundaryAt(s, 0) ==> InsertCaseBreaks(s) == [s[0]] + ([' '] + InsertCaseBreaks(s[1..]))
    ensures !BoundaryAt(s, 0) ==> InsertCaseBreaks(s) == [s[0]] + InsertCaseBreaks(s[1..])
  {
  }

  lemma TailChars(s: string, t: string, r: string, tail: string, b0: nat)
    requires |s| >= 2 && t == s[1..] && CharsShifted(s, r)
    requires b0 == (if BoundaryAt(s, 0) then 1 else 0)
    requires 1 + b0 <= |r| && tail == r[1 + b0..]
    ensures CharsShifted(t, tail)
  {
    forall j | 0 <= j < |t| ensures j + BreaksBefore(t, j) < |tail| && tail[j + BreaksBefore(t, j)] == t[j] {
      BreaksShift(s, j);
      assert s[j + 1] == t[j];
      TailChar(s, t, r, tail, b0, j);
    }
  }

  lemma TailChar(s: string, t: string, r: string, tail: string, b0: nat, j: nat)
    requires |s| >= 2 && t == s[1..] && j < |t|
    requires j + 1 + BreaksBefore(s, j + 1) < |r| && r[j + 1 + BreaksBefore(s, j + 1)] == s[j + 1]
    requires BreaksBefore(s, j + 1) == b0 + BreaksBefore(t, j)
    requires 1 + b0 <= |r| && tail == r[1 + b0..]
    ensures j + BreaksBefore(t, j) < |tail| && tail[j + BreaksBefore(t, j)] == t[j]
  {
  }

  lemma TailSpaces(s: string, t: string, r: string, tail: string, b0: nat)
    requires |s| >= 2 && t == s[1..] && SpacesAtBreaks(s, r)
    requires b0 == (if BoundaryAt(s, 0) then 1 else 0)
    requires 1 + b0 <= |r| && tail == r[1 + b0..]
    ensures SpacesAtBreaks(t, tail)
  {
    forall j | 0 <= j < |t| - 1 && BoundaryAt(t, j)
      ensures j + BreaksBefore(t, j) + 1 < |tail| && tail[j + BreaksBefore(t, j) + 1] == ' '
    {
      BreaksShift(s, j);
      assert BoundaryAt(s, j + 1) by { assert t[j] == s[j + 1] && t[j + 1] == s[j + 2]; }
      TailSpace(s, t, r, tail, b0, j);
    }
  }

  lemma TailSpace(s: string, t: string, r: string, tail: string, b0: nat, j: nat)
    requires |s| >= 2 && t == s[1..] && j < |t| - 1
    requires j + 1 + BreaksBefore(s, j + 1) + 1 < |r| && r[j + 1 + BreaksBefore(s, j + 1) + 1] == ' '
    requires BreaksBefore(s, j + 1) == b0 + BreaksBefore(t, j)
    requires 1 + b0 <= |r| && tail == r[1 + b0..]
    ensures j + BreaksBefore(t, j) + 1 < |tail| && tail[j + BreaksBefore(t, j) + 1] == ' '
  {
  }

  /** A name without any boundary is left alone, so inserting the breaks twice is inserting them once. */
  lemma {:induction false} InsertCaseBreaksNoop(s: string)
    requires NoBoundary(s)
    ensures InsertCaseBreaks(s) == s
    decreases |s|
  {
    if |s| >= 2 {
      assert !BoundaryAt(s, 0);
      assert NoBoundary(s[1..]) by {
        forall i | 0 <= i < |s[1..]| - 1 ensures !BoundaryAt(s[1..], i) {
          assert !BoundaryAt(s, i + 1);
        }
      }
      InsertCaseBreaksNoop(s[1..]);
      assert [s[0]] + s[1..] == s;
    }
  }

  lemma InsertCaseBreaksIdempotent(s: string)
    ensures InsertCaseBreaks(InsertCaseBreaks(s)) == InsertCaseBreaks(s)
  {
    InsertCaseBreaksNoop(InsertCaseBreaks(s));
  }

  /** The name with the case breaks spaced out and the whitespace collapsed. */
  function SpacedName(name: string): (spaced: string)
    ensures IsCollapsed(spaced)
    ensures '/' !in name ==> '/' !in spaced
  {
    var broken := InsertCaseBreaks(name);
    CollapseIsCollapsed(broken);
    assert '/' !in name ==> '/' !in Collapse(broken) by {
      if '/' !in name {
        assert '/' !in broken;
        NoSlashChars(broken);
        CollapseChars(broken, NotSlash);
        NoSlashIn(Collapse(broken));
      }
    }
    Collapse(broken)
  }

  predicate NotSlash(c: char) { c != '/' }

  lemma NoSlashChars(s: string)
    requires '/' !in s
    ensures AllChars(s, NotSlash)
  {
    forall i | 0 <= i < |s| ensures NotSlash(s[i]) {
      assert s[i] in s;
    }
  }

  lemma NoSlashIn(s: string)
    requires AllChars(s, NotSlash)
    ensures '/' !in s
  {
    forall i | 0 <= i < |s| ensures s[i] != '/' {
      assert NotSlash(s[i]);
    }
  }

  /** `max(1, n // 2)`: the number of words that go to the left player. */
  function LeftWordCount(n: nat): (m: nat)
    ensures n >= 1 ==> 1 <= m <= n
    ensures n >= 2 ==> m <= n - m
  {
    if n / 2 > 1 then n / 2 else 1
  }

  /** `_normalize_doubles_player_name` (api/main.py:288-311). */
  function NormalizeDoublesName(raw: string): (r: string)
    ensures Strip(raw) == "" ==> r == ""
    ensures '/' in Strip(raw) ==> r == Strip(raw)
    ensures Strip(raw) != "" && '/' !in Strip(raw) && ' ' !in SpacedName(Strip(raw)) ==>
      r == SpacedName(Strip(raw))
  {
    var name := Strip(raw);
    if name == "" then name
    else if '/' in name then name
    else
      var spaced := SpacedName(name);
      var parts := Split(spaced, ' ');
      assert ' ' !in spaced ==> |parts| == 1 by {
        if ' ' !in spaced {
          SplitNoSep(spaced, ' ');
        }
      }
      if |parts| < 2 then spaced
      else
        var mid := LeftWordCount(|parts|);
        var left := Strip(Join(parts[..mid], ' '));
        var right := Strip(Join(parts[mid..], ' '));
        if left != "" && right != "" then left + " / " + right else spaced
  }

  /** A string that holds the separator splits into at least two parts. */
  lemma SplitHasSep(s: string, sep: char)
    requires sep in s
    ensures |Split(s, sep)| >= 2
  {
    JoinSplit(s, sep);
    SplitPartsFree(s, sep);
  }

  /** The words of the spaced name that go to the left and the right player. */
  function LeftHalf(words: seq<string>): string
    requires |words| >= 1
  {
    Join(words[..LeftWordCount(|words|)], ' ')
  }

  function RightHalf(words: seq<string>): string
    requires |words| >= 1
  {
    Join(words[LeftWordCount(|words|)..], ' ')
  }

  /** A collapsed text with a space is cut between two words into two non-empty collapsed halves:
      joining them with a space gives the text back, and the right half has at least as many words
      as the left one. */
  lemma HalvesOfSpaced(spaced: string)
    requires IsCollapsed(spaced) && ' ' in spaced
    ensures var words := Split(spaced, ' ');
      && |words| >= 2
      && var left, right := LeftHalf(words), RightHalf(words);
      && left + " " + right == spaced
      && left != "" && right != "" && IsCollapsed(left) && IsCollapsed(right)
      && 1 <= |Split(left, ' ')| <= |Split(right, ' ')|
      && Split(left, ' ') + Split(right, ' ') == words
  {
    var words := Split(spaced, ' ');
    SplitHasSep(spaced, ' ');
    var mid := LeftWordCount(|words|);
    var lw, rw := words[..mid], words[mid..];
    CutJoin(spaced, words, mid, lw, rw);
    HalvesCollapsed(spaced, Join(lw, ' '), Join(rw, ' '));
    SplitOfHalves(spaced, words, mid, lw, rw);
    assert lw + rw == words;
  }

  /** The words on either side of a cut, joined back with a space, give the text. */
  lemma CutJoin(spaced: string, words: seq<string>, mid: nat, lw: seq<string>, rw: seq<string>)
    requires words == Split(spaced, ' ') && 0 < mid < |words|
    requires lw == words[..mid] && rw == words[mid..]
    ensures Join(lw, ' ') + [' '] + Join(rw, ' ') == spaced
  {
    JoinCut(words, mid, ' ');
    JoinSplit(spaced, ' ');
  }

  /** The two sides of a space in a collapsed text are non-empty and collapsed. */
  lemma HalvesCollapsed(spaced: string, left: string, right: string)
    requires IsCollapsed(spaced) && left + [' '] + right == spaced
    ensures left != "" && right != "" && IsCollapsed(left) && IsCollapsed(right)
    ensures left + " " + right == spaced
  {
    assert spaced[|left|] == ' ';
    CollapsedCut(spaced, |left|);
    assert spaced[..|left|] == left && spaced[|left| + 1..] == right;
  }

  /** Splitting either joined side gives its words back. */
  lemma SplitOfHalves(spaced: string, words: seq<string>, mid: nat, lw: seq<string>, rw: seq<string>)
    requires words == Split(spaced, ' ') && 0 < mid < |words|
    requires lw == words[..mid] && rw == words[mid..]
    ensures Split(Join(lw, ' '), ' ') == lw && Split(Join(rw, ' '), ' ') == rw
  {
    SplitPartsFree(spaced, ' ');
    assert forall k :: 0 <= k < |lw| ==> lw[k] == words[k];
    assert forall k :: 0 <= k < |rw| ==> rw[k] == words[mid + k];
    SplitJoin(lw, ' ');
    SplitJoin(rw, ' ');
  }

  /** A name of several words becomes "left / right" with the halves above; the fallback that
      returns the unsplit name never fires. */
  lemma DoublesHalves(raw: string)
    requires Strip(raw) != "" && '/' !in Strip(raw)
    requires ' ' in SpacedName(Strip(raw))
    ensures var words := Split(SpacedName(Strip(raw)), ' ');
      && |words| >= 2
      && NormalizeDoublesName(raw) == LeftHalf(words) + " / " + RightHalf(words)
  {
    var spaced := SpacedName(Strip(raw));
    var words := Split(spaced, ' ');
    HalvesOfSpaced(spaced);
    var left, right := LeftHalf(words), RightHalf(words);
    StripCollapsed(left);
    StripCollapsed(right);
    DoublesOfHalves(raw, spaced, words, Strip(left), Strip(right));
  }

  /** The last branch of the normaliser: two non-empty stripped halves around " / ". */
  lemma DoublesOfHalves(raw: string, spaced: string, words: seq<string>, left: string, right: string)
    requires Strip(raw) != "" && '/' !in Strip(raw)
    requires spaced == SpacedName(Strip(raw)) && words == Split(spaced, ' ') && |words| >= 2
    requires left == Strip(LeftHalf(words)) && right == Strip(RightHalf(words))
    requires left != "" && right != ""
    ensures NormalizeDoublesName(raw) == left + " / " + right
  {
  }

  /** The partner is recovered by splitting at "/" and keeping the second stripped piece
      (api/main.py:437-442). */
  lemma PartnerIsRightHalf(raw: string)
    requires Strip(raw) != "" && '/' !in Strip(raw)
    requires ' ' in SpacedName(Strip(raw))
    ensures var words := Split(SpacedName(Strip(raw)), ' ');
      && |words| >= 1
      && StrippedSlashParts(NormalizeDoublesName(raw)) == [LeftHalf(words), RightHalf(words)]
  {
    var spaced := SpacedName(Strip(raw));
    var words := Split(spaced, ' ');
    HalvesOfSpaced(spaced);
    DoublesHalves(raw);
    var left, right := LeftHalf(words), RightHalf(words);
    NoSlashInPieces(spaced, left, right);
    SlashParts(left, right);
  }

  /** What the substitution puts in front of the rest: the first character, and a space when a
      boundary follows it. */
  function Head(s: string): string
    requires |s| >= 2
  {
    [s[0]] + (if BoundaryAt(s, 0) then " " else "")
  }

  lemma InsertCaseBreaksHead(s: string)
    requires |s| >= 2
    ensures InsertCaseBreaks(s) == Head(s) + InsertCaseBreaks(s[1..])
  {
    InsertCaseBreaksUnfold(s);
    HeadJoins(s, InsertCaseBreaks(s), InsertCaseBreaks(s[1..]));
  }

  lemma HeadJoins(s: string, x: string, y: string)
    requires |s| >= 2
    requires BoundaryAt(s, 0) ==> x == [s[0]] + ([' '] + y)
    requires !BoundaryAt(s, 0) ==> x == [s[0]] + y
    ensures x == Head(s) + y
  {
    if BoundaryAt(s, 0) {
      assert Head(s) == [s[0]] + [' '];
    } else {
      assert Head(s) == [s[0]];
    }
  }

  /** Breaks are inserted piecewise: inside each half, and once more where the halves meet when
      that is a boundary. */
  lemma {:induction false} BreaksAppend(a: string, b: string)
    requires |a| >= 1 && |b| >= 1
    ensures InsertCaseBreaks(a + b) == InsertCaseBreaks(a) + Seam(a, b) + InsertCaseBreaks(b)
    decreases |a|
  {
    if |a| == 1 {
      InsertCaseBreaksHead(a + b);
      SeamSingle(a, b);
      var h, u, mid, v := Head(a + b), InsertCaseBreaks(a), Seam(a, b), InsertCaseBreaks(b);
      assert h + v == u + mid + v;
    } else {
      var h, u, mid, v := Head(a), InsertCaseBreaks(a[1..]), Seam(a, b), InsertCaseBreaks(b);
      assert h + (u + mid + v) == (h + u) + mid + v;
      InsertCaseBreaksHead(a + b);
      SeamLonger(a, b);
      BreaksAppend(a[1..], b);
      InsertCaseBreaksHead(a);
    }
  }

  lemma SeamSingle(a: string, b: string)
    requires |a| == 1 && |b| >= 1
    ensures (a + b)[1..] == b && Head(a + b) == InsertCaseBreaks(a) + Seam(a, b)
  {
    assert (a + b)[1..] == b;
    assert (a + b)[0] == a[0] && (a + b)[1] == b[0];
    assert [a[0]] == a;
  }

  lemma SeamLonger(a: string, b: string)
    requires |a| >= 2 && |b| >= 1
    ensures (a + b)[1..] == a[1..] + b && Head(a + b) == Head(a) && Seam(a[1..], b) == Seam(a, b)
  {
    assert (a + b)[1..] == a[1..] + b;
    assert (a + b)[0] == a[0] && (a + b)[1] == a[1];
    assert a[1..][|a| - 2] == a[|a| - 1];
  }

  /** The space, if any, that goes where a and b meet. */
  function Seam(a: string, b: string): string
    requires |a| >= 1 && |b| >= 1
  {
    if LowerClass(a[|a| - 1]) && UpperClass(b[0]) then " " else ""
  }

  /** The example of the source's own documentation: "Daniel LeungTimothy Lock" becomes
      "Daniel Leung / Timothy Lock". */
  lemma DanielLeungTimothyLock()
    ensures NormalizeDoublesName("Daniel LeungTimothy Lock") == "Daniel Leung / Timothy Lock"
  {
    var raw, spaced := "Daniel LeungTimothy Lock", "Daniel Leung Timothy Lock";
    var words := ["Daniel", "Leung", "Timothy", "Lock"];
    ExampleSpaced();
    ExampleWords();
    ExampleHalves();
    ExampleFacts();
    NormalizedOfFourWords(raw, spaced, words, "Daniel Leung", "Timothy Lock");
  }

  /** A name spaced into four words is cut after the second. */
  lemma NormalizedOfFourWords(raw: string, spaced: string, words: seq<string>, left: string, right: string)
    requires Strip(raw) != "" && '/' !in Strip(raw)
    requires SpacedName(Strip(raw)) == spaced && ' ' in spaced
    requires Split(spaced, ' ') == words && |words| == 4
    requires left == Join(words[..2], ' ') && right == Join(words[2..], ' ')
    ensures NormalizeDoublesName(raw) == left + " / " + right
  {
    DoublesHalves(raw);
    assert LeftWordCount(4) == 2;
  }

  lemma ExampleHalves()
    ensures Join(["Daniel", "Leung", "Timothy", "Lock"][..2], ' ') == "Daniel Leung"
    ensures Join(["Daniel", "Leung", "Timothy", "Lock"][2..], ' ') == "Timothy Lock"
  {
    assert ["Daniel", "Leung", "Timothy", "Lock"][..2] == ["Daniel", "Leung"];
    assert ["Daniel", "Leung", "Timothy", "Lock"][2..] == ["Timothy", "Lock"];
    JoinTwoWords("Daniel", "Leung");
    JoinTwoWords("Timothy", "Lock");
  }

  lemma ExampleFacts()
    ensures Strip("Daniel LeungTimothy Lock") == "Daniel LeungTimothy Lock"
    ensures '/' !in "Daniel LeungTimothy Lock" && ' ' in "Daniel Leung Timothy Lock"
    ensures "Daniel Leung" + " / " + "Timothy Lock" == "Daniel Leung / Timothy Lock"
  {
    RawStripped();
    ExampleChars();
    assert "Daniel Leung" + " / " + "Timothy Lock" == "Daniel Leung / Timothy Lock";
  }

  lemma RawStripped()
    ensures Strip("Daniel LeungTimothy Lock") == "Daniel LeungTimothy Lock"
  {
    RawCollapsed();
    StripCollapsed("Daniel LeungTimothy Lock");
  }

  lemma ExampleChars()
    ensures '/' !in "Daniel LeungTimothy Lock" && ' ' in "Daniel Leung Timothy Lock"
  {
    assert "Daniel Leung Timothy Lock"[6] == ' ';
  }

  /** The example's case break falls between "Leung" and "Timothy". */
  lemma ExampleBroken()
    ensures InsertCaseBreaks("Daniel LeungTimothy Lock") == "Daniel Leung Timothy Lock"
  {
    ExampleNoBoundary();
    ExamplePieces();
    BrokenAtSeam("Daniel Leung", "Timothy Lock", "Daniel LeungTimothy Lock", "Daniel Leung Timothy Lock");
  }

  lemma ExampleNoBoundary()
    ensures NoBoundary("Daniel Leung") && NoBoundary("Timothy Lock")
  {
  }

  lemma ExamplePieces()
    ensures "Daniel Leung" + "Timothy Lock" == "Daniel LeungTimothy Lock"
    ensures "Daniel Leung" + " " + "Timothy Lock" == "Daniel Leung Timothy Lock"
  {
  }

  /** Two pieces without boundaries that meet at one get exactly one space, there. */
  lemma BrokenAtSeam(left: string, right: string, whole: string, spaced: string)
    requires |left| >= 1 && |right| >= 1 && NoBoundary(left) && NoBoundary(right)
    requires LowerClass(left[|left| - 1]) && UpperClass(right[0])
    requires whole == left + right && spaced == left + " " + right
    ensures InsertCaseBreaks(whole) == spaced
  {
    InsertCaseBreaksNoop(left);
    InsertCaseBreaksNoop(right);
    BreaksAppend(left, right);
  }

  lemma ExampleSpaced()
    ensures SpacedName(Strip("Daniel LeungTimothy Lock")) == "Daniel Leung Timothy Lock"
  {
    RawCollapsed();
    SpacedCollapsed();
    ExampleBroken();
    SpacedOfCollapsed("Daniel LeungTimothy Lock", "Daniel Leung Timothy Lock");
  }

  lemma RawCollapsed()
    ensures IsCollapsed("Daniel LeungTimothy Lock")
  {
    RawWords();
    WordsCollapsed("Daniel", "LeungTimothy", "Lock", "Daniel LeungTimothy Lock");
  }

  lemma RawWords()
    ensures AsciiLetters("Daniel") && AsciiLetters("LeungTimothy") && AsciiLetters("Lock")
    ensures "Daniel" + " " + "LeungTimothy" + " " + "Lock" == "Daniel LeungTimothy Lock"
  {
  }

  lemma SpacedCollapsed()
    ensures IsCollapsed("Daniel Leung Timothy Lock")
  {
    SpacedWords();
    WordsCollapsed("Daniel Leung", "Timothy", "Lock", "Daniel Leung Timothy Lock");
  }

  lemma SpacedWords()
    ensures IsCollapsed("Daniel Leung") && AsciiLetters("Timothy") && AsciiLetters("Lock")
    ensures "Daniel Leung" + " " + "Timothy" + " " + "Lock" == "Daniel Leung Timothy Lock"
  {
    LeftCollapsed();
  }

  lemma LeftCollapsed()
    ensures IsCollapsed("Daniel Leung")
  {
    assert AsciiLetters("Daniel") && AsciiLetters("Leung");
    LettersCollapsed("Daniel");
    LettersCollapsed("Leung");
    SpaceJoinCollapsed("Daniel", "Leung");
  }

  /** Three words joined by single spaces make a collapsed text. */
  lemma WordsCollapsed(x: string, y: string, z: string, s: string)
    requires |x| > 0 && (IsCollapsed(x) || AsciiLetters(x)) && |y| > 0 && AsciiLetters(y)
    requires |z| > 0 && AsciiLetters(z)
    requires s == x + " " + y + " " + z
    ensures IsCollapsed(s)
  {
    if AsciiLetters(x) {
      LettersCollapsed(x);
    }
    LettersCollapsed(y);
    LettersCollapsed(z);
    SpaceJoinCollapsed(x, y);
    SpaceJoinCollapsed(x + " " + y, z);
  }

  predicate AsciiLetters(w: string) {
    forall i :: 0 <= i < |w| ==> ('A' <= w[i] <= 'Z') || ('a' <= w[i] <= 'z')
  }

  /** A word of ASCII letters has no white space at all. */
  lemma LettersCollapsed(w: string)
    requires |w| > 0 && AsciiLetters(w)
    ensures IsCollapsed(w)
  {
    forall i | 0 <= i < |w|
      ensures !IsSpace(w[i])
    {
    }
  }

  /** Two collapsed non-empty texts joined by one space make a collapsed text. */
  lemma SpaceJoinCollapsed(a: string, b: string)
    requires |a| > 0 && |b| > 0 && IsCollapsed(a) && IsCollapsed(b)
    ensures IsCollapsed(a + " " + b)
  {
    var t := a + " " + b;
    forall i | 0 <= i < |t| && IsSpace(t[i])
      ensures t[i] == ' ' && (i + 1 == |t| || !IsSpace(t[i + 1]))
    {
      if i < |a| {
        assert t[i] == a[i];
        assert t[i + 1] == (if i + 1 < |a| then a[i + 1] else ' ');
      } else if i == |a| {
        assert t[i + 1] == b[0];
      } else {
        assert t[i] == b[i - |a| - 1];
        if i + 1 < |t| {
          assert t[i + 1] == b[i - |a|];
        }
      }
    }
    assert t[0] == a[0] && t[|t| - 1] == b[|b| - 1];
  }

  /** A collapsed name whose case breaks leave it collapsed is spaced to exactly that. */
  lemma SpacedOfCollapsed(raw: string, spaced: string)
    requires IsCollapsed(raw) && IsCollapsed(spaced) && InsertCaseBreaks(raw) == spaced
    ensures SpacedName(Strip(raw)) == spaced
  {
    StripCollapsed(raw);
    CollapseFixpoint(spaced);
  }

  lemma ExampleWords()
    ensures Split("Daniel Leung Timothy Lock", ' ') == ["Daniel", "Leung", "Timothy", "Lock"]
  {
    ExampleJoin();
    SplitJoin(["Daniel", "Leung", "Timothy", "Lock"], ' ');
  }

  lemma ExampleJoin()
    ensures Join(["Daniel", "Leung", "Timothy", "Lock"], ' ') == "Daniel Leung Timothy Lock"
  {
    ExampleJoinTail();
    JoinMore("Daniel", ["Leung", "Timothy", "Lock"], "Leung Timothy Lock");
  }

  lemma ExampleJoinTail()
    ensures Join(["Leung", "Timothy", "Lock"], ' ') == "Leung Timothy Lock"
  {
    JoinTwoWords("Timothy", "Lock");
    JoinMore("Leung", ["Timothy", "Lock"], "Timothy Lock");
  }

  lemma JoinTwoWords(x: string, y: string)
    ensures Join([x, y], ' ') == x + " " + y
  {
    assert [x, y][1..] == [y];
  }

  lemma JoinMore(w: string, rest: seq<string>, joined: string)
    requires |rest| >= 1 && Join(rest, ' ') == joined
    ensures Join([w] + rest, ' ') == w + " " + joined
  {
    assert ([w] + rest)[1..] == rest;
  }

  /** The pieces of a text around one of its spaces lack any slash the text lacks. */
  lemma NoSlashInPieces(s: string, left: string, right: string)
    requires '/' !in s && left + " " + right == s
    ensures '/' !in left && '/' !in right
  {
    forall i | 0 <= i < |left| ensures left[i] != '/' {
      assert left[i] == s[i];
    }
    forall i | 0 <= i < |right| ensures right[i] != '/' {
      assert right[i] == s[|left| + 1 + i];
    }
  }

  /** `[p.strip() for p in s.split("/") if p.strip()]`. */
  function StrippedSlashParts(s: string): seq<string> {
    StripNonEmpty(Split(s, '/'))
  }

  function StripNonEmpty(ps: seq<string>): (r: seq<string>)
    ensures |r| <= |ps|
    decreases |ps|
  {
    if |ps| == 0 then []
    else
      var t := Strip(ps[0]);
      (if t != "" then [t] else []) + StripNonEmpty(ps[1..])
  }

  lemma StripNonEmptyOfTwo(x: string, y: string)
    requires Strip(x) != "" && Strip(y) != ""
    ensures StripNonEmpty([x, y]) == [Strip(x), Strip(y)]
  {
    var ps := [x, y];
    assert ps[1..] == [y] && ps[1..][1..] == [];
  }

  lemma SplitAtSlash(left: string, right: string)
    requires '/' !in left && '/' !in right
    ensures Split(left + " / " + right, '/') == [left + [' '], [' '] + right]
  {
    var a, b := left + [' '], [' '] + right;
    assert left + " / " + right == a + ['/'] + b;
    assert '/' !in a && '/' !in b;
    SplitAtFirst(a, '/', b);
    SplitNoSep(b, '/');
  }

  lemma StripPadded(w: string)
    requires IsCollapsed(w)
    ensures Strip(w + [' ']) == w && Strip([' '] + w) == w
  {
    assert forall i :: 0 <= i < |[' ']| ==> IsSpace([' '][i]);
    assert Strip(w + [' ']) == w by {
      if |w| == 0 {
        assert w + [' '] == [' '];
      } else {
        assert (w + [' '])[0] == w[0];
        LStripNoop(w + [' '], IsSpace);
        RStripSuffix(w, [' '], IsSpace);
        RStripNoop(w, IsSpace);
      }
    }
    assert Strip([' '] + w) == w by {
      LStripPrefix([' '], w, IsSpace);
      LStripNoop(w, IsSpace);
      RStripNoop(w, IsSpace);
    }
  }

  /** Splitting "left / right" at the slash gives back the two collapsed halves. */
  lemma SlashParts(left: string, right: string)
    requires IsCollapsed(left) && IsCollapsed(right) && left != "" && right != ""
    requires '/' !in left && '/' !in right
    ensures StrippedSlashParts(left + " / " + right) == [left, right]
  {
    SplitAtSlash(left, right);
    StripPadded(left);
    StripPadded(right);
    StripNonEmptyOfTwo(left + [' '], [' '] + right);
  }
}

=== FILE: draw_text.dfy ===
/**
 Reading the text of draw pages and tournament listings: the player names of
 a draw's lines, the event code a category title stands for, and the two date
 tests on tournament listings (overlap with a season, running today).
 */
module DrawText {
  import opened Opt
  import opened Text

  // ---------------------------------------------------------------------------
  // Seed marks: `re.sub(r"\[[^\]]+\]", "", t)`
  // ---------------------------------------------------------------------------

  /** The position of the first `c` in `s`, or `|s|` when there is none. */
  function IndexOf(s: string, c: char): (k: nat)
    ensures k <= |s|
    ensures forall i :: 0 <= i < k ==> s[i] != c
    ensures k < |s| ==> s[k] == c
    decreases |s|
  {
    if |s| == 0 then 0 else if s[0] == c then 0 else 1 + IndexOf(s[1..], c)
  }

  lemma IndexOfFound(x: string, c: char, y: string)
    requires c !in x
    ensures IndexOf(x + [c] + y, c) == |x|
  {
    var s := x + [c] + y;
    var k := IndexOf(s, c);
    assert s[|x|] == c;
    assert forall i :: 0 <= i < |x| ==> s[i] == x[i];
  }

  /** The pattern matches at the head of `s`: an opening bracket, at least one character that
      is not a closing bracket, then a closing bracket. */
  predicate MarkAtHead(s: string) {
    |s| >= 3 && s[0] == '[' && 0 < IndexOf(s[1..], ']') < |s| - 1
  }

  /** The text with every seed mark removed, scanning left to right as `re.sub` does. */
  function RemoveMarks(s: string): (r: string)
    ensures |r| <= |s|
    decreases |s|
  {
    if |s| == 0 then ""
    else if MarkAtHead(s) then RemoveMarks(s[IndexOf(s[1..], ']') + 2..])
    else [s[0]] + RemoveMarks(s[1..])
  }

  /** No position starts a seed mark. */
  predicate NoMarks(s: string) {
    forall i :: 0 <= i < |s| ==> !MarkAt(s, i)
  }

  /** A seed mark starts at position i. */
  predicate MarkAt(s: string, i: nat)
    requires i <= |s|
  {
    MarkAtHead(s[i..])
  }

  /** Removing marks adds no character. */
  lemma {:induction false} RemoveMarksKeepsOut(s: string, c: char)
    requires c !in s
    ensures c !in RemoveMarks(s)
    decreases |s|
  {
    if |s| > 0 {
      if MarkAtHead(s) {
        var k := IndexOf(s[1..], ']') + 2;
        assert forall i :: 0 <= i < |s[k..]| ==> s[k..][i] == s[k + i];
        RemoveMarksKeepsOut(s[k..], c);
      } else {
        assert forall i :: 0 <= i < |s[1..]| ==> s[1..][i] == s[i + 1];
        RemoveMarksKeepsOut(s[1..], c);
      }
    }
  }

  /** A text without an opening bracket comes back unchanged. */
  lemma {:induction false} RemoveMarksWithoutBracket(s: string)
    requires '[' !in s
    ensures RemoveMarks(s) == s
    decreases |s|
  {
    if |s| > 0 {
      RemoveMarksWithoutBracket(s[1..]);
      assert s == [s[0]] + s[1..];
    }
  }

  /** A name followed by its seed mark loses the mark and keeps the rest of the line. */
  lemma SeedMarkRemoved(name: string, mark: string, post: string)
    requires '[' !in name && mark != "" && ']' !in mark
    ensures RemoveMarks(name + "[" + mark + "]" + post) == name + RemoveMarks(post)
  {
    var tail := "[" + mark + "]" + post;
    assert name + "[" + mark + "]" + post == name + tail;
    RemoveMarksPlainPrefix(name, tail);
    MarkRemovedAtHead(mark, post, tail);
  }

  /** A prefix without an opening bracket is kept as it is. */
  lemma {:induction false} RemoveMarksPlainPrefix(name: string, rest: string)
    requires '[' !in name
    ensures RemoveMarks(name + rest) == name + RemoveMarks(rest)
    decreases |name|
  {
    if |name| > 0 {
      assert name + rest == [name[0]] + (name[1..] + rest);
      RemoveMarksCons(name[0], name[1..] + rest, name + rest);
      RemoveMarksPlainPrefix(name[1..], rest);
      assert name + RemoveMarks(rest) == [name[0]] + (name[1..] + RemoveMarks(rest));
    } else {
      assert name + rest == rest;
    }
  }

  /** A mark at the head of the text is dropped whole. */
  lemma MarkRemovedAtHead(mark: string, post: string, s: string)
    requires mark != "" && ']' !in mark && s == "[" + mark + "]" + post
    ensures RemoveMarks(s) == RemoveMarks(post)
  {
    assert s[1..] == mark + [']'] + post;
    IndexOfFound(mark, ']', post);
    assert MarkAtHead(s);
    assert s[|mark| + 2..] == post;
  }

  /** A character other than an opening bracket is kept. */
  lemma RemoveMarksCons(c: char, t: string, s: string)
    requires c != '[' && s == [c] + t
    ensures RemoveMarks(s) == [c] + RemoveMarks(t)
  {
    assert s[0] == c && !MarkAtHead(s);
    assert s[1..] == t;
  }

  /** The head of the result is the head of the text when no mark starts there. */
  lemma RemoveMarksHead(s: string)
    requires |s| > 0 && !MarkAtHead(s)
    ensures |RemoveMarks(s)| > 0 && RemoveMarks(s)[0] == s[0]
  {
  }

  /** An opening bracket with no closing bracket after it, or with one right after it, starts
      no mark. */
  lemma NoMarkAtBracket(r: string)
    requires |r| > 0 && r[0] == '['
    requires ']' !in r[1..] || (|r| > 1 && r[1] == ']')
    ensures !MarkAtHead(r)
  {
  }

  lemma NoMarksCons(c: char, t: string)
    requires NoMarks(t) && !MarkAtHead([c] + t)
    ensures NoMarks([c] + t)
  {
    var r := [c] + t;
    forall i | 0 <= i < |r| ensures !MarkAt(r, i) {
      if i > 0 {
        assert r[i..] == t[i - 1..];
        assert !MarkAt(t, i - 1);
      } else {
        assert r[0..] == r;
      }
    }
  }

  /** What is left contains no seed mark, so removing marks twice removes nothing more. */
  lemma {:induction false} RemoveMarksClean(s: string)
    ensures NoMarks(RemoveMarks(s))
    decreases |s|
  {
    if |s| == 0 {
    } else if MarkAtHead(s) {
      RemoveMarksClean(s[IndexOf(s[1..], ']') + 2..]);
    } else {
      var t := RemoveMarks(s[1..]);
      RemoveMarksClean(s[1..]);
      var r := [s[0]] + t;
      assert RemoveMarks(s) == r;
      if s[0] == '[' {
        if |s| >= 3 && IndexOf(s[1..], ']') == 0 {
          assert s[1..][0] == ']';
          RemoveMarksHead(s[1..]);
          assert r[1] == ']';
        } else if |s| >= 3 {
          assert IndexOf(s[1..], ']') == |s| - 1;
          assert ']' !in s[1..];
          assert r[1..] == t;
          RemoveMarksKeepsOut(s[1..], ']');
        }
        NoMarkAtBracket(r);
      }
      NoMarksCons(s[0], t);
    }
  }

  /** Text without marks comes back unchanged. */
  lemma {:induction false} RemoveMarksNoop(s: string)
    requires NoMarks(s)
    ensures RemoveMarks(s) == s
    decreases |s|
  {
    if |s| > 0 {
      assert s[0..] == s && !MarkAt(s, 0);
      assert NoMarks(s[1..]) by {
        forall i | 0 <= i < |s[1..]| ensures !MarkAt(s[1..], i) {
          assert s[1..][i..] == s[i + 1..];
          assert !MarkAt(s, i + 1);
        }
      }
      RemoveMarksNoop(s[1..]);
      assert s == [s[0]] + s[1..];
    }
  }

  lemma RemoveMarksIdempotent(s: string)
    ensures RemoveMarks(RemoveMarks(s)) == RemoveMarks(s)
  {
    RemoveMarksClean(s);
    RemoveMarksNoop(RemoveMarks(s));
  }

  /** Any stretch of a text without marks is without marks: a bracket that starts no mark either
      has no closing bracket after it or is closed at once, and both survive cutting. */
  lemma NoMarksSlice(s: string, a: nat, b: nat)
    requires a <= b <= |s| && NoMarks(s)
    ensures NoMarks(s[a..b])
  {
    var t := s[a..b];
    forall i | 0 <= i < |t| ensures !MarkAt(t, i) {
      var u := t[i..];
      var v := s[a + i..];
      assert !MarkAt(s, a + i);
      if |u| >= 3 && u[0] == '[' {
        assert u[1..] == v[1..][..|u| - 1];
        var k := IndexOf(v[1..], ']');
        if k == 0 {
          assert u[1] == ']';
        } else {
          assert k >= |v| - 1;
          assert forall j :: 0 <= j < |u| - 1 ==> u[1..][j] != ']';
        }
        NoMarkAtBracket(u);
      }
    }
  }

  // ---------------------------------------------------------------------------
  // Names of a draw (`_extract_names_from_lines`)
  // ---------------------------------------------------------------------------

  /** Lines that stand for no player. */
  const Fillers: seq<string> := ["h2h", "bye", "cancelled"]

  /** Words of round, group and venue headers, matched as whole words in the lower-cased line. */
  const HeaderWords: seq<string> := ["round", "groupe", "group", "final", "semi", "quarter", "venue", "court"]

  /** Event codes, matched as whole words with their case. */
  const EventCodes: seq<string> := ["MSA", "WSA", "MS", "WS", "MD", "WD", "XD", "DMB", "DMC", "DMA", "DDA", "DDC"]

  /** `re.search(r"\b(w1|w2|...)\b", s)` finds a match. */
  predicate HasAnyWord(s: string, words: seq<string>) {
    exists k :: 0 <= k < |words| && ContainsWord(s, words[k])
  }

  /** `re.search(r"\d", s)` finds a match. */
  predicate HasDigit(s: string) {
    exists i :: 0 <= i < |s| && IsAsciiDigit(s[i])
  }

  /** A cleaned line that passes every filter of api/main.py:1565-1576. */
  predicate IsName(t: string) {
    && Lower(t) !in Fillers
    && !HasAnyWord(Lower(t), HeaderWords)
    && !HasAnyWord(t, EventCodes)
    && !HasDigit(t)
    && |t| >= 3
  }

  /** Stripping keeps a text free of marks. */
  lemma StripKeepsNoMarks(m: string)
    requires NoMarks(m)
    ensures NoMarks(Strip(m))
  {
    var l := LStripWhile(m, IsSpace);
    NoMarksSuffix(m, l);
    NoMarksPrefix(l, RStripWhile(l, IsSpace));
  }

  lemma NoMarksSuffix(m: string, l: string)
    requires NoMarks(m) && |l| <= |m| && l == m[|m| - |l|..]
    ensures NoMarks(l)
  {
    var a := |m| - |l|;
    forall i | 0 <= i < |l| ensures !MarkAt(l, i) {
      assert l[i..] == m[a + i..];
      assert !MarkAt(m, a + i);
    }
  }

  lemma NoMarksPrefix(l: string, r: string)
    requires NoMarks(l) && |r| <= |l| && r == l[..|r|]
    ensures NoMarks(r)
  {
    NoMarksSlice(l, 0, |r|);
    var p := l[0..|r|];
    forall i | 0 <= i < |r| ensures !MarkAt(r, i) {
      assert r[i..] == p[i..];
      assert !MarkAt(p, i);
    }
  }

  /** No seed mark, and no space at either end. */
  predicate IsClean(t: string) {
    NoMarks(t) && (|t| > 0 ==> !IsSpace(t[0]) && !IsSpace(t[|t| - 1]))
  }

  /** The line stripped, its seed marks removed, and stripped again. */
  function CleanLine(raw: string): (t: string)
    ensures IsClean(t)
  {
    RemoveMarksClean(Strip(raw));
    StripKeepsNoMarks(RemoveMarks(Strip(raw)));
    StripEnds(RemoveMarks(Strip(raw)));
    Strip(RemoveMarks(Strip(raw)))
  }

  /** The name a line of a draw holds, if it holds one (the body of the loop at
      api/main.py:1559-1577). */
  function NameOf(raw: string): (n: Option<string>)
    ensures n.Some? ==> n.value == CleanLine(raw) && IsName(n.value)
    ensures n.None? ==> Strip(raw) == "" || !IsName(CleanLine(raw))
  {
    if Strip(raw) == "" then None
    else
      var t := CleanLine(raw);
      if IsName(t) then Some(t) else None
  }

  /** A stripped text without marks is its own cleaned line. */
  lemma CleanLineFixpoint(t: string)
    requires IsClean(t) && |t| > 0
    ensures Strip(t) == t && CleanLine(t) == t
  {
    LStripNoop(t, IsSpace);
    RStripNoop(t, IsSpace);
    RemoveMarksNoop(t);
  }

  /** A name read from a line reads back as itself: it is stripped and carries no seed mark. */
  lemma NameIsFixpoint(raw: string)
    requires NameOf(raw).Some?
    ensures NameOf(NameOf(raw).value) == NameOf(raw)
  {
    var n := CleanLine(raw);
    assert |n| > 0 by { assert IsName(n); }
    CleanLineFixpoint(n);
  }

  lemma NotAWord(s: string, w: string, c: char)
    requires c in w && c !in s
    ensures !ContainsWord(s, w)
  {
    MissingCharNotContained(s, w, c);
  }

  lemma SeededLineStripped()
    ensures Strip("Lai Victor [3/4]") == "Lai Victor [3/4]"
  {
    LStripNoop("Lai Victor [3/4]", IsSpace);
    RStripNoop("Lai Victor [3/4]", IsSpace);
  }

  lemma SeededLineUnmarked()
    ensures RemoveMarks("Lai Victor [3/4]") == "Lai Victor "
  {
    SeedMarkRemoved("Lai Victor ", "3/4", "");
    assert "Lai Victor [3/4]" == "Lai Victor " + "[" + "3/4" + "]" + "";
    RemoveMarksWithoutBracket("Lai Victor ");
  }

  lemma TrailingSpaceStripped()
    ensures Strip("Lai Victor ") == "Lai Victor"
  {
    LStripNoop("Lai Victor ", IsSpace);
    RStripSuffix("Lai Victor", " ", IsSpace);
    assert "Lai Victor" + " " == "Lai Victor ";
    RStripNoop("Lai Victor", IsSpace);
  }

  lemma SeededLineCleaned()
    ensures Strip("Lai Victor [3/4]") != ""
    ensures CleanLine("Lai Victor [3/4]") == "Lai Victor"
  {
    SeededLineStripped();
    SeededLineUnmarked();
    TrailingSpaceStripped();
  }

  /** A text lacking these letters holds no header word. */
  lemma NoHeaderWord(s: string)
    requires 'u' !in s && 'g' !in s && 'f' !in s && 's' !in s && 'q' !in s && 'e' !in s
    ensures !HasAnyWord(s, HeaderWords)
  {
    NotAWord(s, "round", 'u');
    NotAWord(s, "groupe", 'g');
    NotAWord(s, "group", 'g');
    NotAWord(s, "final", 'f');
    NotAWord(s, "semi", 's');
    NotAWord(s, "quarter", 'q');
    NotAWord(s, "venue", 'e');
    NotAWord(s, "court", 'u');
  }

  /** A text lacking these capitals holds no event code. */
  lemma NoEventCode(s: string)
    requires 'M' !in s && 'W' !in s && 'X' !in s && 'D' !in s
    ensures !HasAnyWord(s, EventCodes)
  {
    NotAWord(s, "MSA", 'M');
    NotAWord(s, "WSA", 'W');
    NotAWord(s, "MS", 'M');
    NotAWord(s, "WS", 'W');
    NotAWord(s, "MD", 'M');
    NotAWord(s, "WD", 'W');
    NotAWord(s, "XD", 'X');
    NotAWord(s, "DMB", 'D');
    NotAWord(s, "DMC", 'D');
    NotAWord(s, "DMA", 'D');
    NotAWord(s, "DDA", 'D');
    NotAWord(s, "DDC", 'D');
  }

  /** A line with no bracket and no space at either end is its own cleaned line. */
  lemma PlainLine(t: string)
    requires '[' !in t && |t| > 0 && !IsSpace(t[0]) && !IsSpace(t[|t| - 1])
    ensures Strip(t) == t && CleanLine(t) == t
  {
    assert NoMarks(t) by {
      forall i | 0 <= i < |t| ensures !MarkAt(t, i) {
        assert t[i..][0] == t[i];
      }
    }
    CleanLineFixpoint(t);
  }

  lemma PlainNameLowered()
    ensures Lower("Lai Victor") == "lai victor"
  {
    forall i | 0 <= i < 10 ensures Lower("Lai Victor")[i] == "lai victor"[i] {
    }
  }

  lemma PlainNameHasNoDigit()
    ensures !HasDigit("Lai Victor")
  {
    forall i | 0 <= i < 10 ensures !IsAsciiDigit("Lai Victor"[i]) {
    }
  }

  lemma PlainNameHasNoHeaderWord()
    ensures !HasAnyWord("lai victor", HeaderWords)
  {
    NoHeaderWord("lai victor");
  }

  lemma PlainNameHasNoEventCode()
    ensures !HasAnyWord("Lai Victor", EventCodes)
  {
    NoEventCode("Lai Victor");
  }

  lemma PlainNameIsName()
    ensures IsName("Lai Victor")
  {
    PlainNameLowered();
    PlainNameHasNoDigit();
    PlainNameHasNoHeaderWord();
    PlainNameHasNoEventCode();
  }

  /** The seed mark goes and the name stays. */
  lemma SeededNameRead()
    ensures NameOf("Lai Victor [3/4]") == Some("Lai Victor")
  {
    SeededLineCleaned();
    PlainNameIsName();
  }

  /** A bye holds no name. */
  lemma ByeSkipped()
    ensures NameOf("Bye") == None
  {
    PlainLine("Bye");
    ByeIsFiller();
  }

  lemma ByeIsFiller()
    ensures !IsName("Bye")
  {
    forall i | 0 <= i < 3 ensures Lower("Bye")[i] == "bye"[i] {
    }
    assert Lower("Bye") == Fillers[1];
  }

  /** A score line holds no name. */
  lemma ScoreSkipped()
    ensures NameOf("21-15") == None
  {
    PlainLine("21-15");
    assert IsAsciiDigit("21-15"[0]);
  }

  // ---------------------------------------------------------------------------
  // De-duplication, first occurrence kept
  // ---------------------------------------------------------------------------

  predicate Distinct(xs: seq<string>) {
    forall i, j :: 0 <= i < j < |xs| ==> xs[i] != xs[j]
  }

  /** Each value once, at its first occurrence. */
  function FirstOccurrences(xs: seq<string>): (r: seq<string>)
    ensures forall x :: x in r <==> x in xs
    ensures Distinct(r)
    decreases |xs|
  {
    if |xs| == 0 then []
    else
      var r := FirstOccurrences(xs[..|xs| - 1]);
      var x := xs[|xs| - 1];
      assert xs == xs[..|xs| - 1] + [x];
      if x in r then r else r + [x]
  }

  /** Where a value first occurs. */
  function FirstIndex(xs: seq<string>, x: string): (k: nat)
    requires x in xs
    ensures k < |xs| && xs[k] == x
    ensures forall j :: 0 <= j < k ==> xs[j] != x
    decreases |xs|
  {
    if xs[0] == x then 0 else 1 + FirstIndex(xs[1..], x)
  }

  lemma FirstIndexPrefix(xs: seq<string>, ys: seq<string>, x: string)
    requires x in xs
    ensures FirstIndex(xs + ys, x) == FirstIndex(xs, x)
  {
    var k := FirstIndex(xs, x);
    var k' := FirstIndex(xs + ys, x);
    assert (xs + ys)[k] == x;
    assert forall j :: 0 <= j < |xs| ==> (xs + ys)[j] == xs[j];
  }

  /** The entries of `r` occur in `xs`, in the order of their first occurrences there. */
  predicate InFirstOrder(xs: seq<string>, r: seq<string>) {
    forall i, j :: 0 <= i < j < |r| && r[i] in xs && r[j] in xs ==> FirstIndex(xs, r[i]) < FirstIndex(xs, r[j])
  }

  lemma {:induction false} FirstOccurrencesOrder(xs: seq<string>)
    ensures InFirstOrder(xs, FirstOccurrences(xs))
    decreases |xs|
  {
    if |xs| > 0 {
      var ys := xs[..|xs| - 1];
      var x := xs[|xs| - 1];
      assert xs == ys + [x];
      var r' := FirstOccurrences(ys);
      FirstOccurrencesOrder(ys);
      var r := FirstOccurrences(xs);
      forall i, j | 0 <= i < j < |r| && r[i] in xs && r[j] in xs ensures FirstIndex(xs, r[i]) < FirstIndex(xs, r[j]) {
        assert r[i] in ys;
        FirstIndexPrefix(ys, [x], r[i]);
        if j < |r'| {
          assert r[j] == r'[j] && r[i] == r'[i];
          assert r'[i] in ys && r'[j] in ys;
          FirstIndexPrefix(ys, [x], r[j]);
        } else {
          assert r[j] == x && x !in ys;
          assert FirstIndex(xs, r[i]) < |ys|;
          assert FirstIndex(xs, x) >= |ys| by {
            assert forall k :: 0 <= k < |ys| ==> xs[k] == ys[k];
          }
        }
      }
    }
  }

  /** The present results of `f` on the entries, in entry order. */
  function FilterMap<T, U(!new)>(xs: seq<T>, f: T -> Option<U>): (ys: seq<U>)
    ensures forall y :: y in ys <==> exists i :: 0 <= i < |xs| && f(xs[i]) == Some(y)
    decreases |xs|
  {
    if |xs| == 0 then []
    else
      var prev := FilterMap(xs[..|xs| - 1], f);
      assert forall i :: 0 <= i < |xs| - 1 ==> xs[..|xs| - 1][i] == xs[i];
      match f(xs[|xs| - 1])
      case Some(y) => prev + [y]
      case None => prev
  }

  /** `_extract_names_from_lines` (api/main.py:1557-1585): the names of the lines, each once,
      in the order they first appear. */
  method ExtractNames(lines: seq<string>) returns (out: seq<string>)
    ensures Distinct(out)
    ensures forall n :: n in out <==> exists i :: 0 <= i < |lines| && NameOf(lines[i]) == Some(n)
    ensures forall n :: n in out ==> IsName(n) && IsClean(n)
    ensures out == FirstOccurrences(FilterMap(lines, NameOf))
  {
    var names := CollectNames(lines);
    out := KeepFirst(names);
    NamesOfLines(lines);
  }

  /** The names of the lines in line order, repeats included. */
  method CollectNames(lines: seq<string>) returns (names: seq<string>)
    ensures names == FilterMap(lines, NameOf)
  {
    names := [];
    var i := 0;
    while i < |lines|
      invariant 0 <= i <= |lines|
      invariant names == FilterMap(lines[..i], NameOf)
    {
      assert lines[..i + 1][..i] == lines[..i];
      match NameOf(lines[i]) {
        case Some(n) => names := names + [n];
        case None =>
      }
      i := i + 1;
    }
    assert lines[..|lines|] == lines;
  }

  /** The loop with the `seen` set: every entry the first time it comes. */
  method KeepFirst(names: seq<string>) returns (out: seq<string>)
    ensures out == FirstOccurrences(names)
  {
    out := [];
    var seen: set<string> := {};
    var k := 0;
    while k < |names|
      invariant 0 <= k <= |names|
      invariant out == FirstOccurrences(names[..k])
      invariant seen == set x | x in out
    {
      assert names[..k + 1][..k] == names[..k];
      var n := names[k];
      if n !in seen {
        seen := seen + {n};
        out := out + [n];
      }
      k := k + 1;
    }
    assert names[..|names|] == names;
  }

  /** The first occurrences of the lines' names are exactly their names, each a cleaned name. */
  lemma NamesOfLines(lines: seq<string>)
    ensures var out := FirstOccurrences(FilterMap(lines, NameOf));
      && Distinct(out)
      && (forall n :: n in out <==> exists i :: 0 <= i < |lines| && NameOf(lines[i]) == Some(n))
      && (forall n :: n in out ==> IsName(n) && IsClean(n))
  {
    var out := FirstOccurrences(FilterMap(lines, NameOf));
    forall n | n in out ensures IsName(n) && IsClean(n) {
      var j :| 0 <= j < |lines| && NameOf(lines[j]) == Some(n);
    }
  }

  // ---------------------------------------------------------------------------
  // Category titles (`_map_category_code_from_text`)
  // ---------------------------------------------------------------------------

  /** `(text or "").strip().lower()`; a missing title is the empty one. */
  function CategoryText(text: string): string {
    Lower(Strip(text))
  }

  predicate SaysWomen(t: string) { Contains(t, "women") || Contains(t, "ladies") }

  /** The title names a sex and singles or doubles. */
  predicate NamedEvent(t: string) {
    (SaysWomen(t) || Contains(t, "men")) && (Contains(t, "single") || Contains(t, "double"))
  }

  /** The mapping as written at api/main.py:606-618: the men's tests run first, and "women"
      contains "men". */
  function CategoryCodeAsWritten(text: string): (code: Option<string>)
    ensures code == Some("WS") ==> !Contains(CategoryText(text), "women")
    ensures code == Some("WD") ==> !Contains(CategoryText(text), "women")
  {
    var t := CategoryText(text);
    assert Contains(t, "women") ==> Contains(t, "men") by {
      if Contains(t, "women") {
        ContainsInner(t, "women", "men", 2);
      }
    }
    if Contains(t, "men") && Contains(t, "single") then Some("MS")
    else if SaysWomen(t) && Contains(t, "single") then Some("WS")
    else if Contains(t, "men") && Contains(t, "double") then Some("MD")
    else if SaysWomen(t) && Contains(t, "double") then Some("WD")
    else if Contains(t, "mixed") then Some("XD")
    else None
  }

  /** The women's tests first, so a title naming women maps to a women's event. */
  function CategoryCode(text: string): (code: Option<string>)
    ensures var t := CategoryText(text);
      && (code == Some("WS") <==> SaysWomen(t) && Contains(t, "single"))
      && (code == Some("MS") <==> !SaysWomen(t) && Contains(t, "men") && Contains(t, "single"))
      && (code == Some("WD") <==> SaysWomen(t) && !Contains(t, "single") && Contains(t, "double"))
      && (code == Some("MD") <==> !SaysWomen(t) && Contains(t, "men") && !Contains(t, "single")
                                   && Contains(t, "double"))
      && (code == Some("XD") <==> Contains(t, "mixed") && !NamedEvent(t))
      && (code == None <==> !Contains(t, "mixed") && !NamedEvent(t))
    ensures code.Some? ==> code.value in ["MS", "WS", "MD", "WD", "XD"]
  {
    var t := CategoryText(text);
    if SaysWomen(t) && Contains(t, "single") then Some("WS")
    else if Contains(t, "men") && Contains(t, "single") then Some("MS")
    else if SaysWomen(t) && Contains(t, "double") then Some("WD")
    else if Contains(t, "men") && Contains(t, "double") then Some("MD")
    else if Contains(t, "mixed") then Some("XD")
    else None
  }

  /** For titles that name no women the two mappings agree. */
  lemma CategoryCodeAgrees(text: string)
    requires !SaysWomen(CategoryText(text))
    ensures CategoryCode(text) == CategoryCodeAsWritten(text)
  {
  }

  lemma WomensSinglesText()
    ensures CategoryText("Women's Singles") == "women's singles"
  {
    LStripNoop("Women's Singles", IsSpace);
    RStripNoop("Women's Singles", IsSpace);
  }

  /** "Women's Singles" maps to men's singles as written, and to women's singles once corrected. */
  lemma WomensSinglesMisread()
    ensures CategoryCodeAsWritten("Women's Singles") == Some("MS")
    ensures CategoryCode("Women's Singles") == Some("WS")
  {
    WomensSinglesText();
    var t := "women's singles";
    assert OccursAt(t, "men", 2);
    assert OccursAt(t, "women", 0);
    assert OccursAt(t, "single", 8);
  }

  // ---------------------------------------------------------------------------
  // Listing dates (`_overlaps_season`, `_is_live_tournament`)
  // ---------------------------------------------------------------------------

  /** Python's `s[:10]`. */
  function Take10(s: string): (r: string)
    ensures |r| <= 10 && |r| <= |s| && r == s[..|r|]
    ensures |s| >= 10 ==> |r| == 10
  {
    if |s| <= 10 then s else s[..10]
  }

  /** `_overlaps_season` (api/main.py:790-798): an event with a start date overlaps the season
      when it starts no later than the season ends and ends no earlier than the season starts,
      comparing the first ten characters as strings. A missing end date is the start date. */
  function OverlapsSeason(start: Option<string>, end: Option<string>, seasonStart: string,
                          seasonEnd: string): (r: bool)
    ensures r ==> start.Some? && start.value != ""
    ensures r ==> LexLe(Take10(start.value), seasonEnd)
    ensures r ==> LexLe(seasonStart, Take10(OrElse(end.GetOr(""), start.value)))
    ensures start.Some? && start.value != "" && end.GetOr("") == "" ==>
      (r <==> LexLe(Take10(start.value), seasonEnd) && LexLe(seasonStart, Take10(start.value)))
  {
    var s := start.GetOr("");
    if s == "" then false
    else
      var sd := Take10(s);
      var ed := Take10(OrElse(end.GetOr(""), s));
      LexLe(sd, seasonEnd) && LexLe(seasonStart, ed)
  }

  /** For full dates, an event overlaps a season exactly when it starts no later than the season
      ends and ends no earlier than the season starts: one that ends before the season starts, or
      starts after it ends, does not. */
  lemma OverlapsDates(sd: string, ed: string, seasonStart: string, seasonEnd: string)
    requires |sd| == 10 && |ed| == 10
    ensures OverlapsSeason(Some(sd), Some(ed), seasonStart, seasonEnd) <==>
      LexLe(sd, seasonEnd) && LexLe(seasonStart, ed)
  {
    assert sd[..10] == sd && ed[..10] == ed;
  }

  /** An event that overlaps a season overlaps every season containing it. */
  lemma OverlapsWiderSeason(start: Option<string>, end: Option<string>, s0: string, e0: string,
                            s1: string, e1: string)
    requires OverlapsSeason(start, end, s0, e0)
    requires LexLe(s1, s0) && LexLe(e0, e1)
    ensures OverlapsSeason(start, end, s1, e1)
  {
    var s := start.value;
    LexLeTransitive(Take10(s), e0, e1);
    LexLeTransitive(s1, s0, Take10(OrElse(end.GetOr(""), s)));
  }

  lemma Take10Append(d: string, rest: string)
    requires |d| == 10
    ensures Take10(d + rest) == d
  {
    assert (d + rest)[..10] == d;
  }

  /** Only the first ten characters of a date count: a time after the date changes nothing. */
  lemma OverlapsIgnoresTime(d: string, time: string, e: string, seasonStart: string, seasonEnd: string)
    requires |d| == 10
    ensures OverlapsSeason(Some(d + time), Some(e), seasonStart, seasonEnd)
         == OverlapsSeason(Some(d), Some(e), seasonStart, seasonEnd)
    ensures OverlapsSeason(Some(d + time), None, seasonStart, seasonEnd)
         == OverlapsSeason(Some(d), None, seasonStart, seasonEnd)
  {
    Take10Append(d, time);
    Take10Append(d, "");
    assert d + "" == d;
  }

  /** An event inside the season overlaps it. */
  lemma InsideSeasonOverlaps(sd: string, ed: string, seasonStart: string, seasonEnd: string)
    requires |sd| == 10 && |ed| == 10
    requires LexLe(seasonStart, sd) && LexLe(sd, ed) && LexLe(ed, seasonEnd)
    ensures OverlapsSeason(Some(sd), Some(ed), seasonStart, seasonEnd)
  {
    LexLeTransitive(sd, ed, seasonEnd);
    LexLeTransitive(seasonStart, sd, ed);
  }

  /** Python's `s.split(" ")[0]`: what comes before the first space. */
  function DatePart(s: string): string {
    Split(s, ' ')[0]
  }

  /** `_is_live_tournament` (api/main.py:989-996): today's date lies between the date parts of
      the start and of the end, the start standing in for a missing end. */
  function IsLiveTournament(start: Option<string>, end: Option<string>, today: string): (live: bool)
    ensures live ==> start.Some? && DatePart(start.value) != ""
    ensures live ==> LexLe(DatePart(start.value), today)
    ensures start.Some? && DatePart(start.value) != "" && DatePart(end.GetOr("")) == "" ==>
      (live <==> LexLe(DatePart(start.value), today) && LexLe(today, DatePart(start.value)))
  {
    var s := start.GetOr("");
    var sd := if s != "" then DatePart(s) else "";
    var e := end.GetOr("");
    var ed := if e != "" then DatePart(e) else sd;
    if s == "" || sd == "" then false
    else LexLe(sd, today) && LexLe(today, OrElse(ed, sd))
  }

  lemma DatePartOfDate(d: string, time: string)
    requires ' ' !in d
    ensures DatePart(d) == d
    ensures DatePart(d + " " + time) == d
  {
    SplitNoSep(d, ' ');
    SplitAtFirst(d, ' ', time);
  }

  /** The time after a start date changes nothing. */
  lemma LiveIgnoresTime(d: string, time: string, end: Option<string>, today: string)
    requires ' ' !in d
    ensures IsLiveTournament(Some(d + " " + time), end, today) == IsLiveTournament(Some(d), end, today)
  {
    DatePartOfDate(d, time);
  }

  /** A one-day event is live on that day and on no other. */
  lemma OneDayLive(d: string, today: string)
    requires d != "" && ' ' !in d
    ensures IsLiveTournament(Some(d), None, today) <==> today == d
  {
    DatePartOfDate(d, "");
    assert DatePart("") == "";
    if today == d {
      LexLeReflexive(d);
    }
    if LexLe(d, today) && LexLe(today, d) {
      LexLeAntisymmetric(d, today);
    }
  }

  /** An event is live on every day from its start to its end. */
  lemma LiveBetween(sd: string, ed: string, today: string)
    requires sd != "" && ed != "" && ' ' !in sd && ' ' !in ed
    ensures IsLiveTournament(Some(sd), Some(ed), today) <==> LexLe(sd, today) && LexLe(today, ed)
  {
    DatePartOfDate(sd, "");
    DatePartOfDate(ed, "");
  }
}

=== FILE: elo_math.dfy ===
/**
 The arithmetic of the Elo model: the K-factor tier of a tournament, the
 rating a seed stands for, and the four win/loss deltas of a prediction.
 The expected score itself (a power of ten) is left to the caller as a real.
 */
module EloMath {
  import opened Text

  // ---------------------------------------------------------------------------
  // K-factor tiers
  // ---------------------------------------------------------------------------

  predicate ChampionshipTier(t: string) {
    Contains(t, "championship") || Contains(t, "championnat")
  }

  predicate NationalTier(t: string) {
    Contains(t, "national") || Contains(t, "nationaux") || Contains(t, "canadian")
  }

  predicate ProvincialTier(t: string) {
    Contains(t, "abc") || Contains(t, "provinc") || Contains(t, "quebec")
  }

  /** `_k_factor` (api/main.py:1379-1388): the weight of one result, by tournament tier. The
      provincial test returns the same 50 as the default. */
  function KFactor(tournamentName: string): (k: int)
    ensures k == 100 <==> ChampionshipTier(Lower(tournamentName))
    ensures k == 75 <==> !ChampionshipTier(Lower(tournamentName)) && NationalTier(Lower(tournamentName))
    ensures k == 50 <==> !ChampionshipTier(Lower(tournamentName)) && !NationalTier(Lower(tournamentName))
  {
    var t := Lower(tournamentName);
    if ChampionshipTier(t) then 100
    else if NationalTier(t) then 75
    else if ProvincialTier(t) then 50
    else 50
  }

  /** Only three weights exist. */
  lemma KFactorRange(t: string)
    ensures KFactor(t) in {50, 75, 100}
  {
  }

  /** Adding words around a tournament name never lowers its weight. */
  lemma KFactorMonotone(pre: string, t: string, post: string)
    ensures KFactor(pre + t + post) >= KFactor(t)
  {
    var lt := Lower(t);
    LowerAppend(pre, t);
    LowerAppend(pre + t, post);
    assert Lower(pre + t + post) == Lower(pre) + lt + Lower(post);
    forall w | Contains(lt, w) ensures Contains(Lower(pre + t + post), w) {
      ContainsExtend(lt, w, Lower(pre), Lower(post));
    }
  }

  /** The tier test ignores case. */
  lemma KFactorCaseInsensitive(t: string)
    ensures KFactor(Lower(t)) == KFactor(t)
  {
    LowerIdempotent(t);
  }

  /** A name with none of the tier words weighs 50; the empty name in particular. */
  lemma KFactorDefault()
    ensures KFactor("") == 50
  {
    assert Lower("") == "";
    MissingCharNotContained("", "championship", 'c');
    MissingCharNotContained("", "championnat", 'c');
    MissingCharNotContained("", "national", 'n');
    MissingCharNotContained("", "nationaux", 'n');
    MissingCharNotContained("", "canadian", 'c');
  }

  // ---------------------------------------------------------------------------
  // Seed to rating
  // ---------------------------------------------------------------------------

  /** The seed that stands for an unseeded player. */
  const Unseeded: int := 9999

  /** `_seed_to_rating` (api/main.py:1684-1689). */
  function SeedToRating(seed: int): (r: real)
    ensures 1200.0 <= r <= 2000.0
    ensures seed <= 0 || seed >= Unseeded ==> r == 1500.0
    ensures 0 < seed < Unseeded ==> r == (if seed < 160 then 2000.0 - 5.0 * seed as real else 1200.0)
  {
    if seed <= 0 || seed >= Unseeded then 1500.0
    else
      var rating := 2000.0 - seed as real * 5.0;
      var capped := if 2000.0 < rating then 2000.0 else rating;
      if 1200.0 < capped then capped else 1200.0
  }

  /** A better (smaller) seed never maps to a lower rating. */
  lemma SeedToRatingMonotone(s1: int, s2: int)
    requires 0 < s1 <= s2 < Unseeded
    ensures SeedToRating(s1) >= SeedToRating(s2)
  {
  }

  /** The best seed maps to 1995: the upper clamp at 2000 is never reached. */
  lemma SeedOneRating()
    ensures SeedToRating(1) == 1995.0
    ensures forall s :: 0 < s < Unseeded ==> SeedToRating(s) < 2000.0
  {
  }

  // ---------------------------------------------------------------------------
  // Prediction deltas
  // ---------------------------------------------------------------------------

  datatype Prediction = Prediction(
    expectedA: real, expectedB: real,
    deltaAWin: real, deltaALoss: real, deltaBWin: real, deltaBLoss: real,
    k: real)

  /** The four deltas for expected score `e` of player A and weight `k`
      (api/main.py:1722-1741 and 1778-1793). */
  function Predict(e: real, k: real): (p: Prediction)
    ensures p.expectedA == e && p.k == k
    ensures p.expectedA + p.expectedB == 1.0
    ensures p.deltaAWin == k * p.expectedB && p.deltaALoss == -(k * p.expectedA)
    ensures p.deltaBWin == -p.deltaALoss && p.deltaBLoss == -p.deltaAWin
    ensures p.deltaAWin - p.deltaALoss == k
    ensures p.deltaAWin + p.deltaBLoss == 0.0 && p.deltaALoss + p.deltaBWin == 0.0
    ensures 0.0 <= e <= 1.0 && k >= 0.0 ==> p.deltaAWin >= 0.0 && p.deltaALoss <= 0.0
    ensures 0.0 <= e <= 1.0 && k >= 0.0 ==> p.deltaBWin >= 0.0 && p.deltaBLoss <= 0.0
  {
    var aWin := k * (1.0 - e);
    var aLoss := k * (0.0 - e);
    assert aWin - aLoss == k by {
      assert aWin == k - k * e && aLoss == -(k * e);
    }
    assert 0.0 <= e <= 1.0 && k >= 0.0 ==> aWin >= 0.0 && aLoss <= 0.0 by {
      if 0.0 <= e <= 1.0 && k >= 0.0 {
        ProductNonNegative(k, e);
        ProductNonNegative(k, 1.0 - e);
      }
    }
    Prediction(e, 1.0 - e, aWin, aLoss, -aLoss, -aWin, k)
  }

  lemma ProductNonNegative(a: real, b: real)
    requires a >= 0.0 && b >= 0.0
    ensures a * b >= 0.0
  {
  }

  /** The same match seen from the other side. */
  function Mirror(p: Prediction): Prediction {
    Prediction(p.expectedB, p.expectedA, p.deltaBWin, p.deltaBLoss, p.deltaAWin, p.deltaALoss, p.k)
  }

  /** Swapping the players turns the expected score into its complement. */
  lemma PredictMirror(e: real, k: real)
    ensures Predict(1.0 - e, k) == Mirror(Predict(e, k))
  {
  }
}

=== FILE: identity.dfy ===
/**
 Player identity: turning the display names of two ranking sources into one
 lookup key, the reverse indexes from key to player id, and the heuristic
 that splits a concatenated doubles team name into its two players.
 */
module Identity {
  import opened Text
  import opened Opt

  type PlayerId = string

  // ---------------------------------------------------------------------------
  // Character-level steps of the key
  // ---------------------------------------------------------------------------

  /** Canonical decomposition of one character followed by dropping combining marks
      (the accent-stripping helper), on Latin-1 letters and the combining block U+0300..U+036F. */
  function BaseLetter(c: char): string {
    if '\U{0300}' <= c <= '\U{036F}' then ""
    else if '\U{00C0}' <= c <= '\U{00C5}' then "A"
    else if c == '\U{00C7}' then "C"
    else if '\U{00C8}' <= c <= '\U{00CB}' then "E"
    else if '\U{00CC}' <= c <= '\U{00CF}' then "I"
    else if c == '\U{00D1}' then "N"
    else if '\U{00D2}' <= c <= '\U{00D6}' then "O"
    else if '\U{00D9}' <= c <= '\U{00DC}' then "U"
    else if c == '\U{00DD}' then "Y"
    else if '\U{00E0}' <= c <= '\U{00E5}' then "a"
    else if c == '\U{00E7}' then "c"
    else if '\U{00E8}' <= c <= '\U{00EB}' then "e"
    else if '\U{00EC}' <= c <= '\U{00EF}' then "i"
    else if c == '\U{00F1}' then "n"
    else if '\U{00F2}' <= c <= '\U{00F6}' then "o"
    else if '\U{00F9}' <= c <= '\U{00FC}' then "u"
    else if c == '\U{00FD}' || c == '\U{00FF}' then "y"
    else [c]
  }

  /** The accent-stripping helper (api/main.py:1357-1360). */
  function StripAccents(s: string): string
    decreases |s|
  {
    if |s| == 0 then "" else BaseLetter(s[0]) + StripAccents(s[1..])
  }

  /** `re.sub(r"[^\w\s,]", " ", s)` on one character. */
  function PunctToSpace(c: char): char {
    if IsWordChar(c) || IsSpace(c) || c == ',' then c else ' '
  }

  function ReplacePunct(s: string): (r: string)
    ensures |r| == |s|
    ensures forall i :: 0 <= i < |s| ==> r[i] == PunctToSpace(s[i])
  {
    seq(|s|, i requires 0 <= i < |s| => PunctToSpace(s[i]))
  }

  /** Lower-casing, accent stripping and punctuation removal: every step of the key that
      works character by character. */
  function Prep(s: string): string {
    ReplacePunct(StripAccents(Lower(s)))
  }

  /** The cleaned name before any comma handling (api/main.py:1364-1366, repeated at 2622-2624). */
  function Clean(name: string): (raw: string)
    ensures IsCollapsed(raw) && AllChars(raw, KeyChar)
  {
    PrepKeyChars(Strip(name));
    CollapseIsCollapsed(Prep(Strip(name)));
    CollapseChars(Prep(Strip(name)), KeyChar);
    Collapse(Prep(Strip(name)))
  }

  /** A character that accent stripping leaves alone. */
  predicate IsBaseChar(c: char) {
    && !('\U{0300}' <= c <= '\U{036F}')
    && !('\U{00C0}' <= c <= '\U{00DD}' && c != '\U{00C6}' && c != '\U{00D0}' && c != '\U{00D7}' && c != '\U{00D8}')
    && !('\U{00E0}' <= c <= '\U{00FF}' && c != '\U{00E6}' && c != '\U{00F0}' && c != '\U{00F7}' && c != '\U{00F8}' && c != '\U{00FE}')
  }

  lemma BaseLetterOfBase(c: char)
    ensures IsBaseChar(c) <==> BaseLetter(c) == [c]
    ensures forall i :: 0 <= i < |BaseLetter(c)| ==> IsBaseChar(BaseLetter(c)[i])
    ensures !IsUpper(c) ==> forall i :: 0 <= i < |BaseLetter(c)| ==> !IsUpper(BaseLetter(c)[i])
  {
  }

  /** A character that every step of `Prep` leaves unchanged. */
  predicate KeyChar(c: char) {
    !IsUpper(c) && IsBaseChar(c) && (IsWordChar(c) || IsSpace(c) || c == ',')
  }

  predicate NotComma(c: char) { c != ',' }

  lemma NoCommaIn(s: string)
    requires AllChars(s, NotComma)
    ensures ',' !in s
  {
    forall i | 0 <= i < |s| ensures s[i] != ',' {
      assert NotComma(s[i]);
    }
  }

  // ---------------------------------------------------------------------------
  // The person-name key
  // ---------------------------------------------------------------------------

  /** The non-empty stripped pieces, in order: `[p.strip() for p in ps if p.strip()]`. */
  function StrippedParts(ps: seq<string>): (r: seq<string>)
    ensures |r| <= |ps|
    ensures forall k :: 0 <= k < |r| ==> r[k] != ""
  {
    if |ps| == 0 then []
    else
      var t := Strip(ps[0]);
      (if t != "" then [t] else []) + StrippedParts(ps[1..])
  }

  /** `_normalize_person_name`: "Last, First" becomes "first last"; otherwise the cleaned name. */
  function NormalizePersonName(name: string): (key: string)
    ensures IsCollapsed(key)
    ensures AllChars(key, KeyChar)
    ensures ',' !in Clean(name) ==> key == Clean(name)
    ensures ',' in Clean(name) ==>
      key == (var p := StrippedParts(Split(Clean(name), ','));
              if |p| >= 2 then p[1] + " " + p[0] else Clean(name))
  {
    var raw := Clean(name);
    if ',' in raw then
      var parts := StrippedParts(Split(raw, ','));
      if |parts| >= 2 then
        SwappedKeyShape(raw);
        parts[1] + " " + parts[0]
      else raw
    else raw
  }

  /** The "last first" spelling that the prediction index also stores (api/main.py:2625-2629). */
  function AltKey(name: string): Option<string> {
    var raw := Clean(name);
    if ',' in raw then
      var parts := StrippedParts(Split(raw, ','));
      if |parts| >= 2 then Some(Strip(parts[0] + " " + parts[1])) else None
    else None
  }

  // ---------------------------------------------------------------------------
  // Lemmas about the character steps
  // ---------------------------------------------------------------------------

  lemma {:induction false} StripAccentsAppend(a: string, b: string)
    ensures StripAccents(a + b) == StripAccents(a) + StripAccents(b)
    decreases |a|
  {
    if |a| > 0 {
      assert (a + b)[1..] == a[1..] + b;
      StripAccentsAppend(a[1..], b);
    } else {
      assert a + b == b;
    }
  }

  lemma ReplacePunctAppend(a: string, b: string)
    ensures ReplacePunct(a + b) == ReplacePunct(a) + ReplacePunct(b)
  {
    assert forall i :: 0 <= i < |a + b| ==> ReplacePunct(a + b)[i] == (ReplacePunct(a) + ReplacePunct(b))[i];
  }

  /** `Prep` works character by character, so it distributes over concatenation. */
  lemma PrepAppend(a: string, b: string)
    ensures Prep(a + b) == Prep(a) + Prep(b)
  {
    LowerAppend(a, b);
    StripAccentsAppend(Lower(a), Lower(b));
    ReplacePunctAppend(StripAccents(Lower(a)), StripAccents(Lower(b)));
  }

  lemma PrepAsciiLetter(c: char)
    requires IsAsciiLetter(c)
    ensures Prep([c]) == [LowerChar(c)]
    ensures IsAsciiLetter(LowerChar(c)) && KeyChar(LowerChar(c))
  {
    assert Lower([c]) == [LowerChar(c)];
    assert StripAccents([LowerChar(c)]) == [LowerChar(c)] + StripAccents([]);
  }

  lemma PrepSeparator()
    ensures Prep(", ") == ", "
    ensures Prep(" ") == " "
  {
    assert Lower(", ") == ", ";
    assert StripAccents(", ") == [','] + StripAccents(" ");
    assert Lower(" ") == " ";
    assert StripAccents(" ") == [' '] + StripAccents([]);
  }

  /** Every character `Prep` produces is a key character. */
  lemma {:induction false} StripAccentsKeyish(s: string)
    requires NoUpper(s)
    ensures forall i :: 0 <= i < |StripAccents(s)| ==>
      !IsUpper(StripAccents(s)[i]) && IsBaseChar(StripAccents(s)[i])
    decreases |s|
  {
    if |s| > 0 {
      assert NoUpper(s[1..]) by {
        forall i | 0 <= i < |s[1..]| ensures !IsUpper(s[1..][i]) {
          assert s[1..][i] == s[i + 1];
        }
      }
      StripAccentsKeyish(s[1..]);
      BaseLetterOfBase(s[0]);
      var h := BaseLetter(s[0]);
      var t := StripAccents(s[1..]);
      forall i | 0 <= i < |h + t| ensures !IsUpper((h + t)[i]) && IsBaseChar((h + t)[i]) {
        if i < |h| {
          assert (h + t)[i] == h[i];
        } else {
          assert (h + t)[i] == t[i - |h|];
        }
      }
    }
  }

  lemma PrepKeyChars(s: string)
    ensures AllChars(Prep(s), KeyChar)
  {
    LowerIdempotent(s);
    StripAccentsKeyish(Lower(s));
  }

  /** A string of key characters is unchanged by `Prep`. */
  lemma {:induction false} PrepFixpoint(s: string)
    requires AllChars(s, KeyChar)
    ensures Prep(s) == s
    decreases |s|
  {
    assert Lower(s) == s;
    StripAccentsFixpoint(s);
  }

  lemma {:induction false} StripAccentsFixpoint(s: string)
    requires AllChars(s, KeyChar)
    ensures StripAccents(s) == s
    decreases |s|
  {
    if |s| > 0 {
      assert AllChars(s[1..], KeyChar) by {
        forall i | 0 <= i < |s[1..]| ensures KeyChar(s[1..][i]) {
          assert s[1..][i] == s[i + 1];
        }
      }
      StripAccentsFixpoint(s[1..]);
      BaseLetterOfBase(s[0]);
    }
  }

  /** `Prep` keeps a string free of commas when it started so. */
  lemma {:induction false} StripAccentsNoComma(s: string)
    requires AllChars(s, NotComma)
    ensures AllChars(StripAccents(s), NotComma)
    decreases |s|
  {
    if |s| > 0 {
      assert AllChars(s[1..], NotComma) by {
        forall i | 0 <= i < |s[1..]| ensures NotComma(s[1..][i]) {
          assert s[1..][i] == s[i + 1];
        }
      }
      StripAccentsNoComma(s[1..]);
    }
  }

  lemma PrepNoComma(s: string)
    requires ',' !in s
    ensures AllChars(Prep(s), NotComma)
  {
    assert AllChars(Lower(s), NotComma) by {
      forall i | 0 <= i < |s| ensures Lower(s)[i] != ',' {
        assert s[i] != ',';
      }
    }
    StripAccentsNoComma(Lower(s));
  }

  // ---------------------------------------------------------------------------
  // Lemmas about splitting at commas
  // ---------------------------------------------------------------------------

  /** The pieces of a split carry every character property of the whole. */
  lemma {:induction false} SplitChars(s: string, sep: char, p: char -> bool)
    requires AllChars(s, p)
    ensures forall k :: 0 <= k < |Split(s, sep)| ==> AllChars(Split(s, sep)[k], p)
    decreases |s|
  {
    if |s| > 0 {
      assert AllChars(s[1..], p) by {
        forall i | 0 <= i < |s[1..]| ensures p(s[1..][i]) {
          assert s[1..][i] == s[i + 1];
        }
      }
      SplitChars(s[1..], sep, p);
      var rest := Split(s[1..], sep);
      if s[0] != sep {
        var first := [s[0]] + rest[0];
        assert AllChars(first, p) by {
          forall i | 0 <= i < |first| ensures p(first[i]) {
            if i > 0 {
              assert first[i] == rest[0][i - 1];
            }
          }
        }
      }
    }
  }

  /** Every piece of a split of a run-free string is run-free. */
  lemma {:induction false} SplitNoRuns(s: string, sep: char)
    requires NoRuns(s)
    requires !IsSpace(sep)
    ensures forall k :: 0 <= k < |Split(s, sep)| ==> NoRuns(Split(s, sep)[k])
    ensures |Split(s, sep)[0]| <= |s| && Split(s, sep)[0] == s[..|Split(s, sep)[0]|]
    decreases |s|
  {
    if |s| > 0 {
      assert NoRuns(s[1..]) by {
        forall i | 0 <= i < |s[1..]| && IsSpace(s[1..][i])
          ensures s[1..][i] == ' ' && (i + 1 == |s[1..]| || !IsSpace(s[1..][i + 1]))
        {
          assert s[1..][i] == s[i + 1];
        }
      }
      SplitNoRuns(s[1..], sep);
      var rest := Split(s[1..], sep);
      if s[0] != sep {
        assert IsSpace(s[0]) ==> s[0] == ' ' && (|rest[0]| == 0 || !IsSpace(rest[0][0])) by {
          if |rest[0]| > 0 {
            assert rest[0][0] == s[1];
          }
        }
        NoRunsCons(s[0], rest[0]);
      }
    }
  }

  /** Stripping a run-free string gives a collapsed one with the same characters. */
  lemma StrippedPartsShape(ps: seq<string>, p: char -> bool)
    requires forall k :: 0 <= k < |ps| ==> NoRuns(ps[k]) && AllChars(ps[k], p)
    ensures forall k :: 0 <= k < |StrippedParts(ps)| ==>
      IsCollapsed(StrippedParts(ps)[k]) && AllChars(StrippedParts(ps)[k], p)
    decreases |ps|
  {
    if |ps| > 0 {
      StripNoRuns(ps[0]);
      StripChars(ps[0], p);
      StrippedPartsShape(ps[1..], p);
    }
  }

  /** The parts of a cleaned name, split at commas, are collapsed key strings without commas. */
  lemma CommaPartsShape(raw: string)
    requires IsCollapsed(raw) && AllChars(raw, KeyChar)
    ensures forall k :: 0 <= k < |StrippedParts(Split(raw, ','))| ==>
      && IsCollapsed(StrippedParts(Split(raw, ','))[k])
      && AllChars(StrippedParts(Split(raw, ','))[k], KeyChar)
      && ',' !in StrippedParts(Split(raw, ','))[k]
  {
    var ps := Split(raw, ',');
    SplitNoRuns(raw, ',');
    SplitChars(raw, ',', KeyChar);
    SplitPartsFree(raw, ',');
    forall k | 0 <= k < |ps| ensures AllChars(ps[k], NotComma) {
      assert ',' !in ps[k];
    }
    var both := (c: char) => KeyChar(c) && NotComma(c);
    forall k | 0 <= k < |ps| ensures NoRuns(ps[k]) && AllChars(ps[k], both) {
      assert AllChars(ps[k], KeyChar) && AllChars(ps[k], NotComma);
    }
    StrippedPartsShape(ps, both);
    var sp := StrippedParts(ps);
    forall k | 0 <= k < |sp| ensures AllChars(sp[k], KeyChar) && ',' !in sp[k] {
      assert AllChars(sp[k], both);
      assert AllChars(sp[k], NotComma);
      NoCommaIn(sp[k]);
    }
  }

  /** The swapped "first last" key built from a cleaned comma name is a collapsed string
      of key characters without commas. */
  lemma SwappedKeyShape(raw: string)
    requires IsCollapsed(raw) && AllChars(raw, KeyChar)
    requires |StrippedParts(Split(raw, ','))| >= 2
    ensures var parts := StrippedParts(Split(raw, ','));
      && IsCollapsed(parts[1] + " " + parts[0])
      && AllChars(parts[1] + " " + parts[0], KeyChar)
      && ',' !in parts[1] + " " + parts[0]
  {
    var parts := StrippedParts(Split(raw, ','));
    CommaPartsShape(raw);
    JoinKeys(parts[1], parts[0]);
  }

  /** Two keys without commas joined by a space form a key without commas. */
  lemma JoinKeys(a: string, b: string)
    requires IsCollapsed(a) && AllChars(a, KeyChar) && ',' !in a && a != ""
    requires IsCollapsed(b) && AllChars(b, KeyChar) && ',' !in b && b != ""
    ensures IsCollapsed(a + " " + b) && AllChars(a + " " + b, KeyChar) && ',' !in a + " " + b
  {
    JoinTwoCollapsed(a, b);
    JoinTwoChars(a, b, KeyChar);
    NoCommaJoin(a, b);
  }

  /** Two collapsed words joined by one space form a collapsed string. */
  lemma JoinTwoCollapsed(a: string, b: string)
    requires IsCollapsed(a) && IsCollapsed(b) && a != "" && b != ""
    ensures IsCollapsed(a + " " + b)
  {
    var t := a + " " + b;
    forall i | 0 <= i < |t| && IsSpace(t[i])
      ensures t[i] == ' ' && (i + 1 == |t| || !IsSpace(t[i + 1]))
    {
      if i < |a| {
        assert t[i] == a[i];
        if i + 1 < |a| {
          assert t[i + 1] == a[i + 1];
        }
      } else if i > |a| {
        assert t[i] == b[i - |a| - 1];
        if i + 1 < |t| {
          assert t[i + 1] == b[i - |a|];
        }
      } else {
        assert t[i + 1] == b[0];
      }
    }
    assert t[0] == a[0] && t[|t| - 1] == b[|b| - 1];
  }

  /** Joining with a space keeps any character class that contains the space. */
  lemma JoinTwoChars(a: string, b: string, p: char -> bool)
    requires p(' ') && AllChars(a, p) && AllChars(b, p)
    ensures AllChars(a + " " + b, p)
  {
    var t := a + " " + b;
    forall i | 0 <= i < |t| ensures p(t[i]) {
      if i < |a| {
        assert t[i] == a[i];
      } else if i > |a| {
        assert t[i] == b[i - |a| - 1];
      }
    }
  }

  // ---------------------------------------------------------------------------
  // Properties of the person-name key
  // ---------------------------------------------------------------------------

  /** A collapsed string of key characters is already clean. */
  lemma CleanKey(key: string)
    requires IsCollapsed(key) && AllChars(key, KeyChar)
    ensures Clean(key) == key
  {
    StripCollapsed(key);
    PrepFixpoint(key);
    CollapseFixpoint(key);
  }

  /** A key is its own key: normalizing twice is normalizing once. */
  lemma NormalizeIdempotent(name: string)
    ensures NormalizePersonName(NormalizePersonName(name)) == NormalizePersonName(name)
  {
    var key := NormalizePersonName(name);
    var raw := Clean(name);
    if ',' in raw && |StrippedParts(Split(raw, ','))| >= 2 {
      SwappedKeyShape(raw);
      NormalizeNoComma(key);
    } else {
      assert key == raw;
      if ',' in raw {
        NormalizeUnswapped(raw);
      } else {
        NormalizeNoComma(raw);
      }
    }
  }

  /** A clean key without a comma is its own key. */
  lemma NormalizeNoComma(key: string)
    requires IsCollapsed(key) && AllChars(key, KeyChar) && ',' !in key
    ensures NormalizePersonName(key) == key
  {
    CleanKey(key);
  }

  /** A clean key whose comma does not split it into two names is its own key. */
  lemma NormalizeUnswapped(raw: string)
    requires IsCollapsed(raw) && AllChars(raw, KeyChar)
    requires |StrippedParts(Split(raw, ','))| < 2
    ensures NormalizePersonName(raw) == raw
  {
    CleanKey(raw);
  }

  /** The collapse of a string that starts and ends with a non-space character keeps those ends. */
  lemma {:induction false} SquashRunsEnds(s: string)
    requires |s| > 0 && !IsSpace(s[0]) && !IsSpace(s[|s| - 1])
    ensures |SquashRuns(s)| > 0
    ensures SquashRuns(s)[0] == s[0] && SquashRuns(s)[|SquashRuns(s)| - 1] == s[|s| - 1]
    ensures Collapse(s) == SquashRuns(s)
  {
    SquashRunsShape(s);
    SquashRunsLast(s);
    var r := SquashRuns(s);
    StripNoRuns(r);
    LStripNoop(r, IsSpace);
    RStripNoop(r, IsSpace);
  }

  lemma {:induction false} SquashRunsLast(s: string)
    requires |s| > 0 && !IsSpace(s[|s| - 1])
    ensures |SquashRuns(s)| > 0 && SquashRuns(s)[|SquashRuns(s)| - 1] == s[|s| - 1]
    decreases |s|
  {
    if IsSpace(s[0]) {
      var t := LStripWhile(s[1..], IsSpace);
      LStripKeepsLast(s[1..], IsSpace);
      SquashRunsLast(t);
      assert SquashRuns(s) == " " + SquashRuns(t);
    } else if |s| > 1 {
      SquashRunsLast(s[1..]);
      assert SquashRuns(s) == [s[0]] + SquashRuns(s[1..]);
    } else {
      assert SquashRuns(s) == [s[0]] + SquashRuns(s[1..]);
    }
  }

  /** A character that can end a name part: not a space, and `Prep` turns it into one
      character that is not a space either (a letter, accented or not, or a digit). */
  predicate NameEnd(c: char) {
    && !IsSpace(c)
    && |Prep([c])| == 1
    && !IsSpace(Prep([c])[0])
  }

  /** A plain name part: non-empty, no comma, and both ends are `NameEnd` characters. */
  predicate NamePart(s: string) {
    && |s| > 0
    && ',' !in s
    && NameEnd(s[0])
    && NameEnd(s[|s| - 1])
  }

  /** Every ASCII letter can end a name part. */
  lemma AsciiNameEnd(c: char)
    requires IsAsciiLetter(c)
    ensures NameEnd(c)
  {
    PrepAsciiLetter(c);
  }

  /** `Prep` of a name part starts and ends with what `Prep` makes of its end characters: no
      space at either end, and no comma anywhere. */
  lemma PrepNamePart(s: string)
    requires NamePart(s)
    ensures |Prep(s)| > 0
    ensures Prep(s)[0] == Prep([s[0]])[0] && Prep(s)[|Prep(s)| - 1] == Prep([s[|s| - 1]])[0]
    ensures !IsSpace(Prep(s)[0]) && !IsSpace(Prep(s)[|Prep(s)| - 1])
    ensures ',' !in Prep(s)
  {
    if |s| == 1 {
      assert s == [s[0]];
    } else {
      var mid := s[1..|s| - 1];
      assert s == [s[0]] + mid + [s[|s| - 1]];
      PrepAppend([s[0]] + mid, [s[|s| - 1]]);
      PrepAppend([s[0]], mid);
      assert Prep(s) == Prep([s[0]]) + Prep(mid) + Prep([s[|s| - 1]]);
    }
    PrepNoComma(s);
    NoCommaIn(Prep(s));
  }

  /** Squashing a single space in front of a word keeps it. */
  lemma SquashRunsSpaceWord(b: string)
    requires |b| > 0 && !IsSpace(b[0])
    ensures SquashRuns([' '] + b) == [' '] + SquashRuns(b)
  {
    var sb := [' '] + b;
    assert sb[1..] == b;
    LStripNoop(b, IsSpace);
  }

  /** Squashing a comma and a space in front of a word keeps them. */
  lemma SquashRunsCommaWord(b: string)
    requires |b| > 0 && !IsSpace(b[0])
    ensures SquashRuns([','] + ([' '] + b)) == [','] + ([' '] + SquashRuns(b))
  {
    var t := [','] + ([' '] + b);
    assert t[1..] == [' '] + b;
    SquashRunsSpaceWord(b);
  }

  lemma SquashRunsCommaSpace(b: string)
    requires |b| > 0 && !IsSpace(b[0])
    ensures SquashRuns(", " + b) == ", " + SquashRuns(b)
  {
    CommaSpaceJoin(b);
    CommaSpaceJoin(SquashRuns(b));
    SquashRunsCommaWord(b);
  }

  lemma CommaSpaceJoin(x: string)
    ensures ", " + x == [','] + ([' '] + x)
  {
  }

  /** A separator that squashing leaves alone splits the squash of a joined string. */
  lemma SquashRunsAround(a: string, sep: string, b: string)
    requires |a| > 0 && !IsSpace(a[|a| - 1])
    requires SquashRuns(sep + b) == sep + SquashRuns(b)
    ensures SquashRuns(a + sep + b) == SquashRuns(a) + sep + SquashRuns(b)
  {
    assert a + sep + b == a + (sep + b);
    SquashRunsAppend(a, sep + b);
  }

  /** Two prepared name parts around such a separator collapse piecewise. */
  lemma CollapseAround(a: string, sep: string, b: string)
    requires |a| > 0 && !IsSpace(a[0]) && !IsSpace(a[|a| - 1])
    requires |b| > 0 && !IsSpace(b[0]) && !IsSpace(b[|b| - 1])
    requires SquashRuns(sep + b) == sep + SquashRuns(b)
    ensures Collapse(a + sep + b) == Collapse(a) + sep + Collapse(b)
    ensures |Collapse(a)| > 0 && |Collapse(b)| > 0
  {
    SquashRunsEnds(a);
    SquashRunsEnds(b);
    SquashRunsAround(a, sep, b);
    var w := a + sep + b;
    assert w[0] == a[0] && w[|w| - 1] == b[|b| - 1];
    SquashRunsEnds(w);
  }

  /** Two prepared name parts around a comma and a space collapse piecewise. */
  lemma CollapseAroundComma(a: string, b: string)
    requires |a| > 0 && !IsSpace(a[0]) && !IsSpace(a[|a| - 1])
    requires |b| > 0 && !IsSpace(b[0]) && !IsSpace(b[|b| - 1])
    ensures Collapse(a + ", " + b) == Collapse(a) + ", " + Collapse(b)
    ensures |Collapse(a)| > 0 && |Collapse(b)| > 0
  {
    SquashRunsCommaSpace(b);
    CollapseAround(a, ", ", b);
  }

  /** Two prepared name parts around a single space collapse piecewise. */
  lemma CollapseAroundSpace(a: string, b: string)
    requires |a| > 0 && !IsSpace(a[0]) && !IsSpace(a[|a| - 1])
    requires |b| > 0 && !IsSpace(b[0]) && !IsSpace(b[|b| - 1])
    ensures Collapse(a + " " + b) == Collapse(a) + " " + Collapse(b)
    ensures |Collapse(a)| > 0 && |Collapse(b)| > 0
  {
    SquashRunsSpaceWord(b);
    CollapseAround(a, " ", b);
  }

  /** Two name parts around a separator that starts and ends with a non-space are already stripped. */
  lemma NamePairStripped(a: string, sep: string, b: string)
    requires NamePart(a) && NamePart(b)
    ensures Strip(a + sep + b) == a + sep + b
  {
    var s := a + sep + b;
    assert s[0] == a[0] && s[|s| - 1] == b[|b| - 1];
    LStripNoop(s, IsSpace);
    RStripNoop(s, IsSpace);
  }

  /** `Prep` maps two name parts around a separator that it leaves alone piecewise. */
  lemma PrepAround(a: string, sep: string, b: string)
    requires Prep(sep) == sep
    ensures Prep(a + sep + b) == Prep(a) + sep + Prep(b)
  {
    PrepAppend(a + sep, b);
    PrepAppend(a, sep);
  }

  /** The cleaned form of an already stripped string. */
  lemma CleanStripped(s: string)
    requires Strip(s) == s
    ensures Clean(s) == Collapse(Prep(s))
  {
  }

  /** The cleaned comma spelling of two name parts is the two cleaned parts around ", ". */
  lemma CleanCommaName(last: string, first: string)
    requires NamePart(last) && NamePart(first)
    ensures Clean(last + ", " + first) == Collapse(Prep(last)) + ", " + Collapse(Prep(first))
    ensures |Collapse(Prep(last))| > 0 && |Collapse(Prep(first))| > 0
  {
    var s := last + ", " + first;
    NamePairStripped(last, ", ", first);
    CleanStripped(s);
    PrepSeparator();
    PrepAround(last, ", ", first);
    CollapsePreppedComma(last, first);
  }

  /** The cleaned space spelling of two name parts is the two cleaned parts around " ". */
  lemma CleanSpaceName(a: string, b: string)
    requires NamePart(a) && NamePart(b)
    ensures Clean(a + " " + b) == Collapse(Prep(a)) + " " + Collapse(Prep(b))
  {
    var s := a + " " + b;
    NamePairStripped(a, " ", b);
    CleanStripped(s);
    PrepSeparator();
    PrepAround(a, " ", b);
    CollapsePreppedSpace(a, b);
  }

  /** Two prepared name parts around ", " collapse piecewise. */
  lemma CollapsePreppedComma(a: string, b: string)
    requires NamePart(a) && NamePart(b)
    ensures Collapse(Prep(a) + ", " + Prep(b)) == Collapse(Prep(a)) + ", " + Collapse(Prep(b))
    ensures |Collapse(Prep(a))| > 0 && |Collapse(Prep(b))| > 0
  {
    PrepNamePart(a);
    PrepNamePart(b);
    CollapseAroundComma(Prep(a), Prep(b));
  }

  /** Two prepared name parts around " " collapse piecewise. */
  lemma CollapsePreppedSpace(a: string, b: string)
    requires NamePart(a) && NamePart(b)
    ensures Collapse(Prep(a) + " " + Prep(b)) == Collapse(Prep(a)) + " " + Collapse(Prep(b))
  {
    PrepNamePart(a);
    PrepNamePart(b);
    CollapseAroundSpace(Prep(a), Prep(b));
  }

  /** Cleaned name parts carry no comma. */
  lemma CleanPartNoComma(s: string)
    requires NamePart(s)
    ensures IsCollapsed(Collapse(Prep(s)))
    ensures ',' !in Collapse(Prep(s))
  {
    PrepNamePart(s);
    CollapseIsCollapsed(Prep(s));
    CollapseChars(Prep(s), NotComma);
    NoCommaIn(Collapse(Prep(s)));
  }

  lemma SplitCommaSpace(a: string, b: string)
    requires ',' !in a && ',' !in b
    ensures Split(a + ", " + b, ',') == [a, " " + b]
  {
    assert a + ", " + b == a + [','] + (" " + b);
    SplitAtFirst(a, ',', " " + b);
    SplitNoSep(" " + b, ',');
  }

  lemma StrippedPartsOfTwo(x: string, y: string)
    requires Strip(x) != "" && Strip(y) != ""
    ensures StrippedParts([x, y]) == [Strip(x), Strip(y)]
  {
    var ps := [x, y];
    assert ps[1..] == [y];
    assert ps[1..][1..] == [];
  }

  lemma NoCommaJoin(a: string, b: string)
    requires ',' !in a && ',' !in b
    ensures ',' !in a + " " + b
  {
  }

  /** Splitting "a, b" at the comma and stripping the pieces gives back a and b. */
  lemma CommaParts(a: string, b: string)
    requires IsCollapsed(a) && IsCollapsed(b) && |a| > 0 && |b| > 0
    requires ',' !in a && ',' !in b
    ensures StrippedParts(Split(a + ", " + b, ',')) == [a, b]
  {
    SplitCommaSpace(a, b);
    StripCollapsed(a);
    StripSpaceWord(b);
    StrippedPartsOfTwo(a, " " + b);
  }

  /** One space in front of a collapsed word is stripped away. */
  lemma StripSpaceWord(b: string)
    requires IsCollapsed(b) && |b| > 0
    ensures Strip(" " + b) == b
  {
    var t := " " + b;
    assert t[0] == ' ' && t[1..] == b;
    assert LStripWhile(t, IsSpace) == LStripWhile(b, IsSpace);
    StripCollapsed(b);
  }

  /** A cleaned name with a comma and exactly two pieces swaps them for the key. */
  lemma KeyOfTwoParts(name: string, x: string, y: string)
    requires ',' in Clean(name)
    requires StrippedParts(Split(Clean(name), ',')) == [x, y]
    ensures NormalizePersonName(name) == y + " " + x
  {
  }

  /** ... and keeps them in order, joined by a space, for the alternate key. */
  lemma AltKeyOfTwoParts(name: string, x: string, y: string)
    requires ',' in Clean(name)
    requires StrippedParts(Split(Clean(name), ',')) == [x, y]
    ensures AltKey(name) == Some(Strip(x + " " + y))
  {
  }

  /** The comma spelling of two name parts cleans to a comma-bearing string of two pieces. */
  lemma CommaNameParts(last: string, first: string)
    requires NamePart(last) && NamePart(first)
    ensures ',' in Clean(last + ", " + first)
    ensures StrippedParts(Split(Clean(last + ", " + first), ',')) == [Collapse(Prep(last)), Collapse(Prep(first))]
  {
    var cl := Collapse(Prep(last));
    var cf := Collapse(Prep(first));
    var raw := Clean(last + ", " + first);
    CleanPartNoComma(last);
    CleanPartNoComma(first);
    assert raw == cl + ", " + cf && cl != "" && cf != "" by {
      CleanCommaName(last, first);
    }
    assert raw[|cl|] == ',';
    CommaParts(cl, cf);
  }

  /** The key of "Last, First" is "first last"; its alternate key is "last first". */
  lemma CommaNameKeys(last: string, first: string)
    requires NamePart(last) && NamePart(first)
    ensures NormalizePersonName(last + ", " + first) == Collapse(Prep(first)) + " " + Collapse(Prep(last))
    ensures AltKey(last + ", " + first) == Some(Collapse(Prep(last)) + " " + Collapse(Prep(first)))
  {
    var cl := Collapse(Prep(last));
    var cf := Collapse(Prep(first));
    CommaNameParts(last, first);
    KeyOfTwoParts(last + ", " + first, cl, cf);
    AltKeyOfTwoParts(last + ", " + first, cl, cf);
    CleanPartNoComma(last);
    CleanPartNoComma(first);
    CleanCommaName(last, first);
    JoinTwoCollapsed(cl, cf);
    StripCollapsed(cl + " " + cf);
  }

  /** The key of "A B" for two name parts is their cleaned forms around one space. */
  lemma SpaceNameKey(a: string, b: string)
    requires NamePart(a) && NamePart(b)
    ensures NormalizePersonName(a + " " + b) == Collapse(Prep(a)) + " " + Collapse(Prep(b))
  {
    CleanPartNoComma(a);
    CleanPartNoComma(b);
    CleanSpaceName(a, b);
    NoCommaJoin(Collapse(Prep(a)), Collapse(Prep(b)));
  }

  /** "Last, First" and "First Last" give the same key, and "Last First" gives the alternate key
      the prediction index stores (api/main.py:1367-1370 and 2625-2629). */
  lemma NameOrderInsensitive(last: string, first: string)
    requires NamePart(last) && NamePart(first)
    ensures NormalizePersonName(last + ", " + first) == NormalizePersonName(first + " " + last)
    ensures AltKey(last + ", " + first) == Some(NormalizePersonName(last + " " + first))
  {
    CommaNameKeys(last, first);
    SpaceNameKey(first, last);
    SpaceNameKey(last, first);
  }

  /** The worked example of the ranking sources: "Lai, Victor" and "Victor Lai" share a key. */
  lemma LaiVictorExample()
    ensures NormalizePersonName("Lai, Victor") == NormalizePersonName("Victor Lai")
  {
    var last, first := "Lai", "Victor";
    assert last + ", " + first == "Lai, Victor" by {}
    assert first + " " + last == "Victor Lai" by {}
    AsciiNameEnd('L');
    AsciiNameEnd('i');
    AsciiNameEnd('V');
    AsciiNameEnd('r');
    assert NamePart(last) && NamePart(first);
    NameOrderInsensitive(last, first);
  }

  /** `Prep` makes an 'e' of an 'é'. */
  lemma AcuteNameEnd()
    ensures NameEnd('\U{00E9}')
  {
    var c := '\U{00E9}';
    assert Lower([c]) == [c];
    assert StripAccents([c]) == BaseLetter(c) + StripAccents([]);
  }

  /** Accented parts swap like plain ones: "Côté, André" and "André Côté" share a key. */
  lemma AccentedNameExample()
    ensures NormalizePersonName("C\U{00F4}t\U{00E9}, Andr\U{00E9}")
         == NormalizePersonName("Andr\U{00E9} C\U{00F4}t\U{00E9}")
  {
    var last, first := "C\U{00F4}t\U{00E9}", "Andr\U{00E9}";
    assert last + ", " + first == "C\U{00F4}t\U{00E9}, Andr\U{00E9}";
    assert first + " " + last == "Andr\U{00E9} C\U{00F4}t\U{00E9}";
    AsciiNameEnd('C');
    AsciiNameEnd('A');
    AcuteNameEnd();
    assert NamePart(last) && NamePart(first);
    NameOrderInsensitive(last, first);
  }
}

=== FILE: index.dfy ===
/**
 The reverse indexes from a name key to a player id: the one the prediction
 endpoints build from two ranking tables, and the one the Elo computation
 builds from its own player list.
 */
module Index {
  import opened Opt
  import opened Identity

  /** One row of a ranking table as the index sees it; an empty id stands for a missing one. */
  datatype RankingRow = RankingRow(playerName: string, playerId: PlayerId)

  /** What one row contributes: its key, its alternate "last first" key, and its id. */
  datatype Entry = Entry(base: string, alt: Option<string>, id: PlayerId)

  function RowEntry(r: RankingRow): Entry {
    Entry(NormalizePersonName(r.playerName), AltKey(r.playerName), r.playerId)
  }

  /** Entry `e` writes its id under key `k`: a row with an id writes its non-empty key and its
      alternate key. */
  predicate Writes(e: Entry, k: string) {
    && e.id != ""
    && ((k == e.base && k != "") || e.alt == Some(k))
  }

  /** One iteration of the index-building loop (api/main.py:2615-2629). */
  function AddEntry(index: map<string, PlayerId>, e: Entry): (out: map<string, PlayerId>)
    ensures forall k :: k in out <==> k in index || Writes(e, k)
    ensures forall k :: Writes(e, k) ==> k in out && out[k] == e.id
    ensures forall k :: k in index && !Writes(e, k) ==> out[k] == index[k]
  {
    if e.id == "" then index
    else
      var withBase := if e.base != "" then index[e.base := e.id] else index;
      match e.alt
      case Some(alt) => withBase[alt := e.id]
      case None => withBase
  }

  function BuildIndex(entries: seq<Entry>): map<string, PlayerId>
    decreases |entries|
  {
    if |entries| == 0 then map[]
    else AddEntry(BuildIndex(entries[..|entries| - 1]), entries[|entries| - 1])
  }

  /** The name index over the national rows followed by the provincial rows; later rows overwrite. */
  function NameIndex(rows: seq<RankingRow>): map<string, PlayerId> {
    BuildIndex(seq(|rows|, i requires 0 <= i < |rows| => RowEntry(rows[i])))
  }

  /** `name_to_id.get(_normalize_person_name(name))` (api/main.py:1419-1420 and 1765-1766). */
  function Lookup(index: map<string, PlayerId>, name: string): (r: Option<PlayerId>)
    ensures r.Some? <==> NormalizePersonName(name) in index
    ensures r.Some? ==> r.value == index[NormalizePersonName(name)]
  {
    var k := NormalizePersonName(name);
    if k in index then Some(index[k]) else None
  }

  /** A key is indexed exactly when some row writes it. */
  lemma {:induction false} BuildIndexDomain(entries: seq<Entry>, k: string)
    ensures k in BuildIndex(entries) <==> exists i :: 0 <= i < |entries| && Writes(entries[i], k)
    decreases |entries|
  {
    if |entries| > 0 {
      var init := entries[..|entries| - 1];
      BuildIndexDomain(init, k);
      if exists i :: 0 <= i < |init| && Writes(init[i], k) {
        var i :| 0 <= i < |init| && Writes(init[i], k);
        assert entries[i] == init[i];
      }
      if exists i :: 0 <= i < |entries| && Writes(entries[i], k) {
        var i :| 0 <= i < |entries| && Writes(entries[i], k);
        if i < |init| {
          assert init[i] == entries[i];
        }
      }
    }
  }

  /** The id stored under a key is the one of the last row that writes it. */
  lemma {:induction false} BuildIndexLastWriteWins(entries: seq<Entry>, k: string, j: int)
    requires 0 <= j < |entries| && Writes(entries[j], k)
    requires forall i :: j < i < |entries| ==> !Writes(entries[i], k)
    ensures k in BuildIndex(entries) && BuildIndex(entries)[k] == entries[j].id
    decreases |entries|
  {
    var init := entries[..|entries| - 1];
    if j < |entries| - 1 {
      assert init[j] == entries[j];
      forall i | j < i < |init| ensures !Writes(init[i], k) {
        assert init[i] == entries[i];
      }
      BuildIndexLastWriteWins(init, k, j);
    }
  }

  /** A row spelled "Last, First" is found under "Last, First", "First Last" and "Last First". */
  lemma IndexResolvesNameOrders(rows: seq<RankingRow>, last: string, first: string, pid: PlayerId)
    requires NamePart(last) && NamePart(first) && pid != ""
    ensures var index := NameIndex(rows + [RankingRow(last + ", " + first, pid)]);
      && Lookup(index, last + ", " + first) == Some(pid)
      && Lookup(index, first + " " + last) == Some(pid)
      && Lookup(index, last + " " + first) == Some(pid)
  {
    var row := RankingRow(last + ", " + first, pid);
    var all := rows + [row];
    var entries := seq(|all|, i requires 0 <= i < |all| => RowEntry(all[i]));
    var e := RowEntry(row);
    assert entries[|all| - 1] == e;
    CommaNameKeys(last, first);
    NameOrderInsensitive(last, first);
    var k1 := NormalizePersonName(last + ", " + first);
    var k2 := NormalizePersonName(last + " " + first);
    assert Writes(e, k1) && Writes(e, k2);
    BuildIndexLastWriteWins(entries, k1, |all| - 1);
    BuildIndexLastWriteWins(entries, k2, |all| - 1);
  }

  /** Writing key/value pairs into a dictionary in order. */
  function PutAll<K, V>(pairs: seq<(K, V)>): map<K, V>
    decreases |pairs|
  {
    if |pairs| == 0 then map[]
    else
      var p := pairs[|pairs| - 1];
      PutAll(pairs[..|pairs| - 1])[p.0 := p.1]
  }

  /** `{_normalize_person_name(n): pid for pid, n in players.items()}` (api/main.py:2014). */
  function PlayerIndex(players: seq<(PlayerId, string)>): map<string, PlayerId> {
    PutAll(seq(|players|, i requires 0 <= i < |players| => (NormalizePersonName(players[i].1), players[i].0)))
  }

  /** Every written key is present, and nothing else is. */
  lemma {:induction false} PutAllDomain<K, V>(pairs: seq<(K, V)>, k: K)
    ensures k in PutAll(pairs) <==> exists i :: 0 <= i < |pairs| && pairs[i].0 == k
    decreases |pairs|
  {
    if |pairs| > 0 {
      var init := pairs[..|pairs| - 1];
      PutAllDomain(init, k);
      if exists i :: 0 <= i < |init| && init[i].0 == k {
        var i :| 0 <= i < |init| && init[i].0 == k;
        assert pairs[i] == init[i];
      }
      if exists i :: 0 <= i < |pairs| && pairs[i].0 == k {
        var i :| 0 <= i < |pairs| && pairs[i].0 == k;
        if i < |init| {
          assert init[i] == pairs[i];
        }
      }
    }
  }

  /** Every stored value was written under its key by some pair. */
  lemma {:induction false} PutAllValue<K, V>(pairs: seq<(K, V)>, k: K)
    requires k in PutAll(pairs)
    ensures exists i :: 0 <= i < |pairs| && pairs[i] == (k, PutAll(pairs)[k])
    decreases |pairs|
  {
    var init := pairs[..|pairs| - 1];
    var last := pairs[|pairs| - 1];
    if last.0 != k {
      PutAllValue(init, k);
      var i :| 0 <= i < |init| && init[i] == (k, PutAll(init)[k]);
      assert pairs[i] == init[i];
    }
  }

  /** The player index only ever yields ids of the player list. */
  lemma PlayerIndexValues(players: seq<(PlayerId, string)>, name: string)
    requires name in PlayerIndex(players)
    ensures exists i :: 0 <= i < |players| && players[i].0 == PlayerIndex(players)[name]
  {
    var pairs := seq(|players|, i requires 0 <= i < |players| => (NormalizePersonName(players[i].1), players[i].0));
    PutAllValue(pairs, name);
    var i :| 0 <= i < |pairs| && pairs[i] == (name, PutAll(pairs)[name]);
    assert players[i].0 == pairs[i].1;
  }

  /** Two players whose names share a key collide; the later one keeps the key. */
  lemma {:induction false} PutAllLastWriteWins<K, V>(pairs: seq<(K, V)>, j: int)
    requires 0 <= j < |pairs|
    requires forall i :: j < i < |pairs| ==> pairs[i].0 != pairs[j].0
    ensures pairs[j].0 in PutAll(pairs) && PutAll(pairs)[pairs[j].0] == pairs[j].1
    decreases |pairs|
  {
    var init := pairs[..|pairs| - 1];
    if j < |pairs| - 1 {
      assert init[j] == pairs[j];
      forall i | j < i < |init| ensures init[i].0 != init[j].0 {
        assert init[i] == pairs[i];
      }
      PutAllLastWriteWins(init, j);
    }
  }
}

=== FILE: media_storage.dfy ===
/**
 Where uploaded media live and the address clients fetch them from: a local
 directory served under a path prefix, or an S3-compatible bucket served
 under an optional public base address. Writing, deleting and probing the
 objects is I/O and is not modelled; the keys and addresses are.
 */
module MediaStorage {
  import opened Opt
  import opened Text

  /** `MediaLocation`: the backend's key for an object and its public address, if any. */
  datatype MediaLocation = MediaLocation(objectKey: string, publicUrl: Option<string>)

  /** A configured backend. */
  datatype Backend =
    | Local(publicPrefix: string)
    | S3(publicBaseUrl: Option<string>)

  predicate IsSlash(c: char) { c == '/' }

  /** `s.lstrip("/")`. */
  function LStripSlashes(s: string): (r: string)
    ensures |r| > 0 ==> r[0] != '/'
  {
    LStripWhile(s, IsSlash)
  }

  /** `s.rstrip("/")`. */
  function RStripSlashes(s: string): (r: string)
    ensures |r| > 0 ==> r[|r| - 1] != '/'
  {
    RStripWhile(s, IsSlash)
  }

  /** The prefix of the default backend. */
  const DefaultPublicPrefix: string := "/media-files"

  /** `LocalMediaStorage.__init__` (api/media_storage.py:33-35). */
  function NewLocal(publicPrefix: string): (b: Backend)
    ensures b.Local? && |b.publicPrefix| <= |publicPrefix| && publicPrefix[..|b.publicPrefix|] == b.publicPrefix
    ensures forall i :: |b.publicPrefix| <= i < |publicPrefix| ==> publicPrefix[i] == '/'
    ensures |b.publicPrefix| > 0 ==> b.publicPrefix[|b.publicPrefix| - 1] != '/'
  {
    RStripDropped(publicPrefix, IsSlash);
    Local(RStripSlashes(publicPrefix))
  }

  /** `S3MediaStorage.__init__` (api/media_storage.py:91): the base without trailing slashes,
      or none when nothing is left. */
  function NewS3(publicBaseUrl: Option<string>): (b: Backend)
    ensures b.S3?
    ensures b.publicBaseUrl.None? <==> RStripSlashes(publicBaseUrl.GetOr("")) == ""
    ensures b.publicBaseUrl.Some? ==> b.publicBaseUrl.value != "" && b.publicBaseUrl.value[|b.publicBaseUrl.value| - 1] != '/'
  {
    var base := RStripSlashes(publicBaseUrl.GetOr(""));
    S3(if base != "" then Some(base) else None)
  }

  /** `public_url_for` of both backends (api/media_storage.py:56-58 and 122-126). */
  function PublicUrlFor(b: Backend, objectKey: string): (url: Option<string>)
    ensures b.Local? ==> url == Some(b.publicPrefix + "/" + LStripSlashes(objectKey))
    ensures b.S3? ==> (url.Some? <==> b.publicBaseUrl.Some? && b.publicBaseUrl.value != "")
  {
    match b
    case Local(prefix) => Some(prefix + "/" + LStripSlashes(objectKey))
    case S3(base) =>
      if base.Some? && base.value != "" then Some(base.value + "/" + LStripSlashes(objectKey)) else None
  }

  /** Leading slashes of a key never reach its address. */
  lemma UrlIgnoresLeadingSlashes(b: Backend, slashes: string, objectKey: string)
    requires forall i :: 0 <= i < |slashes| ==> slashes[i] == '/'
    ensures PublicUrlFor(b, slashes + objectKey) == PublicUrlFor(b, objectKey)
  {
    LStripPrefix(slashes, objectKey, IsSlash);
  }

  lemma LStripSlashesIdempotent(s: string)
    ensures LStripSlashes(LStripSlashes(s)) == LStripSlashes(s)
  {
    LStripIdempotent(s, IsSlash);
  }

  /** `put_bytes` of both backends (api/media_storage.py:46 and 113), the write left out. The
      local backend keeps the key as given; the S3 one stores it without leading slashes. Either
      way the address is the one `public_url_for` gives for the key as given. */
  function PutBytes(b: Backend, objectKey: string): (loc: MediaLocation)
    ensures b.Local? ==> loc.objectKey == objectKey
    ensures b.S3? ==> loc.objectKey == LStripSlashes(objectKey)
    ensures loc.publicUrl == PublicUrlFor(b, objectKey)
    ensures loc.publicUrl == PublicUrlFor(b, loc.objectKey)
  {
    LStripSlashesIdempotent(objectKey);
    match b
    case Local(_) => MediaLocation(objectKey, PublicUrlFor(b, objectKey))
    case S3(_) =>
      var key := LStripSlashes(objectKey);
      MediaLocation(key, PublicUrlFor(b, key))
  }

  /** `exists` (api/media_storage.py:27-29, 60-62 and 128-134). `None` stands for the base class,
      which finds nothing; both backends look the key up without its leading slashes, `stored`
      standing for the keys whose lookup succeeds: the paths the file system reports (directories
      included) or the objects in the bucket. */
  function Exists(b: Option<Backend>, objectKey: string, stored: set<string>): (found: bool)
    ensures b.None? ==> !found
    ensures b.Some? ==> (found <==> LStripSlashes(objectKey) in stored)
  {
    match b
    case None => false
    case Some(_) => LStripSlashes(objectKey) in stored
  }

  /** Once `put_bytes` has written an object, both backends find it under the key it was given
      and under the key it reports, and nothing found before is lost. On S3 any other key is
      found afterwards only when it was found before, or when it names the same object once its
      leading slashes are gone; the local file system also finds the directories the write made. */
  lemma PutThenExists(b: Backend, objectKey: string, stored: set<string>, query: string)
    ensures var loc := PutBytes(b, objectKey);
      var stored' := stored + {LStripSlashes(objectKey)};
      && Exists(Some(b), objectKey, stored')
      && Exists(Some(b), loc.objectKey, stored')
      && ((Exists(Some(b), query, stored) || LStripSlashes(query) == LStripSlashes(objectKey)) ==>
            Exists(Some(b), query, stored'))
    ensures b.S3? ==>
      (Exists(Some(b), query, stored + {LStripSlashes(objectKey)}) ==>
         Exists(Some(b), query, stored) || LStripSlashes(query) == LStripSlashes(objectKey))
  {
    LStripSlashesIdempotent(objectKey);
  }

  /** The backend `get_media_storage` falls back to (api/media_storage.py:161) publishes every key
      under "/media-files/". */
  lemma DefaultLocalUrl(objectKey: string)
    ensures NewLocal(DefaultPublicPrefix) == Local("/media-files")
    ensures PublicUrlFor(NewLocal(DefaultPublicPrefix), objectKey) == Some("/media-files/" + LStripSlashes(objectKey))
  {
    assert DefaultPublicPrefix[|DefaultPublicPrefix| - 1] == 's';
    RStripNoop(DefaultPublicPrefix, IsSlash);
    assert "/media-files" + "/" == "/media-files/";
    assert "/media-files" + "/" + LStripSlashes(objectKey) == "/media-files/" + LStripSlashes(objectKey);
  }

  /** A trailing slash on the configured prefix changes nothing. */
  lemma LocalPrefixTrailingSlash(publicPrefix: string)
    ensures NewLocal(publicPrefix + "/") == NewLocal(publicPrefix)
  {
    RStripSuffix(publicPrefix, "/", IsSlash);
  }

  /** Without a public base the S3 backend publishes no address for any key. */
  lemma S3WithoutBaseHasNoUrls(objectKey: string)
    ensures PublicUrlFor(NewS3(None), objectKey) == None
    ensures PublicUrlFor(NewS3(Some("/")), objectKey) == None
  {
    assert RStripSlashes("") == "";
    assert RStripWhile("/"[..0], IsSlash) == "";
  }

  /** Given the same base, the two backends publish the same address. */
  lemma BackendsAgree(base: string, objectKey: string)
    requires RStripSlashes(base) != ""
    ensures PublicUrlFor(NewLocal(base), objectKey) == PublicUrlFor(NewS3(Some(base)), objectKey)
  {
  }

  /** The key can be read back from a local address: what follows the prefix and the slash is
      the key without its leading slashes, and the slash joining them is never doubled. */
  lemma LocalUrlRoundTrip(publicPrefix: string, objectKey: string)
    ensures var b := NewLocal(publicPrefix);
      var url := PublicUrlFor(b, objectKey).value;
      && url[..|b.publicPrefix|] == b.publicPrefix
      && url[|b.publicPrefix|] == '/'
      && url[|b.publicPrefix| + 1..] == LStripSlashes(objectKey)
      && (|b.publicPrefix| > 0 ==> url[|b.publicPrefix| - 1] != '/')
      && (|url| > |b.publicPrefix| + 1 ==> url[|b.publicPrefix| + 1] != '/')
  {
  }

  /** Keys that differ only in leading slashes get the same address. */
  lemma SameAddressSameKey(b: Backend, k1: string, k2: string)
    requires b.Local?
    ensures PublicUrlFor(b, k1) == PublicUrlFor(b, k2) <==> LStripSlashes(k1) == LStripSlashes(k2)
  {
    if PublicUrlFor(b, k1) == PublicUrlFor(b, k2) {
      var u1 := PublicUrlFor(b, k1).value;
      assert u1[|b.publicPrefix| + 1..] == LStripSlashes(k1);
    }
  }
}

=== FILE: option.dfy ===
/** Optional values: Python's `None` next to a present value. */
module Opt {

  datatype Option<T> = None | Some(value: T) {

    /** Python's `x or default` for an optional value. */
    function GetOr(default: T): T {
      match this
      case Some(v) => v
      case None => default
    }
  }
}

=== FILE: ranking.dfy ===
/**
 The ranking table built from the Elo state: one entry per player, in player
 order, with the average delta per match and an activity flag; the active
 players sorted by average then rating, both descending, and ranked from 1;
 the inactive ones after them with rank 0, in player order.
 */
module Ranking {
  import opened Identity
  import opened StableSort
  import opened Rating

  /** A line of the ranking; rank 0 stands for "not ranked". */
  datatype RankedEntry = RankedEntry(rank: nat, playerId: PlayerId, playerName: string, rating: real,
                                     avgPerMatch: real, matches: nat, tournaments: nat, active: bool)

  /** A player needs results in at least three tournaments to be ranked. */
  const MinTournaments: nat := 3

  /** The average change per match; 0 without matches. */
  function AvgPerMatch(st: PlayerState): (avg: real)
    ensures st.matchCount > 0 ==> avg * st.matchCount as real == st.totalDelta
    ensures st.matchCount == 0 ==> avg == 0.0
  {
    if st.matchCount > 0 then st.totalDelta / st.matchCount as real else 0.0
  }

  /** The unranked line of one player (api/main.py:2164-2177). */
  function EntryOf(pid: PlayerId, name: string, st: PlayerState): (e: RankedEntry)
    ensures e.rank == 0 && e.playerId == pid && e.playerName == name
    ensures e.active <==> |st.tournaments| >= MinTournaments
  {
    RankedEntry(0, pid, name, st.rating, AvgPerMatch(st), st.matchCount, |st.tournaments|,
                |st.tournaments| >= MinTournaments)
  }

  /** The lines of all players, in player order. */
  function Entries(players: seq<(PlayerId, string)>, s: EloState): (rows: seq<RankedEntry>)
    requires forall i :: 0 <= i < |players| ==> players[i].0 in s.players
    ensures |rows| == |players|
    ensures forall i :: 0 <= i < |rows| ==> rows[i] == EntryOf(players[i].0, players[i].1, s.players[players[i].0])
  {
    seq(|players|, i requires 0 <= i < |players| => EntryOf(players[i].0, players[i].1, s.players[players[i].0]))
  }

  function Actives(rows: seq<RankedEntry>): (r: seq<RankedEntry>)
    ensures forall i :: 0 <= i < |r| ==> r[i].active
    decreases |rows|
  {
    if |rows| == 0 then []
    else (if rows[0].active then [rows[0]] else []) + Actives(rows[1..])
  }

  function Inactives(rows: seq<RankedEntry>): (r: seq<RankedEntry>)
    ensures forall i :: 0 <= i < |r| ==> !r[i].active
    decreases |rows|
  {
    if |rows| == 0 then []
    else (if rows[0].active then [] else [rows[0]]) + Inactives(rows[1..])
  }

  /** Splitting by the flag loses and duplicates nothing. */
  lemma {:induction false} SplitByActivity(rows: seq<RankedEntry>)
    ensures multiset(Actives(rows)) + multiset(Inactives(rows)) == multiset(rows)
    decreases |rows|
  {
    if |rows| > 0 {
      var rest := rows[1..];
      SplitByActivity(rest);
      assert rows == [rows[0]] + rest;
      SplitStep(rows[0], rest, Actives(rest), Inactives(rest), Actives(rows), Inactives(rows));
    }
  }

  /** One line added in front of a split. */
  lemma SplitStep(x: RankedEntry, rest: seq<RankedEntry>, a: seq<RankedEntry>, i: seq<RankedEntry>,
                  a': seq<RankedEntry>, i': seq<RankedEntry>)
    requires multiset(a) + multiset(i) == multiset(rest)
    requires a' == (if x.active then [x] else []) + a
    requires i' == (if x.active then [] else [x]) + i
    ensures multiset(a') + multiset(i') == multiset([x] + rest)
  {
  }

  /** The lines with the given flag: `Actives` or `Inactives`. */
  function WithFlag(rows: seq<RankedEntry>, active: bool): seq<RankedEntry> {
    if active then Actives(rows) else Inactives(rows)
  }

  /** The indices, counted from `off`, of the lines with the given flag, in row order. */
  function Positions(rows: seq<RankedEntry>, active: bool, off: nat): seq<nat>
    decreases |rows|
  {
    if |rows| == 0 then []
    else (if rows[0].active == active then [off] else []) + Positions(rows[1..], active, off + 1)
  }

  predicate Increasing(p: seq<nat>) {
    forall k, l :: 0 <= k < l < |p| ==> p[k] < p[l]
  }

  /** `p` picks out `f` from `rows`, index by index, counting from `off`. */
  predicate Picks(rows: seq<RankedEntry>, p: seq<nat>, f: seq<RankedEntry>, off: nat) {
    && |p| == |f|
    && forall k :: 0 <= k < |p| ==> off <= p[k] < off + |rows| && rows[p[k] - off] == f[k]
  }

  /** Every line with the flag, and no other, has its index among the positions. */
  predicate Covers(rows: seq<RankedEntry>, active: bool, p: seq<nat>, off: nat) {
    forall i :: 0 <= i < |rows| ==> (rows[i].active == active <==> off + i in p)
  }

  /** Both list comprehensions of api/main.py:2180-2181 keep the lines in row order: the lines
      with the flag sit at increasing indices of the rows, and those indices are exactly the lines
      that have it. */
  lemma {:induction false} FilterKeepsOrder(rows: seq<RankedEntry>, active: bool, off: nat)
    ensures var p := Positions(rows, active, off);
      && Picks(rows, p, WithFlag(rows, active), off)
      && Increasing(p)
      && Covers(rows, active, p, off)
    decreases |rows|
  {
    if |rows| > 0 {
      var rest := rows[1..];
      FilterKeepsOrder(rest, active, off + 1);
      FilterStep(rows, active, off, Positions(rest, active, off + 1), WithFlag(rest, active));
    }
  }

  lemma FilterStep(rows: seq<RankedEntry>, active: bool, off: nat, q: seq<nat>, g: seq<RankedEntry>)
    requires |rows| > 0 && q == Positions(rows[1..], active, off + 1) && g == WithFlag(rows[1..], active)
    requires Picks(rows[1..], q, g, off + 1) && Increasing(q) && Covers(rows[1..], active, q, off + 1)
    ensures var p := Positions(rows, active, off);
      && Picks(rows, p, WithFlag(rows, active), off)
      && Increasing(p)
      && Covers(rows, active, p, off)
  {
    var p := Positions(rows, active, off);
    var f := WithFlag(rows, active);
    var keep := rows[0].active == active;
    assert p == (if keep then [off] else []) + q;
    assert f == (if keep then [rows[0]] else []) + g;
    StepPicks(rows, off, keep, q, g, p, f);
    StepIncreasing(rows, off, keep, q, p);
    StepCovers(rows, active, off, keep, q, p);
  }

  lemma StepPicks(rows: seq<RankedEntry>, off: nat, keep: bool, q: seq<nat>, g: seq<RankedEntry>,
                  p: seq<nat>, f: seq<RankedEntry>)
    requires |rows| > 0 && Picks(rows[1..], q, g, off + 1)
    requires p == (if keep then [off] else []) + q && f == (if keep then [rows[0]] else []) + g
    ensures Picks(rows, p, f, off)
  {
    var h := if keep then 1 else 0;
    forall k | 0 <= k < |p|
      ensures off <= p[k] < off + |rows| && rows[p[k] - off] == f[k]
    {
      if k >= h {
        assert p[k] == q[k - h] && f[k] == g[k - h];
        assert rows[1..][q[k - h] - off - 1] == rows[q[k - h] - off];
      }
    }
  }

  lemma StepIncreasing(rows: seq<RankedEntry>, off: nat, keep: bool, q: seq<nat>, p: seq<nat>)
    requires |rows| > 0 && Increasing(q)
    requires forall k :: 0 <= k < |q| ==> off + 1 <= q[k]
    requires p == (if keep then [off] else []) + q
    ensures Increasing(p)
  {
  }

  lemma StepCovers(rows: seq<RankedEntry>, active: bool, off: nat, keep: bool, q: seq<nat>, p: seq<nat>)
    requires |rows| > 0 && Covers(rows[1..], active, q, off + 1) && keep == (rows[0].active == active)
    requires forall k :: 0 <= k < |q| ==> off + 1 <= q[k]
    requires p == (if keep then [off] else []) + q
    ensures Covers(rows, active, p, off)
  {
    forall i | 0 <= i < |rows|
      ensures rows[i].active == active <==> off + i in p
    {
      if i > 0 {
        assert rows[i] == rows[1..][i - 1];
        assert off + i in p <==> off + 1 + (i - 1) in q;
      } else {
        assert off !in q;
      }
    }
  }

  /** The sort key `(avg, rating)` with `reverse=True`: x goes no later than y. */
  predicate ByScore(x: RankedEntry, y: RankedEntry) {
    x.avgPerMatch > y.avgPerMatch || (x.avgPerMatch == y.avgPerMatch && x.rating >= y.rating)
  }

  lemma ByScoreOrder()
    ensures TotalPreorder(ByScore)
  {
  }

  /** The active lines in ranking order: Python's stable sort, so lines that tie on both keys
      keep player order. */
  function SortedActives(rows: seq<RankedEntry>): (sorted: seq<RankedEntry>)
    ensures |sorted| == |Actives(rows)|
    ensures multiset(sorted) == multiset(Actives(rows))
    ensures forall i :: 0 <= i < |sorted| ==> sorted[i].active
    ensures forall i, j :: 0 <= i < j < |sorted| ==> ByScore(sorted[i], sorted[j])
    ensures forall i, j :: 0 <= i < j < |sorted| && ByScore(sorted[j], sorted[i]) ==>
      exists a, b :: 0 <= a < b < |Actives(rows)| && Actives(rows)[a] == sorted[i] && Actives(rows)[b] == sorted[j]
  {
    SortedByScore(Actives(rows))
  }

  /** Lines sorted by score, stably. */
  function SortedByScore(act: seq<RankedEntry>): (sorted: seq<RankedEntry>)
    ensures |sorted| == |act|
    ensures multiset(sorted) == multiset(act)
    ensures forall i :: 0 <= i < |sorted| ==> sorted[i] in act
    ensures forall i, j :: 0 <= i < j < |sorted| ==> ByScore(sorted[i], sorted[j])
    ensures forall i, j :: 0 <= i < j < |sorted| && ByScore(sorted[j], sorted[i]) ==>
      exists a, b :: 0 <= a < b < |act| && act[a] == sorted[i] && act[b] == sorted[j]
  {
    ByScoreOrder();
    ArrangePermutation(act, act, ByScore);
    var p := Sort(act, ByScore);
    var sorted := Arrange(act, p);
    ArrangedByScore(act, p, sorted);
    sorted
  }

  /** Lines arranged in stably sorted positions come from the input, in score order, and two
      lines that tie keep their input order. */
  lemma ArrangedByScore(act: seq<RankedEntry>, p: seq<nat>, sorted: seq<RankedEntry>)
    requires InRange(p, |act|) && StablySorted(act, ByScore, p)
    requires |sorted| == |p| && forall x :: 0 <= x < |p| ==> sorted[x] == act[p[x]]
    ensures forall i :: 0 <= i < |sorted| ==> sorted[i] in act
    ensures forall i, j :: 0 <= i < j < |sorted| ==> ByScore(sorted[i], sorted[j])
    ensures forall i, j :: 0 <= i < j < |sorted| && ByScore(sorted[j], sorted[i]) ==>
      exists a, b :: 0 <= a < b < |act| && act[a] == sorted[i] && act[b] == sorted[j]
  {
    forall i | 0 <= i < |sorted| ensures sorted[i] in act {
      assert sorted[i] == act[p[i]];
    }
    forall i, j | 0 <= i < j < |sorted|
      ensures ByScore(sorted[i], sorted[j])
      ensures ByScore(sorted[j], sorted[i]) ==>
        exists a, b :: 0 <= a < b < |act| && act[a] == sorted[i] && act[b] == sorted[j]
    {
      assert Before(act, ByScore, p[i], p[j]);
      if ByScore(sorted[j], sorted[i]) {
        assert act[p[i]] == sorted[i] && act[p[j]] == sorted[j];
      }
    }
  }

  /** Ranks 1, 2, ... in list order. */
  function Number(sorted: seq<RankedEntry>): (ranked: seq<RankedEntry>)
    ensures |ranked| == |sorted|
    ensures forall i :: 0 <= i < |sorted| ==> ranked[i] == sorted[i].(rank := i + 1)
  {
    seq(|sorted|, i requires 0 <= i < |sorted| => sorted[i].(rank := i + 1))
  }

  /** The composer of api/main.py:2163-2187: ranked actives, then the inactive lines. */
  function Rank(rows: seq<RankedEntry>): (items: seq<RankedEntry>) {
    Number(SortedActives(rows)) + Inactives(rows)
  }

  /** The table of the Elo endpoint. */
  function RankingTable(players: seq<(PlayerId, string)>, s: EloState): (items: seq<RankedEntry>)
    requires forall i :: 0 <= i < |players| ==> players[i].0 in s.players
  {
    Rank(Entries(players, s))
  }

  function Unranked(items: seq<RankedEntry>): (r: seq<RankedEntry>)
    ensures |r| == |items| && forall i :: 0 <= i < |items| ==> r[i] == items[i].(rank := 0)
  {
    seq(|items|, i requires 0 <= i < |items| => items[i].(rank := 0))
  }

  /** Every line comes back exactly once, rank aside. */
  lemma RankIsPermutation(rows: seq<RankedEntry>)
    requires forall i :: 0 <= i < |rows| ==> rows[i].rank == 0
    ensures multiset(Unranked(Rank(rows))) == multiset(rows)
    ensures |Rank(rows)| == |rows|
  {
    var sorted := SortedActives(rows);
    var inact := Inactives(rows);
    var items := Rank(rows);
    assert Unranked(Number(sorted)) == sorted by {
      forall i | 0 <= i < |sorted| ensures sorted[i].rank == 0 {
        assert sorted[i] in multiset(Actives(rows));
        ActivesFromRows(rows, sorted[i]);
      }
    }
    assert Unranked(inact) == inact by {
      forall i | 0 <= i < |inact| ensures inact[i].rank == 0 {
        InactivesFromRows(rows, inact[i]);
      }
    }
    assert Unranked(items) == Unranked(Number(sorted)) + Unranked(inact);
    SplitByActivity(rows);
    assert |multiset(rows)| == |multiset(sorted)| + |multiset(inact)|;
  }

  lemma {:induction false} ActivesFromRows(rows: seq<RankedEntry>, e: RankedEntry)
    requires e in Actives(rows)
    ensures e in rows
    decreases |rows|
  {
    if |rows| > 0 && e != rows[0] {
      ActivesFromRows(rows[1..], e);
    }
  }

  lemma {:induction false} InactivesFromRows(rows: seq<RankedEntry>, e: RankedEntry)
    requires e in Inactives(rows)
    ensures e in rows
    decreases |rows|
  {
    if |rows| > 0 && e != rows[0] {
      InactivesFromRows(rows[1..], e);
    }
  }

  /** The active lines come first, ranked 1..n in order; the rest are inactive with rank 0. */
  lemma RankShape(rows: seq<RankedEntry>)
    requires forall i :: 0 <= i < |rows| ==> rows[i].rank == 0
    ensures var items, n := Rank(rows), |Actives(rows)|;
      && (forall i :: 0 <= i < |items| ==> (items[i].active <==> i < n))
      && (forall i :: 0 <= i < |items| ==> items[i].rank == (if i < n then i + 1 else 0))
      && items[n..] == Inactives(rows)
  {
    var inact := Inactives(rows);
    forall i | 0 <= i < |inact| ensures inact[i].rank == 0 {
      InactivesFromRows(rows, inact[i]);
    }
  }

  /** Ranked lines are ordered by average and then rating, both descending; two lines that tie on
      both keys are in player order. */
  lemma RankOrdered(rows: seq<RankedEntry>)
    ensures var items, n := Rank(rows), |Actives(rows)|;
      forall i, j :: 0 <= i < j < n ==>
        && ByScore(items[i], items[j])
        && (ByScore(items[j], items[i]) ==>
              exists a, b :: 0 <= a < b < n && Actives(rows)[a].(rank := i + 1) == items[i]
                                               && Actives(rows)[b].(rank := j + 1) == items[j])
  {
    var sorted := SortedActives(rows);
    var items, n := Rank(rows), |Actives(rows)|;
    forall i, j | 0 <= i < j < n
      ensures ByScore(items[i], items[j])
      ensures ByScore(items[j], items[i]) ==>
              exists a, b :: 0 <= a < b < n && Actives(rows)[a].(rank := i + 1) == items[i]
                                               && Actives(rows)[b].(rank := j + 1) == items[j]
    {
      assert items[i] == sorted[i].(rank := i + 1) && items[j] == sorted[j].(rank := j + 1);
      assert ByScore(sorted[i], sorted[j]);
      if ByScore(items[j], items[i]) {
        assert ByScore(sorted[j], sorted[i]);
        var a, b :| 0 <= a < b < n && Actives(rows)[a] == sorted[i] && Actives(rows)[b] == sorted[j];
        assert Actives(rows)[a].(rank := i + 1) == items[i];
      }
    }
  }
}

=== FILE: rate_limit.dfy ===
/**
 The per-client write rate limit: for each (bucket, client address) key the
 moments of its recent accepted requests; a request is refused when the
 limit is already reached inside the sliding window. The clock and the
 client address are passed in by the caller.
 */
module RateLimit {

  /** A bucket name and a client address. */
  type Key = (string, string)

  type State = map<Key, seq<real>>

  /** The moments stored for a key, none when the key is new (`.get(key, [])`). */
  function Stored(st: State, key: Key): seq<real> {
    if key in st then st[key] else []
  }

  /** The moments still inside the window, in their order. */
  function Recent(ts: seq<real>, now: real, window: int): (r: seq<real>)
    ensures |r| <= |ts|
    ensures forall x :: x in r <==> x in ts && now - x < window as real
    ensures forall x :: multiset(r)[x] == (if now - x < window as real then multiset(ts)[x] else 0)
    decreases |ts|
  {
    if |ts| == 0 then []
    else
      var prev := Recent(ts[..|ts| - 1], now, window);
      var t := ts[|ts| - 1];
      assert ts == ts[..|ts| - 1] + [t];
      assert multiset(ts) == multiset(ts[..|ts| - 1]) + multiset{t};
      if now - t < window as real then prev + [t] else prev
  }

  /** Nothing is dropped when every moment is inside the window. */
  lemma {:induction false} RecentKeepsAll(ts: seq<real>, now: real, window: int)
    requires forall i :: 0 <= i < |ts| ==> now - ts[i] < window as real
    ensures Recent(ts, now, window) == ts
    decreases |ts|
  {
    if |ts| > 0 {
      RecentKeepsAll(ts[..|ts| - 1], now, window);
      assert ts == ts[..|ts| - 1] + [ts[|ts| - 1]];
    }
  }

  datatype Outcome = Outcome(allowed: bool, state: State)

  /** `_enforce_rate_limit` (api/main.py:101-111). A limit of zero or less turns the check off;
      a refused request changes nothing; an accepted one stores the recent moments and its own. */
  function Enforce(st: State, key: Key, limit: int, window: int, now: real): (o: Outcome)
    ensures o.allowed <==> limit <= 0 || |Recent(Stored(st, key), now, window)| < limit
    ensures !o.allowed || limit <= 0 ==> o.state == st
    ensures o.allowed && limit > 0 ==>
      key in o.state && o.state[key] == Recent(Stored(st, key), now, window) + [now] && |o.state[key]| <= limit
    ensures forall k :: k != key ==> (k in o.state <==> k in st)
    ensures forall k :: k != key && k in st ==> o.state[k] == st[k]
  {
    if limit <= 0 then Outcome(true, st)
    else
      var recent := Recent(Stored(st, key), now, window);
      if |recent| >= limit then Outcome(false, st)
      else Outcome(true, st[key := recent + [now]])
  }

  /** Once every stored moment has left the window, the next request is accepted. */
  lemma WindowReopens(st: State, key: Key, limit: int, window: int, now: real)
    requires forall i :: 0 <= i < |Stored(st, key)| ==> now - Stored(st, key)[i] >= window as real
    ensures Enforce(st, key, limit, window, now).allowed
  {
    RecentDropsAll(Stored(st, key), now, window);
  }

  /** Everything is dropped when every moment is outside the window. */
  lemma {:induction false} RecentDropsAll(ts: seq<real>, now: real, window: int)
    requires forall i :: 0 <= i < |ts| ==> now - ts[i] >= window as real
    ensures Recent(ts, now, window) == []
    decreases |ts|
  {
    if |ts| > 0 {
      RecentDropsAll(ts[..|ts| - 1], now, window);
    }
  }

  /** A run of requests from one key at the given moments: the final state and the number
      accepted. */
  function Run(st: State, key: Key, limit: int, window: int, times: seq<real>): (res: (State, nat))
    decreases |times|
  {
    if |times| == 0 then (st, 0)
    else
      var prev := Run(st, key, limit, window, times[..|times| - 1]);
      var o := Enforce(prev.0, key, limit, window, times[|times| - 1]);
      (o.state, prev.1 + if o.allowed then 1 else 0)
  }

  predicate Nondecreasing(times: seq<real>) {
    forall i, j :: 0 <= i < j < |times| ==> times[i] <= times[j]
  }

  /** Inside one window a new key stores exactly the accepted moments, all from the run. */
  lemma {:induction false} RunStoresAccepted(st: State, key: Key, limit: int, window: int, times: seq<real>)
    requires limit > 0 && key !in st && |times| > 0 && Nondecreasing(times)
    requires times[|times| - 1] - times[0] < window as real
    ensures var res := Run(st, key, limit, window, times);
      && |Stored(res.0, key)| == res.1 <= limit
      && forall i :: 0 <= i < |Stored(res.0, key)| ==> Stored(res.0, key)[i] in times
    decreases |times|
  {
    var pre := times[..|times| - 1];
    var t := times[|times| - 1];
    var prev := Run(st, key, limit, window, pre);
    if |pre| > 0 {
      assert pre[|pre| - 1] <= t && pre[0] == times[0];
      RunStoresAccepted(st, key, limit, window, pre);
    }
    var stored := Stored(prev.0, key);
    assert forall i :: 0 <= i < |stored| ==> stored[i] in times by {
      forall i | 0 <= i < |stored| ensures stored[i] in times {
        assert stored[i] in pre;
      }
    }
    InsideWindow(times, stored, window);
    RecentKeepsAll(stored, t, window);
    EnforceInsideWindow(prev.0, key, limit, window, t);
  }

  /** While every stored moment is inside the window, a request adds its own moment when it is
      accepted and nothing otherwise. */
  lemma EnforceInsideWindow(st: State, key: Key, limit: int, window: int, now: real)
    requires limit > 0 && |Stored(st, key)| <= limit
    requires Recent(Stored(st, key), now, window) == Stored(st, key)
    ensures var o := Enforce(st, key, limit, window, now);
      && |Stored(o.state, key)| == |Stored(st, key)| + (if o.allowed then 1 else 0) <= limit
      && forall x :: x in Stored(o.state, key) ==> x in Stored(st, key) || x == now
  {
  }

  /** Moments taken from a run that spans less than a window are all inside the window at
      its last moment. */
  lemma InsideWindow(times: seq<real>, stored: seq<real>, window: int)
    requires |times| > 0 && Nondecreasing(times)
    requires times[|times| - 1] - times[0] < window as real
    requires forall i :: 0 <= i < |stored| ==> stored[i] in times
    ensures forall i :: 0 <= i < |stored| ==> times[|times| - 1] - stored[i] < window as real
  {
    forall i | 0 <= i < |stored| ensures times[|times| - 1] - stored[i] < window as real {
      var j :| 0 <= j < |times| && times[j] == stored[i];
      assert times[0] <= times[j];
    }
  }

  /** However many requests a new key sends within one window, at most `limit` are accepted. */
  lemma AtMostLimitPerWindow(st: State, key: Key, limit: int, window: int, times: seq<real>)
    requires limit > 0 && key !in st && |times| > 0 && Nondecreasing(times)
    requires times[|times| - 1] - times[0] < window as real
    ensures Run(st, key, limit, window, times).1 <= limit
  {
    RunStoresAccepted(st, key, limit, window, times);
  }
}

=== FILE: rating.dfy ===
/**
 The Elo computation of the ranking endpoint: every known player starts at
 1500, each match found in the players' histories moves the two ratings by
 the same amount in opposite directions, and a match reported by both of its
 players is applied once. When no match at all is applied, the first rounds
 of upcoming draws are simulated instead, the better seed winning.

 The expected score `1 / (1 + 10^((rb - ra) / 400))` is the parameter
 `expected`; date parsing is done by the caller (`MatchRow.when`).
 */
module Rating {
  import opened Opt
  import opened Text
  import opened Identity
  import opened Index
  import opened EloMath
  import opened Seeding

  const InitialRating: real := 1500.0

  /** The four per-player tables of the computation, kept together. */
  datatype PlayerState = PlayerState(rating: real, totalDelta: real, matchCount: nat, tournaments: set<string>)

  /** The tables of every player plus the keys of the matches already applied. */
  datatype EloState = EloState(players: map<PlayerId, PlayerState>, seen: set<string>)

  function Fresh(): PlayerState {
    PlayerState(InitialRating, 0.0, 0, {})
  }

  // ---------------------------------------------------------------------------
  // The player universe
  // ---------------------------------------------------------------------------

  /** `players[id] = name` on an insertion-ordered dictionary held as a list. */
  function Assign(players: seq<(PlayerId, string)>, id: PlayerId, name: string): (out: seq<(PlayerId, string)>)
    ensures forall p :: p in Ids(out) <==> p in Ids(players) || p == id
    ensures Distinct(Ids(players)) ==> Distinct(Ids(out))
    ensures (id, name) in out
    ensures forall e :: e in players && e.0 != id ==> e in out
    ensures forall e :: e in out && e.0 != id ==> e in players
    decreases |players|
  {
    if |players| == 0 then
      assert Ids([(id, name)]) == [id];
      [(id, name)]
    else if players[0].0 == id then
      IdsCons((id, name), players[1..]);
      IdsCons(players[0], players[1..]);
      assert players == [players[0]] + players[1..];
      [(id, name)] + players[1..]
    else
      var rest := Assign(players[1..], id, name);
      IdsCons(players[0], rest);
      IdsCons(players[0], players[1..]);
      assert players == [players[0]] + players[1..];
      [players[0]] + rest
  }

  lemma IdsCons(x: (PlayerId, string), rest: seq<(PlayerId, string)>)
    ensures Ids([x] + rest) == [x.0] + Ids(rest)
  {
  }

  function Ids(players: seq<(PlayerId, string)>): (ids: seq<PlayerId>)
    ensures |ids| == |players| && forall i :: 0 <= i < |players| ==> ids[i] == players[i].0
  {
    seq(|players|, i requires 0 <= i < |players| => players[i].0)
  }

  predicate Distinct(ids: seq<PlayerId>) {
    forall i, j :: 0 <= i < j < |ids| ==> ids[i] != ids[j]
  }

  /** The player dictionary of api/main.py:1998-2001: every ranking row with an id, national rows
      first; an id keeps its first place and takes the name of its last row. */
  function Universe(rows: seq<RankingRow>): (players: seq<(PlayerId, string)>)
    ensures Distinct(Ids(players))
    ensures forall p :: p in Ids(players) <==> p != "" && exists i :: 0 <= i < |rows| && rows[i].playerId == p
    decreases |rows|
  {
    if |rows| == 0 then []
    else
      var init := rows[..|rows| - 1];
      var prev := Universe(init);
      var r := rows[|rows| - 1];
      assert forall i :: 0 <= i < |init| ==> init[i] == rows[i];
      if r.playerId == "" then prev else Assign(prev, r.playerId, r.playerName)
  }

  /** The name kept for an id is the one on the last row with that id. */
  lemma {:induction false} UniverseLastName(rows: seq<RankingRow>, j: int)
    requires 0 <= j < |rows| && rows[j].playerId != ""
    requires forall i :: j < i < |rows| ==> rows[i].playerId != rows[j].playerId
    ensures (rows[j].playerId, rows[j].playerName) in Universe(rows)
    decreases |rows|
  {
    var init := rows[..|rows| - 1];
    var r := rows[|rows| - 1];
    if j < |rows| - 1 {
      assert init[j] == rows[j];
      forall i | j < i < |init| ensures init[i].playerId != init[j].playerId {
        assert init[i] == rows[i];
      }
      UniverseLastName(init, j);
    }
  }

  /** Every player starts at 1500 with no delta, no match and no tournament. */
  function Initial(ids: seq<PlayerId>): (s: EloState)
    ensures s.seen == {}
    ensures forall p :: p in s.players <==> p in ids
    ensures forall p :: p in s.players ==> s.players[p] == Fresh()
  {
    EloState(map p | p in ids :: Fresh(), {})
  }

  // ---------------------------------------------------------------------------
  // One rating update
  // ---------------------------------------------------------------------------

  /** Moves `a` up by `delta` and `b` down by the same amount, counts the match for both and,
      when `record` holds, adds the tournament to both players' tournament sets. */
  function Update(ps: map<PlayerId, PlayerState>, a: PlayerId, b: PlayerId, delta: real,
                  tournament: string, record: bool): (out: map<PlayerId, PlayerState>)
    requires a in ps && b in ps && a != b
    ensures out.Keys == ps.Keys
    ensures forall c :: c in ps && c != a && c != b ==> out[c] == ps[c]
    ensures out[a].rating - ps[a].rating == delta && out[b].rating - ps[b].rating == -delta
    ensures out[a].totalDelta - ps[a].totalDelta == delta && out[b].totalDelta - ps[b].totalDelta == -delta
    ensures out[a].matchCount == ps[a].matchCount + 1 && out[b].matchCount == ps[b].matchCount + 1
    ensures out[a].tournaments == ps[a].tournaments + (if record then {tournament} else {})
    ensures out[b].tournaments == ps[b].tournaments + (if record then {tournament} else {})
  {
    var sa, sb := ps[a], ps[b];
    var extra := if record then {tournament} else {};
    ps[a := PlayerState(sa.rating + delta, sa.totalDelta + delta, sa.matchCount + 1, sa.tournaments + extra)]
      [b := PlayerState(sb.rating - delta, sb.totalDelta - delta, sb.matchCount + 1, sb.tournaments + extra)]
  }

  /** `k * (result - e)`: the change of the first player's rating. */
  function Delta(k: int, winA: bool, e: real): real {
    k as real * ((if winA then 1.0 else 0.0) - e)
  }

  /** A win never lowers the winner's rating and a loss never raises it. */
  lemma DeltaSign(k: int, winA: bool, e: real)
    requires k >= 0 && 0.0 <= e <= 1.0
    ensures winA ==> Delta(k, winA, e) >= 0.0
    ensures !winA ==> Delta(k, winA, e) <= 0.0
  {
    ProductNonNegative(k as real, 1.0 - e);
    ProductNonNegative(k as real, e);
  }

  // ---------------------------------------------------------------------------
  // Sums over the players
  // ---------------------------------------------------------------------------

  function SumDelta(ps: map<PlayerId, PlayerState>, ids: seq<PlayerId>): real
    decreases |ids|
  {
    if |ids| == 0 then 0.0
    else (if ids[0] in ps then ps[ids[0]].totalDelta else 0.0) + SumDelta(ps, ids[1..])
  }

  function SumRating(ps: map<PlayerId, PlayerState>, ids: seq<PlayerId>): real
    decreases |ids|
  {
    if |ids| == 0 then 0.0
    else (if ids[0] in ps then ps[ids[0]].rating else 0.0) + SumRating(ps, ids[1..])
  }

  function SumCount(ps: map<PlayerId, PlayerState>, ids: seq<PlayerId>): int
    decreases |ids|
  {
    if |ids| == 0 then 0
    else (if ids[0] in ps then ps[ids[0]].matchCount else 0) + SumCount(ps, ids[1..])
  }

  /** An update is zero-sum over any list of distinct players holding both of its players,
      and adds two matches to the total count. */
  lemma {:induction false} UpdateSums(ps: map<PlayerId, PlayerState>, a: PlayerId, b: PlayerId, delta: real,
                                      tournament: string, record: bool, ids: seq<PlayerId>)
    requires a in ps && b in ps && a != b && Distinct(ids)
    ensures var out := Update(ps, a, b, delta, tournament, record);
      && SumDelta(out, ids) == SumDelta(ps, ids) + (if a in ids then delta else 0.0) - (if b in ids then delta else 0.0)
      && SumCount(out, ids) == SumCount(ps, ids) + (if a in ids then 1 else 0) + (if b in ids then 1 else 0)
    decreases |ids|
  {
    if |ids| > 0 {
      var rest := ids[1..];
      assert Distinct(rest);
      UpdateSums(ps, a, b, delta, tournament, record, rest);
      assert ids[0] !in rest;
      assert forall p :: p in ids <==> p == ids[0] || p in rest;
    }
  }

  /** The invariants of the computation over the player list `ids`: every rating is 1500 plus the
      player's total delta, and the deltas sum to zero. */
  ghost predicate Balanced(s: EloState, ids: seq<PlayerId>) {
    && Distinct(ids)
    && (forall p :: p in s.players <==> p in ids)
    && (forall p :: p in s.players ==> s.players[p].rating == InitialRating + s.players[p].totalDelta)
    && SumDelta(s.players, ids) == 0.0
  }

  /** Each applied real match was counted for exactly two players. */
  ghost predicate CountsMatch(s: EloState, ids: seq<PlayerId>) {
    SumCount(s.players, ids) == 2 * |s.seen|
  }

  /** The ratings of a balanced state sum to 1500 per player. */
  lemma RatingsSum(s: EloState, ids: seq<PlayerId>)
    requires Balanced(s, ids)
    ensures SumRating(s.players, ids) == InitialRating * |ids| as real
  {
    RatingsFromDeltas(s.players, ids);
  }

  lemma {:induction false} RatingsFromDeltas(ps: map<PlayerId, PlayerState>, ids: seq<PlayerId>)
    requires forall p :: p in ids ==> p in ps
    requires forall p :: p in ps ==> ps[p].rating == InitialRating + ps[p].totalDelta
    ensures SumRating(ps, ids) == InitialRating * |ids| as real + SumDelta(ps, ids)
    decreases |ids|
  {
    if |ids| > 0 {
      assert ids[0] in ids;
      assert forall p :: p in ids[1..] ==> p in ids;
      RatingsFromDeltas(ps, ids[1..]);
    }
  }

  lemma {:induction false} FreshSums(ps: map<PlayerId, PlayerState>, ids: seq<PlayerId>)
    requires forall p :: p in ps ==> ps[p] == Fresh()
    ensures SumDelta(ps, ids) == 0.0 && SumCount(ps, ids) == 0
    decreases |ids|
  {
    if |ids| > 0 {
      FreshSums(ps, ids[1..]);
    }
  }

  /** The starting state keeps both invariants. */
  lemma InitialBalanced(ids: seq<PlayerId>)
    requires Distinct(ids)
    ensures Balanced(Initial(ids), ids) && CountsMatch(Initial(ids), ids)
  {
    FreshSums(Initial(ids).players, ids);
  }

  /** An update keeps the state balanced. */
  lemma UpdateBalanced(s: EloState, ids: seq<PlayerId>, a: PlayerId, b: PlayerId, delta: real,
                       tournament: string, record: bool, seen: set<string>)
    requires Balanced(s, ids) && a in s.players && b in s.players && a != b
    ensures var out := Update(s.players, a, b, delta, tournament, record);
      && Balanced(EloState(out, seen), ids)
      && SumCount(out, ids) == SumCount(s.players, ids) + 2
  {
    UpdateSums(s.players, a, b, delta, tournament, record, ids);
  }

  // ---------------------------------------------------------------------------
  // Matches from the players' histories (api/main.py:2037-2090)
  // ---------------------------------------------------------------------------

  /** One row of a player's match history. `date` is the raw text ("" when missing) and `when`
      what the date parser made of it (None when it failed). */
  datatype MatchRow = MatchRow(opponent: string, date: string, when: Option<int>,
                               tournament: string, score: string, isWin: bool)

  /** The date that counts: only a non-empty text that parses. */
  function RowTime(row: MatchRow): Option<int> {
    if row.date != "" then row.when else None
  }

  /** `f"{a}|{b}|{tournament}|{date}|{score}"`. */
  function DedupKey(a: PlayerId, b: PlayerId, tournament: string, date: string, score: string): string {
    a + "|" + b + "|" + tournament + "|" + date + "|" + score
  }

  /** The key of the row of `owner` against `opponent`: the ids in sorted order. */
  function RowKey(owner: PlayerId, opponent: PlayerId, row: MatchRow): string {
    DedupKey(LexMin(owner, opponent), LexMax(owner, opponent), Strip(row.tournament), row.date, Strip(row.score))
  }

  /** What the loop does with a row whose opponent name resolved to `opp`. `Untracked` stands
      for a pair one of whose ids has no rating; with the index built from the player list it
      never happens (NeverUntracked). */
  datatype Verdict =
    | NoOpponent
    | SelfMatch
    | TooOld
    | Untracked
    | Duplicate
    | Apply(a: PlayerId, b: PlayerId, key: string, winA: bool)

  function Classify(s: EloState, owner: PlayerId, opp: Option<PlayerId>, row: MatchRow, cutoff: int): (v: Verdict)
    ensures v == NoOpponent <==> opp.None? || opp == Some("")
    ensures v == TooOld ==> RowTime(row).Some? && RowTime(row).value < cutoff
    ensures RowTime(row).None? ==> v != TooOld
    ensures v.Apply? ==> && opp.Some? && opp.value != owner
                         && ((v.a == owner && v.b == opp.value) || (v.a == opp.value && v.b == owner))
                         && LexLe(v.a, v.b) && v.a in s.players && v.b in s.players
                         && v.key == RowKey(owner, opp.value, row) && v.key !in s.seen
                         && (v.winA <==> (row.isWin <==> owner == v.a))
    ensures v.Apply? ==> !(RowTime(row).Some? && RowTime(row).value < cutoff)
    ensures v.Apply? <== && opp.Some? && opp.value != "" && opp.value != owner
                         && !(RowTime(row).Some? && RowTime(row).value < cutoff)
                         && owner in s.players && opp.value in s.players
                         && RowKey(owner, opp.value, row) !in s.seen
  {
    match opp
    case None => NoOpponent
    case Some(o) =>
      if o == "" then NoOpponent
      else if o == owner then SelfMatch
      else
        assert LexLe(LexMin(owner, o), LexMax(owner, o)) by {
          LexLeTotal(owner, o);
        }
        var a := LexMin(owner, o);
        Judge(s, a, LexMax(owner, o), RowKey(owner, o, row), RowTime(row), cutoff,
              if owner == a then row.isWin else !row.isWin)
  }

  /** The rest of the verdict, once the pair is put in order: the age test, then the dedup test. */
  function Judge(s: EloState, a: PlayerId, b: PlayerId, key: string, time: Option<int>, cutoff: int,
                 winA: bool): (v: Verdict)
    ensures v == TooOld <==> time.Some? && time.value < cutoff
    ensures v.Apply? <==> !(time.Some? && time.value < cutoff) && a in s.players && b in s.players && key !in s.seen
    ensures v.Apply? ==> v == Apply(a, b, key, winA)
    ensures v != NoOpponent && v != SelfMatch
    ensures v == Untracked ==> a !in s.players || b !in s.players
  {
    if time.Some? && time.value < cutoff then TooOld
    else if a !in s.players || b !in s.players then Untracked
    else if key in s.seen then Duplicate
    else Apply(a, b, key, winA)
  }

  /** The loop body once the opponent is resolved; `expected` is the expected score of the
      first player. */
  function ApplyRow(s: EloState, owner: PlayerId, opp: Option<PlayerId>, row: MatchRow, cutoff: int,
                    expected: (real, real) -> real): (out: EloState)
    ensures !Classify(s, owner, opp, row, cutoff).Apply? ==> out == s
    ensures Classify(s, owner, opp, row, cutoff).Apply? ==>
      out.seen == s.seen + {Classify(s, owner, opp, row, cutoff).key} && |out.seen| == |s.seen| + 1
    ensures out.players.Keys == s.players.Keys
    ensures var v := Classify(s, owner, opp, row, cutoff);
      v.Apply? ==>
        var t := Strip(row.tournament);
        out.players == Update(s.players, v.a, v.b,
          Delta(KFactor(t), v.winA, expected(s.players[v.a].rating, s.players[v.b].rating)), t, t != "")
  {
    var v := Classify(s, owner, opp, row, cutoff);
    if v.Apply? then
      var t := Strip(row.tournament);
      var e := expected(s.players[v.a].rating, s.players[v.b].rating);
      var delta := Delta(KFactor(t), v.winA, e);
      AddFresh(s.seen, v.key);
      EloState(Update(s.players, v.a, v.b, delta, t, t != ""), s.seen + {v.key})
    else s
  }

  lemma AddFresh<T>(xs: set<T>, x: T)
    requires x !in xs
    ensures |xs + {x}| == |xs| + 1
  {
  }

  /** One iteration of the history loop: resolve the opponent's name, then apply the row. */
  function RealStep(s: EloState, index: map<string, PlayerId>, owner: PlayerId, row: MatchRow,
                    cutoff: int, expected: (real, real) -> real): EloState
  {
    ApplyRow(s, owner, Lookup(index, row.opponent), row, cutoff, expected)
  }

  /** The rows of all players, in player order. */
  function RealFold(s: EloState, index: map<string, PlayerId>, history: seq<(PlayerId, MatchRow)>,
                    cutoff: int, expected: (real, real) -> real): (out: EloState)
    ensures out.players.Keys == s.players.Keys
    ensures s.seen <= out.seen
    decreases |history|
  {
    if |history| == 0 then s
    else RealFold(RealStep(s, index, history[0].0, history[0].1, cutoff, expected), index, history[1..], cutoff, expected)
  }

  /** A history row keeps the state balanced and the match count at twice the matches applied. */
  lemma ApplyRowBalanced(s: EloState, ids: seq<PlayerId>, owner: PlayerId, opp: Option<PlayerId>,
                         row: MatchRow, cutoff: int, expected: (real, real) -> real)
    requires Balanced(s, ids) && CountsMatch(s, ids)
    ensures Balanced(ApplyRow(s, owner, opp, row, cutoff, expected), ids)
    ensures CountsMatch(ApplyRow(s, owner, opp, row, cutoff, expected), ids)
  {
    var v := Classify(s, owner, opp, row, cutoff);
    if v.Apply? {
      var t := Strip(row.tournament);
      var e := expected(s.players[v.a].rating, s.players[v.b].rating);
      var delta := Delta(KFactor(t), v.winA, e);
      ApplyBalanced(s, ids, ApplyRow(s, owner, opp, row, cutoff, expected), v.a, v.b, delta, t, v.key);
    }
  }

  /** Applying one fresh match keeps the state balanced and counted. */
  lemma ApplyBalanced(s: EloState, ids: seq<PlayerId>, out: EloState, a: PlayerId, b: PlayerId, delta: real,
                      t: string, key: string)
    requires Balanced(s, ids) && CountsMatch(s, ids)
    requires a in s.players && b in s.players && a != b && key !in s.seen
    requires out == EloState(Update(s.players, a, b, delta, t, t != ""), s.seen + {key})
    ensures Balanced(out, ids) && CountsMatch(out, ids)
  {
    AddFresh(s.seen, key);
    UpdateBalanced(s, ids, a, b, delta, t, t != "", s.seen + {key});
  }

  lemma {:induction false} RealFoldBalanced(s: EloState, ids: seq<PlayerId>, index: map<string, PlayerId>,
                                            history: seq<(PlayerId, MatchRow)>, cutoff: int,
                                            expected: (real, real) -> real)
    requires Balanced(s, ids) && CountsMatch(s, ids)
    ensures Balanced(RealFold(s, index, history, cutoff, expected), ids)
    ensures CountsMatch(RealFold(s, index, history, cutoff, expected), ids)
    decreases |history|
  {
    if |history| > 0 {
      ApplyRowBalanced(s, ids, history[0].0, Lookup(index, history[0].1.opponent), history[0].1, cutoff, expected);
      RealFoldBalanced(RealStep(s, index, history[0].0, history[0].1, cutoff, expected), ids, index,
                       history[1..], cutoff, expected);
    }
  }

  /** The key does not depend on which of the two players reported the match. */
  lemma RowKeySymmetric(p: PlayerId, q: PlayerId, row: MatchRow, row': MatchRow)
    requires Strip(row.tournament) == Strip(row'.tournament) && row.date == row'.date
    requires Strip(row.score) == Strip(row'.score)
    ensures RowKey(p, q, row) == RowKey(q, p, row')
  {
    LexLeTotal(p, q);
    if LexLe(p, q) && LexLe(q, p) {
      LexLeAntisymmetric(p, q);
    }
  }

  /** Both sides of one match get the same verdict. */
  lemma ClassifyMirror(s: EloState, p: PlayerId, q: PlayerId, row: MatchRow, row': MatchRow, cutoff: int)
    requires p != q && p != "" && q != ""
    requires Strip(row.tournament) == Strip(row'.tournament) && row.date == row'.date && row.when == row'.when
    requires Strip(row.score) == Strip(row'.score) && row'.isWin == !row.isWin
    ensures Classify(s, q, Some(p), row', cutoff) == Classify(s, p, Some(q), row, cutoff)
  {
    var a, a' := LexMin(p, q), LexMin(q, p);
    var w := if p == a then row.isWin else !row.isWin;
    var w' := if q == a' then row'.isWin else !row'.isWin;
    assert Classify(s, p, Some(q), row, cutoff)
        == Judge(s, a, LexMax(p, q), RowKey(p, q, row), RowTime(row), cutoff, w) by {
      ClassifyUnfold(s, p, q, row, cutoff);
    }
    assert Classify(s, q, Some(p), row', cutoff)
        == Judge(s, a', LexMax(q, p), RowKey(q, p, row'), RowTime(row'), cutoff, w') by {
      ClassifyUnfold(s, q, p, row', cutoff);
    }
    assert a == a' && LexMax(p, q) == LexMax(q, p) by {
      LexLeTotal(p, q);
      if LexLe(p, q) && LexLe(q, p) {
        LexLeAntisymmetric(p, q);
      }
    }
    assert RowKey(p, q, row) == RowKey(q, p, row') by {
      RowKeySymmetric(p, q, row, row');
    }
    assert RowTime(row) == RowTime(row');
    assert w == w';
  }

  lemma ClassifyUnfold(s: EloState, p: PlayerId, q: PlayerId, row: MatchRow, cutoff: int)
    requires p != q && q != ""
    ensures Classify(s, p, Some(q), row, cutoff)
         == Judge(s, LexMin(p, q), LexMax(p, q), RowKey(p, q, row), RowTime(row), cutoff,
                  if p == LexMin(p, q) then row.isWin else !row.isWin)
  {
  }

  /** Two rows that report the same match from its two sides (same tournament, date and score
      text, opposite results): the second is a no-op after the first, and either one alone has
      the same effect. */
  lemma MirroredRowsApplyOnce(s: EloState, p: PlayerId, q: PlayerId, row: MatchRow, row': MatchRow,
                              cutoff: int, expected: (real, real) -> real)
    requires p != q && p != "" && q != ""
    requires Strip(row.tournament) == Strip(row'.tournament) && row.date == row'.date && row.when == row'.when
    requires Strip(row.score) == Strip(row'.score) && row'.isWin == !row.isWin
    ensures ApplyRow(s, q, Some(p), row', cutoff, expected) == ApplyRow(s, p, Some(q), row, cutoff, expected)
    ensures var once := ApplyRow(s, p, Some(q), row, cutoff, expected);
      ApplyRow(once, q, Some(p), row', cutoff, expected) == once
  {
    var v := Classify(s, p, Some(q), row, cutoff);
    ClassifyMirror(s, p, q, row, row', cutoff);
    if v.Apply? {
      var once := ApplyRow(s, p, Some(q), row, cutoff, expected);
      assert v.key in once.seen;
      assert Classify(once, q, Some(p), row', cutoff) == Duplicate;
    }
  }

  /** The same through the name index: a match both players report counts once. */
  lemma MirroredHistoryRowsApplyOnce(s: EloState, index: map<string, PlayerId>, p: PlayerId, q: PlayerId,
                                     row: MatchRow, row': MatchRow, cutoff: int, expected: (real, real) -> real)
    requires p != q && p != "" && q != ""
    requires Lookup(index, row.opponent) == Some(q) && Lookup(index, row'.opponent) == Some(p)
    requires Strip(row.tournament) == Strip(row'.tournament) && row.date == row'.date && row.when == row'.when
    requires Strip(row.score) == Strip(row'.score) && row'.isWin == !row.isWin
    ensures var once := RealStep(s, index, p, row, cutoff, expected);
      && RealStep(s, index, q, row', cutoff, expected) == once
      && RealStep(once, index, q, row', cutoff, expected) == once
  {
    MirroredRowsApplyOnce(s, p, q, row, row', cutoff, expected);
  }

  /** The key keeps the score text as each side reported it: of two rows of one match whose
      score texts differ, the first is applied and leaves the key of the second unrecorded, so
      the second is applied as well (FreshRowApplied). */
  lemma DifferentScoreTextsBothApplied(s: EloState, p: PlayerId, q: PlayerId, row: MatchRow, row': MatchRow,
                                       cutoff: int, expected: (real, real) -> real)
    requires p != q && p != "" && q != "" && p in s.players && q in s.players
    requires Strip(row.tournament) == Strip(row'.tournament) && row.date == row'.date
    requires RowTime(row).None? && RowTime(row').None?
    requires Strip(row.score) != Strip(row'.score)
    requires RowKey(p, q, row) !in s.seen && RowKey(q, p, row') !in s.seen
    ensures var once := ApplyRow(s, p, Some(q), row, cutoff, expected);
      && once.seen == s.seen + {RowKey(p, q, row)}
      && RowKey(q, p, row') !in once.seen
      && q in once.players && p in once.players
  {
    assert RowKey(p, q, row) != RowKey(q, p, row') by {
      KeysDifferByScore(p, q, row, row');
    }
    FreshRowApplied(s, p, q, row, cutoff, expected);
  }

  /** An undated row between two rated players whose key is new is applied and records its key. */
  lemma FreshRowApplied(s: EloState, p: PlayerId, q: PlayerId, row: MatchRow, cutoff: int,
                        expected: (real, real) -> real)
    requires p != q && q != "" && p in s.players && q in s.players
    requires RowTime(row).None? && RowKey(p, q, row) !in s.seen
    ensures var out := ApplyRow(s, p, Some(q), row, cutoff, expected);
      && out.seen == s.seen + {RowKey(p, q, row)} && |out.seen| == |s.seen| + 1
      && out.players.Keys == s.players.Keys
  {
    assert Classify(s, p, Some(q), row, cutoff).Apply? && Classify(s, p, Some(q), row, cutoff).key == RowKey(p, q, row) by {
      ClassifyUnfold(s, p, q, row, cutoff);
      assert LexMin(p, q) in {p, q} && LexMax(p, q) in {p, q};
    }
  }

  /** Keys of the two sides of a match that differ only in the score text differ. */
  lemma KeysDifferByScore(p: PlayerId, q: PlayerId, row: MatchRow, row': MatchRow)
    requires Strip(row.tournament) == Strip(row'.tournament) && row.date == row'.date
    requires Strip(row.score) != Strip(row'.score)
    ensures RowKey(p, q, row) != RowKey(q, p, row')
  {
    var a, b := LexMin(p, q), LexMax(p, q);
    assert LexMin(q, p) == a && LexMax(q, p) == b by {
      LexLeTotal(p, q);
      if LexLe(p, q) && LexLe(q, p) {
        LexLeAntisymmetric(p, q);
      }
    }
    var pre := a + "|" + b + "|" + Strip(row.tournament) + "|" + row.date + "|";
    var k1, k2 := RowKey(p, q, row), RowKey(q, p, row');
    assert k1 == pre + Strip(row.score);
    assert k2 == pre + Strip(row'.score);
    assert Strip(row.score) == k1[|pre|..];
    assert Strip(row'.score) == k2[|pre|..];
  }

  /** With the index built from the player list and the row's owner on it, the loop never meets
      an id without a rating. */
  lemma NeverUntracked(players: seq<(PlayerId, string)>, s: EloState, owner: PlayerId, row: MatchRow, cutoff: int)
    requires forall p :: p in s.players <==> p in Ids(players)
    requires owner in Ids(players)
    ensures Classify(s, owner, Lookup(PlayerIndex(players), row.opponent), row, cutoff) != Untracked
  {
    var index := PlayerIndex(players);
    var opp := Lookup(index, row.opponent);
    if opp.Some? && opp.value != "" && opp.value != owner {
      assert opp.value in s.players by {
        PlayerIndexValues(players, NormalizePersonName(row.opponent));
        var i :| 0 <= i < |players| && players[i].0 == index[NormalizePersonName(row.opponent)];
        assert Ids(players)[i] == players[i].0;
      }
      ClassifyUnfold(s, owner, opp.value, row, cutoff);
    }
  }

  // ---------------------------------------------------------------------------
  // Simulated first rounds (api/main.py:2092-2160)
  // ---------------------------------------------------------------------------

  /** A draw of an upcoming tournament: its name and its entrants in draw order. */
  datatype SimDraw = SimDraw(name: string, entrants: seq<Entrant>)

  datatype SimTournament = SimTournament(name: string, draws: seq<SimDraw>)

  /** The seed tables and the name index the seeding consults. */
  datatype SeedBook = SeedBook(national: map<PlayerId, int>, abc: map<PlayerId, int>, index: map<string, PlayerId>)

  function SeedOf(book: SeedBook, e: Entrant): int {
    SeedOrder(e.playerId, e.playerName, book.national, book.abc, book.index)
  }

  /** The draw filter of api/main.py:2113-2118: a singles category keeps the draws whose upper-cased
      name carries one of its three marks; every other category keeps every draw. */
  function DrawInCategory(category: string, drawName: string): (keep: bool)
    ensures category != "MS" && category != "WS" ==> keep
    ensures category == "MS" ==>
      (keep <==> Contains(Upper(drawName), "MS") || Contains(Upper(drawName), "MEN") || Contains(Upper(drawName), "HOMME"))
    ensures category == "WS" ==>
      (keep <==> Contains(Upper(drawName), "WS") || Contains(Upper(drawName), "WOMEN") || Contains(Upper(drawName), "FEMME"))
  {
    var u := Upper(drawName);
    if category == "MS" then Contains(u, "MS") || Contains(u, "MEN") || Contains(u, "HOMME")
    else if category == "WS" then Contains(u, "WS") || Contains(u, "WOMEN") || Contains(u, "FEMME")
    else true
  }

  /** "MEN" is part of "WOMEN", so the men's filter keeps every women's draw. */
  lemma WomenDrawsPassMenFilter(drawName: string)
    requires Contains(Upper(drawName), "WOMEN")
    ensures DrawInCategory("MS", drawName)
  {
    assert OccursAt("WOMEN", "MEN", 2) by {
      assert "WOMEN"[2..5] == "MEN";
    }
    ContainsInner(Upper(drawName), "WOMEN", "MEN", 2);
  }

  /** One simulated first-round match: the entrant with the better seed wins. */
  function SimStep(s: EloState, book: SeedBook, tournament: string, left: Entrant, right: Entrant,
                   expected: (real, real) -> real): (out: EloState)
    ensures out.seen == s.seen && out.players.Keys == s.players.Keys
    ensures (left.playerId == "" || right.playerId == "" || left.playerId == right.playerId
             || left.playerId !in s.players || right.playerId !in s.players) <==> out == s
  {
    var a, b := left.playerId, right.playerId;
    if a == "" || b == "" || a == b || a !in s.players || b !in s.players then s
    else
      var winA := SeedOf(book, left) <= SeedOf(book, right);
      var e := expected(s.players[a].rating, s.players[b].rating);
      var delta := Delta(KFactor(tournament), winA, e);
      var out := Update(s.players, a, b, delta, tournament, true);
      assert out[a].matchCount != s.players[a].matchCount;
      EloState(out, s.seen)
  }

  function SimPairs(s: EloState, book: SeedBook, tournament: string, pairs: seq<(Entrant, Entrant)>,
                    expected: (real, real) -> real): (out: EloState)
    ensures out.seen == s.seen && out.players.Keys == s.players.Keys
    decreases |pairs|
  {
    if |pairs| == 0 then s
    else SimPairs(SimStep(s, book, tournament, pairs[0].0, pairs[0].1, expected), book, tournament, pairs[1..], expected)
  }

  /** The first-round pairs of a draw, as `_pair_first_round` builds them. */
  function DrawPairs(book: SeedBook, entrants: seq<Entrant>): seq<(Entrant, Entrant)> {
    PairsFromEnds(SeedOrdered(entrants, book.national, book.abc, book.index))
  }

  function SimDraws(s: EloState, book: SeedBook, category: string, tournament: string, draws: seq<SimDraw>,
                    expected: (real, real) -> real): (out: EloState)
    ensures out.seen == s.seen && out.players.Keys == s.players.Keys
    decreases |draws|
  {
    if |draws| == 0 then s
    else
      var d := draws[0];
      var next := if !DrawInCategory(category, d.name) || |d.entrants| < 2 then s
                  else SimPairs(s, book, tournament, DrawPairs(book, d.entrants), expected);
      SimDraws(next, book, category, tournament, draws[1..], expected)
  }

  function SimTournaments(s: EloState, book: SeedBook, category: string, upcoming: seq<SimTournament>,
                          expected: (real, real) -> real): (out: EloState)
    ensures out.seen == s.seen && out.players.Keys == s.players.Keys
    decreases |upcoming|
  {
    if |upcoming| == 0 then s
    else SimTournaments(SimDraws(s, book, category, upcoming[0].name, upcoming[0].draws, expected),
                        book, category, upcoming[1..], expected)
  }

  /** In a simulated pair the left entrant, never seeded worse, gains and the right one loses. */
  lemma SimulatedLeftWins(s: EloState, book: SeedBook, tournament: string, entrants: seq<Entrant>, i: int,
                          expected: (real, real) -> real)
    requires 0 <= i < |DrawPairs(book, entrants)|
    requires var pr := DrawPairs(book, entrants)[i];
      && pr.0.playerId != pr.1.playerId && pr.0.playerId in s.players && pr.1.playerId in s.players
      && pr.0.playerId != "" && pr.1.playerId != ""
    requires var pr := DrawPairs(book, entrants)[i];
      0.0 <= expected(s.players[pr.0.playerId].rating, s.players[pr.1.playerId].rating) <= 1.0
    ensures var pr := DrawPairs(book, entrants)[i];
      var out := SimStep(s, book, tournament, pr.0, pr.1, expected);
      && out.players[pr.0.playerId].rating >= s.players[pr.0.playerId].rating
      && out.players[pr.1.playerId].rating <= s.players[pr.1.playerId].rating
  {
    var pr := DrawPairs(book, entrants)[i];
    LeftSeedNoWorse(entrants, book.national, book.abc, book.index);
    assert SeedOf(book, pr.0) <= SeedOf(book, pr.1);
    var e := expected(s.players[pr.0.playerId].rating, s.players[pr.1.playerId].rating);
    KFactorRange(tournament);
    DeltaSign(KFactor(tournament), true, e);
  }

  lemma SimStepBalanced(s: EloState, ids: seq<PlayerId>, book: SeedBook, tournament: string,
                        left: Entrant, right: Entrant, expected: (real, real) -> real)
    requires Balanced(s, ids)
    ensures Balanced(SimStep(s, book, tournament, left, right, expected), ids)
  {
    var a, b := left.playerId, right.playerId;
    if !(a == "" || b == "" || a == b || a !in s.players || b !in s.players) {
      var winA := SeedOf(book, left) <= SeedOf(book, right);
      var e := expected(s.players[a].rating, s.players[b].rating);
      UpdateBalanced(s, ids, a, b, Delta(KFactor(tournament), winA, e), tournament, true, s.seen);
    }
  }

  lemma {:induction false} SimPairsBalanced(s: EloState, ids: seq<PlayerId>, book: SeedBook, tournament: string,
                                            pairs: seq<(Entrant, Entrant)>, expected: (real, real) -> real)
    requires Balanced(s, ids)
    ensures Balanced(SimPairs(s, book, tournament, pairs, expected), ids)
    decreases |pairs|
  {
    if |pairs| > 0 {
      SimStepBalanced(s, ids, book, tournament, pairs[0].0, pairs[0].1, expected);
      SimPairsBalanced(SimStep(s, book, tournament, pairs[0].0, pairs[0].1, expected), ids, book, tournament,
                       pairs[1..], expected);
    }
  }

  lemma {:induction false} SimDrawsBalanced(s: EloState, ids: seq<PlayerId>, book: SeedBook, category: string,
                                            tournament: string, draws: seq<SimDraw>, expected: (real, real) -> real)
    requires Balanced(s, ids)
    ensures Balanced(SimDraws(s, book, category, tournament, draws, expected), ids)
    decreases |draws|
  {
    if |draws| > 0 {
      var d := draws[0];
      var next := if !DrawInCategory(category, d.name) || |d.entrants| < 2 then s
                  else SimPairs(s, book, tournament, DrawPairs(book, d.entrants), expected);
      if DrawInCategory(category, d.name) && |d.entrants| >= 2 {
        SimPairsBalanced(s, ids, book, tournament, DrawPairs(book, d.entrants), expected);
      }
      SimDrawsBalanced(next, ids, book, category, tournament, draws[1..], expected);
    }
  }

  lemma {:induction false} SimTournamentsBalanced(s: EloState, ids: seq<PlayerId>, book: SeedBook, category: string,
                                                  upcoming: seq<SimTournament>, expected: (real, real) -> real)
    requires Balanced(s, ids)
    ensures Balanced(SimTournaments(s, book, category, upcoming, expected), ids)
    decreases |upcoming|
  {
    if |upcoming| > 0 {
      SimDrawsBalanced(s, ids, book, category, upcoming[0].name, upcoming[0].draws, expected);
      SimTournamentsBalanced(SimDraws(s, book, category, upcoming[0].name, upcoming[0].draws, expected),
                             ids, book, category, upcoming[1..], expected);
    }
  }

  // ---------------------------------------------------------------------------
  // The whole computation
  // ---------------------------------------------------------------------------

  /** Ratings from the histories, falling back to simulated first rounds when no match was
      applied. `history` lists each player's rows, players in order; `national` and `abc` are the
      seed tables; `cutoff` is 52 weeks before now. */
  function EloRatings(players: seq<(PlayerId, string)>, history: seq<(PlayerId, MatchRow)>, cutoff: int,
                      category: string, national: map<PlayerId, int>, abc: map<PlayerId, int>,
                      upcoming: seq<SimTournament>, expected: (real, real) -> real): (s: EloState)
    ensures forall p :: p in s.players <==> p in Ids(players)
  {
    var index := PlayerIndex(players);
    var fromHistory := RealFold(Initial(Ids(players)), index, history, cutoff, expected);
    if fromHistory.seen == {} then SimTournaments(fromHistory, SeedBook(national, abc, index), category, upcoming, expected)
    else fromHistory
  }

  /** Whatever the histories and the draws hold, the deltas cancel out and the ratings sum to
      1500 per player. */
  lemma EloRatingsConserved(players: seq<(PlayerId, string)>, history: seq<(PlayerId, MatchRow)>, cutoff: int,
                            category: string, national: map<PlayerId, int>, abc: map<PlayerId, int>,
                            upcoming: seq<SimTournament>, expected: (real, real) -> real)
    requires Distinct(Ids(players))
    ensures var s := EloRatings(players, history, cutoff, category, national, abc, upcoming, expected);
      && Balanced(s, Ids(players))
      && SumRating(s.players, Ids(players)) == InitialRating * |players| as real
  {
    var ids := Ids(players);
    var index := PlayerIndex(players);
    InitialBalanced(ids);
    RealFoldBalanced(Initial(ids), ids, index, history, cutoff, expected);
    var fromHistory := RealFold(Initial(ids), index, history, cutoff, expected);
    if fromHistory.seen == {} {
      SimTournamentsBalanced(fromHistory, ids, SeedBook(national, abc, index), category, upcoming, expected);
    }
    RatingsSum(EloRatings(players, history, cutoff, category, national, abc, upcoming, expected), ids);
  }
}

=== FILE: seeding.dfy ===
/**
 Seeding a draw: the seed of each entrant, looked up by id and then by name,
 and the first-round pairing that sorts entrants by seed and pairs them from
 both ends inward.
 */
module Seeding {
  import opened Opt
  import opened Identity
  import opened Index
  import opened EloMath
  import opened StableSort

  /** An entrant of a draw; an empty id stands for a missing one. */
  datatype Entrant = Entrant(playerId: PlayerId, playerName: string)

  /** `_seed_order_for_player` (api/main.py:1408-1425): the national seed of the id, else its
      provincial seed, else the same two lookups for the id the name resolves to, else 9999. */
  function SeedOrder(playerId: PlayerId, playerName: string, national: map<PlayerId, int>,
                     abc: map<PlayerId, int>, index: map<string, PlayerId>): (seed: int)
    ensures playerId != "" && playerId in national ==> seed == national[playerId]
    ensures playerId != "" && playerId !in national && playerId in abc ==> seed == abc[playerId]
    ensures seed == Unseeded || seed in national.Values || seed in abc.Values
    ensures seed == Unseeded && Unseeded !in national.Values && Unseeded !in abc.Values ==>
      (playerId == "" || (playerId !in national && playerId !in abc))
    ensures !(playerId != "" && (playerId in national || playerId in abc)) ==>
      var k := NormalizePersonName(playerName);
      && (k in index && index[k] != "" && index[k] in national ==> seed == national[index[k]])
      && (k in index && index[k] != "" && index[k] !in national && index[k] in abc ==>
            seed == abc[index[k]])
      && (k !in index || index[k] == "" || (index[k] !in national && index[k] !in abc) ==>
            seed == Unseeded)
  {
    if playerId != "" && playerId in national then national[playerId]
    else if playerId != "" && playerId in abc then abc[playerId]
    else
      match Lookup(index, playerName)
      case Some(pid) =>
        if pid != "" && pid in national then national[pid]
        else if pid != "" && pid in abc then abc[pid]
        else Unseeded
      case None => Unseeded
  }

  /** A seeded id decides the seed whatever the name says. */
  lemma SeedOrderIdFirst(playerId: PlayerId, n1: string, n2: string, national: map<PlayerId, int>,
                         abc: map<PlayerId, int>, index: map<string, PlayerId>)
    requires playerId != "" && (playerId in national || playerId in abc)
    ensures SeedOrder(playerId, n1, national, abc, index) == SeedOrder(playerId, n2, national, abc, index)
  {
  }

  /** Without an id, an entrant whose name key is indexed takes the seed of the indexed id. */
  lemma SeedOrderByName(playerName: string, national: map<PlayerId, int>,
                        abc: map<PlayerId, int>, index: map<string, PlayerId>)
    requires NormalizePersonName(playerName) in index
    requires index[NormalizePersonName(playerName)] in national
    requires index[NormalizePersonName(playerName)] != ""
    ensures SeedOrder("", playerName, national, abc, index) == national[index[NormalizePersonName(playerName)]]
  {
  }

  // ---------------------------------------------------------------------------
  // First-round pairing
  // ---------------------------------------------------------------------------

  function IntLe(a: int, b: int): bool { a <= b }

  lemma IntLeOrder()
    ensures TotalPreorder(IntLe)
  {
  }

  /** The seed of every entrant, in draw order. */
  function Seeds(entrants: seq<Entrant>, national: map<PlayerId, int>, abc: map<PlayerId, int>,
                 index: map<string, PlayerId>): (seeds: seq<int>)
    ensures |seeds| == |entrants|
  {
    seq(|entrants|, i requires 0 <= i < |entrants| =>
      SeedOrder(entrants[i].playerId, entrants[i].playerName, national, abc, index))
  }

  /** `ranked.sort(key=lambda it: it[0])`: positions of the entrants by ascending seed, stable. */
  function SeedOrderPositions(seeds: seq<int>): (p: seq<nat>)
    ensures |p| == |seeds| && InRange(p, |seeds|)
    ensures forall j: nat :: j in p <==> j < |seeds|
    ensures StablySorted(seeds, IntLe, p)
  {
    IntLeOrder();
    Sort(seeds, IntLe)
  }

  /** Pair i matches the i-th best with the i-th worst. */
  function PairsFromEnds<T>(ordered: seq<T>): (pairs: seq<(T, T)>) {
    seq(|ordered| / 2, i requires 0 <= i < |ordered| / 2 => (ordered[i], ordered[|ordered| - 1 - i]))
  }

  /** The loop of api/main.py:1676-1680 that walks in from both ends. */
  method PairFromEnds<T>(ordered: seq<T>) returns (pairs: seq<(T, T)>)
    ensures pairs == PairsFromEnds(ordered)
  {
    pairs := [];
    if |ordered| == 0 {
      return;
    }
    var i, j := 0, |ordered| - 1;
    while i < j
      invariant 0 <= i && j == |ordered| - 1 - i
      invariant i <= |ordered| / 2
      invariant |pairs| == i
      invariant forall k :: 0 <= k < i ==> pairs[k] == (ordered[k], ordered[|ordered| - 1 - k])
      decreases j - i
    {
      pairs := pairs + [(ordered[i], ordered[j])];
      i := i + 1;
      j := j - 1;
    }
  }

  /** The entrants in seed order. */
  function SeedOrdered(entrants: seq<Entrant>, national: map<PlayerId, int>, abc: map<PlayerId, int>,
                       index: map<string, PlayerId>): (ordered: seq<Entrant>)
    ensures multiset(ordered) == multiset(entrants)
  {
    var seeds := Seeds(entrants, national, abc, index);
    IntLeOrder();
    ArrangePermutation(entrants, seeds, IntLe);
    Arrange(entrants, SeedOrderPositions(seeds))
  }

  /** `_pair_first_round` (api/main.py:1668-1681): sort by seed, then pair from both ends. */
  method PairFirstRound(entrants: seq<Entrant>, national: map<PlayerId, int>, abc: map<PlayerId, int>,
                        index: map<string, PlayerId>) returns (pairs: seq<(Entrant, Entrant)>)
    ensures |pairs| == |entrants| / 2
    ensures pairs == PairsFromEnds(SeedOrdered(entrants, national, abc, index))
  {
    var ordered := SeedOrdered(entrants, national, abc, index);
    pairs := PairFromEnds(ordered);
  }

  /** In every pair the left entrant's seed is no greater than the right one's. */
  lemma PairedSeedsOrdered(seeds: seq<int>)
    ensures var p := SeedOrderPositions(seeds);
      forall i :: 0 <= i < |seeds| / 2 ==> seeds[p[i]] <= seeds[p[|seeds| - 1 - i]]
  {
    var p := SeedOrderPositions(seeds);
    forall i | 0 <= i < |seeds| / 2 ensures seeds[p[i]] <= seeds[p[|seeds| - 1 - i]] {
      assert Before(seeds, IntLe, p[i], p[|seeds| - 1 - i]);
    }
  }

  lemma PairAt<T>(ordered: seq<T>, i: nat)
    requires i < |ordered| / 2
    ensures PairsFromEnds(ordered)[i] == (ordered[i], ordered[|ordered| - 1 - i])
  {
  }

  /** In every first-round pair the left entrant is seeded no worse than the right one, which
      is why the simulated result always goes to the left entrant. */
  lemma LeftSeedNoWorse(entrants: seq<Entrant>, national: map<PlayerId, int>, abc: map<PlayerId, int>,
                        index: map<string, PlayerId>)
    ensures var pairs := PairsFromEnds(SeedOrdered(entrants, national, abc, index));
      forall i :: 0 <= i < |pairs| ==>
        SeedOrder(pairs[i].0.playerId, pairs[i].0.playerName, national, abc, index)
        <= SeedOrder(pairs[i].1.playerId, pairs[i].1.playerName, national, abc, index)
  {
    var seeds := Seeds(entrants, national, abc, index);
    var p := SeedOrderPositions(seeds);
    var ordered := SeedOrdered(entrants, national, abc, index);
    assert ordered == Arrange(entrants, p);
    var pairs := PairsFromEnds(ordered);
    PairedSeedsOrdered(seeds);
    forall i | 0 <= i < |pairs|
      ensures SeedOrder(pairs[i].0.playerId, pairs[i].0.playerName, national, abc, index)
        <= SeedOrder(pairs[i].1.playerId, pairs[i].1.playerName, national, abc, index)
    {
      var n := |entrants|;
      assert |ordered| == n;
      PairAt(ordered, i);
      assert ordered[i] == entrants[p[i]] && ordered[n - 1 - i] == entrants[p[n - 1 - i]];
      assert seeds[p[i]] <= seeds[p[n - 1 - i]];
    }
  }

  /** Positions `i` and `n-1-i` of pair `i`. */
  function PairPositions(n: nat): (pp: seq<(nat, nat)>)
    ensures |pp| == n / 2
    ensures forall i :: 0 <= i < |pp| ==> pp[i].0 == i && pp[i].1 == n - 1 - i
  {
    seq(n / 2, i requires 0 <= i < n / 2 => (i as nat, (n - 1 - i) as nat))
  }

  predicate UsesPosition(pp: seq<(nat, nat)>, x: nat) {
    exists i :: 0 <= i < |pp| && (pp[i].0 == x || pp[i].1 == x)
  }

  /** No position is in two pairs or twice in one pair; the left one is the better-sorted one. */
  lemma PairPositionsDisjoint(n: nat)
    ensures var pp := PairPositions(n);
      forall i, j :: 0 <= i < |pp| && 0 <= j < |pp| && i != j ==>
        pp[i].0 != pp[j].0 && pp[i].0 != pp[j].1 && pp[i].1 != pp[j].0 && pp[i].1 != pp[j].1
    ensures forall i :: 0 <= i < n / 2 ==> PairPositions(n)[i].0 < PairPositions(n)[i].1
  {
  }

  /** With an even field everybody plays; with an odd one exactly the middle entrant sits out. */
  lemma PairPositionsCover(n: nat, x: nat)
    requires x < n
    ensures UsesPosition(PairPositions(n), x) <==> (n % 2 == 0 || x != n / 2)
  {
    var pp := PairPositions(n);
    if n % 2 == 0 || x != n / 2 {
      if x < n / 2 {
        assert pp[x].0 == x;
      } else {
        assert pp[n - 1 - x].1 == x;
      }
    }
  }

  /** Pair i of the sorted field holds the entrants at the positions of pair i. */
  lemma PairsFromEndsPositions<T>(ordered: seq<T>)
    ensures var pairs, pp := PairsFromEnds(ordered), PairPositions(|ordered|);
      |pairs| == |pp| && forall i :: 0 <= i < |pp| ==> pairs[i] == (ordered[pp[i].0], ordered[pp[i].1])
  {
  }

  /** Seeds 1..8, once in seed order, pair as (1,8), (2,7), (3,6), (4,5). */
  lemma EightSeedsExample()
    ensures PairsFromEnds([1, 2, 3, 4, 5, 6, 7, 8]) == [(1, 8), (2, 7), (3, 6), (4, 5)]
  {
  }

  /** Entrants already in seed order stay in draw order. */
  lemma SortedDrawUnchanged(seeds: seq<int>)
    requires forall i, j :: 0 <= i < j < |seeds| ==> seeds[i] <= seeds[j]
    ensures SeedOrderPositions(seeds) == seq(|seeds|, i requires 0 <= i < |seeds| => i as nat)
  {
    var id := seq(|seeds|, i requires 0 <= i < |seeds| => i as nat);
    assert forall j: nat :: j in id <==> j < |seeds| by {
      forall j: nat | j < |seeds| ensures j in id {
        assert id[j] == j;
      }
    }
    assert StablySorted(seeds, IntLe, id);
    StableOrderUnique(seeds, IntLe, SeedOrderPositions(seeds), id);
  }
}

=== FILE: stable_sort.dfy ===
/**
 Python's `list.sort(key=...)`: a stable sort. It is modelled on positions:
 the result lists the positions 0..n-1 of the input in sorted order, and
 entries whose keys compare equal keep their original relative order.
 */
module StableSort {

  ghost predicate Total<K(!new)>(le: (K, K) -> bool) {
    forall a, b :: le(a, b) || le(b, a)
  }

  ghost predicate Transitive<K(!new)>(le: (K, K) -> bool) {
    forall a, b, c :: le(a, b) && le(b, c) ==> le(a, c)
  }

  /** The order the key comparison induces: any two keys compare, and comparison chains. */
  ghost predicate TotalPreorder<K(!new)>(le: (K, K) -> bool) {
    Total(le) && Transitive(le)
  }

  /** Position `a` goes before position `b`: its key is no greater, and when the keys tie
      it came first. */
  predicate Before<K>(keys: seq<K>, le: (K, K) -> bool, a: nat, b: nat)
    requires a < |keys| && b < |keys|
  {
    le(keys[a], keys[b]) && (le(keys[b], keys[a]) ==> a < b)
  }

  predicate InRange(p: seq<nat>, n: nat) {
    forall x :: 0 <= x < |p| ==> p[x] < n
  }

  /** Positions listed in stable sorted order. */
  predicate StablySorted<K>(keys: seq<K>, le: (K, K) -> bool, p: seq<nat>)
    requires InRange(p, |keys|)
  {
    forall x, y :: 0 <= x < y < |p| ==> Before(keys, le, p[x], p[y])
  }

  /** Inserts position `i`, later than every listed one, after every listed key no greater
      than its own. */
  function Insert<K(!new)>(keys: seq<K>, le: (K, K) -> bool, p: seq<nat>, i: nat): (r: seq<nat>)
    requires TotalPreorder(le)
    requires i < |keys| && InRange(p, |keys|) && StablySorted(keys, le, p)
    requires forall x :: 0 <= x < |p| ==> p[x] < i
    ensures |r| == |p| + 1 && InRange(r, |keys|)
    ensures forall j: nat :: j in r <==> j in p || j == i
    ensures StablySorted(keys, le, r)
    decreases |p|
  {
    if |p| == 0 then [i]
    else if !le(keys[p[0]], keys[i]) then
      FrontBeforeAll(keys, le, p, i);
      ConsSorted(keys, le, i, p);
      [i] + p
    else
      var rest := Insert(keys, le, p[1..], i);
      HeadBeforeInserted(keys, le, p, i, rest);
      ConsSorted(keys, le, p[0], rest);
      [p[0]] + rest
  }

  /** A position that goes before every listed one can be listed first. */
  lemma ConsSorted<K>(keys: seq<K>, le: (K, K) -> bool, h: nat, rest: seq<nat>)
    requires h < |keys| && InRange(rest, |keys|) && StablySorted(keys, le, rest)
    requires forall y :: 0 <= y < |rest| ==> Before(keys, le, h, rest[y])
    ensures InRange([h] + rest, |keys|) && StablySorted(keys, le, [h] + rest)
  {
    var r := [h] + rest;
    forall x, y | 0 <= x < y < |r| ensures Before(keys, le, r[x], r[y]) {
      assert r[y] == rest[y - 1];
      if x > 0 {
        assert r[x] == rest[x - 1];
      }
    }
  }

  /** A position later than every listed one whose key is below the first goes before them all. */
  lemma FrontBeforeAll<K(!new)>(keys: seq<K>, le: (K, K) -> bool, p: seq<nat>, i: nat)
    requires TotalPreorder(le)
    requires i < |keys| && InRange(p, |keys|) && StablySorted(keys, le, p) && |p| > 0
    requires !le(keys[p[0]], keys[i])
    ensures forall y :: 0 <= y < |p| ==> Before(keys, le, i, p[y])
  {
    forall y | 0 <= y < |p| ensures Before(keys, le, i, p[y]) {
      if y > 0 {
        assert Before(keys, le, p[0], p[y]);
      }
    }
  }

  /** The first listed position goes before everything inserting after it produced. */
  lemma HeadBeforeInserted<K(!new)>(keys: seq<K>, le: (K, K) -> bool, p: seq<nat>, i: nat, rest: seq<nat>)
    requires i < |keys| && InRange(p, |keys|) && StablySorted(keys, le, p) && |p| > 0
    requires p[0] < i && le(keys[p[0]], keys[i])
    requires InRange(rest, |keys|)
    requires forall j: nat :: j in rest <==> j in p[1..] || j == i
    ensures forall y :: 0 <= y < |rest| ==> Before(keys, le, p[0], rest[y])
  {
    forall y | 0 <= y < |rest| ensures Before(keys, le, p[0], rest[y]) {
      assert rest[y] in rest;
      if rest[y] != i {
        var z :| 0 <= z < |p[1..]| && p[1..][z] == rest[y];
        assert Before(keys, le, p[0], p[z + 1]);
      }
    }
  }

  /** The positions 0..n-1 in stable sorted order (insertion sort). */
  function SortPositions<K(!new)>(keys: seq<K>, le: (K, K) -> bool, n: nat): (p: seq<nat>)
    requires TotalPreorder(le) && n <= |keys|
    ensures |p| == n && InRange(p, |keys|)
    ensures forall j: nat :: j in p <==> j < n
    ensures StablySorted(keys, le, p)
    decreases n
  {
    if n == 0 then []
    else
      var prev := SortPositions(keys, le, n - 1);
      assert forall x :: 0 <= x < |prev| ==> prev[x] < n - 1 by {
        forall x | 0 <= x < |prev| ensures prev[x] < n - 1 {
          assert prev[x] in prev;
        }
      }
      Insert(keys, le, prev, n - 1)
  }

  /** `sorted(range(len(keys)), key=...)`: every position once, in stable order. */
  function Sort<K(!new)>(keys: seq<K>, le: (K, K) -> bool): (p: seq<nat>)
    requires TotalPreorder(le)
    ensures |p| == |keys| && InRange(p, |keys|)
    ensures forall j: nat :: j in p <==> j < |keys|
    ensures StablySorted(keys, le, p)
  {
    SortPositions(keys, le, |keys|)
  }

  /** No position is listed twice. */
  lemma SortedDistinct<K(!new)>(keys: seq<K>, le: (K, K) -> bool, p: seq<nat>)
    requires InRange(p, |keys|) && StablySorted(keys, le, p)
    ensures forall x, y :: 0 <= x < y < |p| ==> p[x] != p[y]
  {
    forall x, y | 0 <= x < y < |p| ensures p[x] != p[y] {
      assert Before(keys, le, p[x], p[y]);
    }
  }

  /** Two distinct positions are never each before the other. */
  lemma BeforeAsymmetric<K>(keys: seq<K>, le: (K, K) -> bool, a: nat, b: nat)
    requires a < |keys| && b < |keys|
    ensures !(Before(keys, le, a, b) && Before(keys, le, b, a))
  {
  }

  /** The first listed position goes before every other listed one. */
  lemma FirstBeforeRest<K>(keys: seq<K>, le: (K, K) -> bool, p: seq<nat>, j: nat)
    requires InRange(p, |keys|) && StablySorted(keys, le, p)
    requires |p| > 0 && j in p
    ensures j == p[0] || Before(keys, le, p[0], j)
  {
    var x :| 0 <= x < |p| && p[x] == j;
    if x > 0 {
      assert Before(keys, le, p[0], p[x]);
    }
  }

  /** The stable order is unique: two lists of all positions, both stably sorted, are equal. */
  lemma {:induction false} StableOrderUnique<K(!new)>(keys: seq<K>, le: (K, K) -> bool, p: seq<nat>, q: seq<nat>)
    requires |p| == |q| && InRange(p, |keys|) && InRange(q, |keys|)
    requires forall j: nat :: j in p <==> j in q
    requires StablySorted(keys, le, p) && StablySorted(keys, le, q)
    ensures p == q
    decreases |p|
  {
    if |p| > 0 {
      assert p[0] in q && q[0] in p;
      FirstBeforeRest(keys, le, q, p[0]);
      FirstBeforeRest(keys, le, p, q[0]);
      BeforeAsymmetric(keys, le, p[0], q[0]);
      assert p[0] == q[0];
      SortedDistinct(keys, le, p);
      SortedDistinct(keys, le, q);
      forall j: nat ensures j in p[1..] <==> j in q[1..] {
        if j in p[1..] {
          var x :| 1 <= x < |p| && p[x] == j;
          assert j != p[0];
        }
        if j in q[1..] {
          var x :| 1 <= x < |q| && q[x] == j;
          assert j != q[0];
        }
        assert j in p <==> j in q;
      }
      StableOrderUnique(keys, le, p[1..], q[1..]);
      assert p == [p[0]] + p[1..] && q == [q[0]] + q[1..];
    }
  }

  /** The entries taken in the listed order. */
  function Arrange<T>(xs: seq<T>, p: seq<nat>): (ys: seq<T>)
    requires InRange(p, |xs|)
    ensures |ys| == |p| && forall x :: 0 <= x < |p| ==> ys[x] == xs[p[x]]
  {
    seq(|p|, x requires 0 <= x < |p| => xs[p[x]])
  }

  /** Sorted stably, the entries are a permutation of the input. */
  lemma ArrangePermutation<T, K(!new)>(xs: seq<T>, keys: seq<K>, le: (K, K) -> bool)
    requires TotalPreorder(le) && |keys| == |xs|
    ensures multiset(Arrange(xs, Sort(keys, le))) == multiset(xs)
  {
    var p := Sort(keys, le);
    SortedDistinct(keys, le, p);
    assert IsPermutation(p, |xs|);
    PermutationMultiset(xs, p);
  }

  /** A bijection on 0..n-1, listed. */
  ghost predicate IsPermutation(p: seq<nat>, n: nat) {
    && |p| == n && InRange(p, n)
    && (forall j: nat :: j in p <==> j < n)
    && (forall x, y :: 0 <= x < y < |p| ==> p[x] != p[y])
  }

  /** Removing the last position from a permutation of 0..n-1 leaves one of 0..n-2. */
  lemma RemoveLast(p: seq<nat>, n: nat, x: nat)
    requires n > 0 && IsPermutation(p, n) && x < |p| && p[x] == n - 1
    ensures IsPermutation(p[..x] + p[x + 1..], n - 1)
  {
    var p' := p[..x] + p[x + 1..];
    assert forall y :: 0 <= y < |p'| ==> p'[y] == (if y < x then p[y] else p[y + 1]);
    forall j: nat ensures j in p' <==> j < n - 1 {
      if j < n - 1 {
        assert j in p;
        var z :| 0 <= z < |p| && p[z] == j;
        if z < x { assert p'[z] == j; } else { assert p'[z - 1] == j; }
      }
    }
  }

  /** Arranging by a permutation, read around the slot of the last entry. */
  lemma ArrangeAroundLast<T>(xs: seq<T>, p: seq<nat>, x: nat)
    requires |xs| > 0 && InRange(p, |xs|) && x < |p| && p[x] == |xs| - 1
    requires InRange(p[..x] + p[x + 1..], |xs| - 1)
    ensures var a' := Arrange(xs[..|xs| - 1], p[..x] + p[x + 1..]);
      Arrange(xs, p) == a'[..x] + [xs[|xs| - 1]] + a'[x..]
  {
    var p' := p[..x] + p[x + 1..];
    var a := Arrange(xs, p);
    var a' := Arrange(xs[..|xs| - 1], p');
    var b := a'[..x] + [xs[|xs| - 1]] + a'[x..];
    forall y | 0 <= y < |a| ensures a[y] == b[y] {
      if y < x {
        assert p'[y] == p[y];
      } else if y > x {
        assert p'[y - 1] == p[y];
      }
    }
  }

  /** Taking every position exactly once rearranges without loss or duplication. */
  lemma {:induction false} PermutationMultiset<T>(xs: seq<T>, p: seq<nat>)
    requires IsPermutation(p, |xs|)
    ensures multiset(Arrange(xs, p)) == multiset(xs)
    decreases |xs|
  {
    if |xs| > 0 {
      var last := |xs| - 1;
      assert last in p;
      var x :| 0 <= x < |p| && p[x] == last;
      var p' := p[..x] + p[x + 1..];
      RemoveLast(p, |xs|, x);
      PermutationMultiset(xs[..last], p');
      var a' := Arrange(xs[..last], p');
      ArrangeAroundLast(xs, p, x);
      MultisetInsertAt(a', x, xs[last]);
      assert xs == xs[..last] + [xs[last]];
    }
  }

  /** Putting one more entry anywhere adds it to the multiset. */
  lemma MultisetInsertAt<T>(a: seq<T>, x: nat, e: T)
    requires x <= |a|
    ensures multiset(a[..x] + [e] + a[x..]) == multiset(a) + multiset{e}
  {
    assert a == a[..x] + a[x..];
  }
}

=== FILE: text.dfy ===
/**
 String primitives shared by the model, each matching the Python built-in or
 regular expression it stands for: whitespace and word-character classes,
 `lower()`, `strip()`, `re.sub(r"\s+", " ", s).strip()`, `split`/`join`,
 the `in` substring test and code-point string comparison.
 */
module Text {

  /** Python's `str.isspace()`, which is also what the regular expression `\s` matches. */
  predicate IsSpace(c: char) {
    || ('\t' <= c <= '\r')
    || ('\U{001C}' <= c <= ' ')
    || c == '\U{0085}' || c == '\U{00A0}' || c == '\U{1680}'
    || ('\U{2000}' <= c <= '\U{200A}')
    || c == '\U{2028}' || c == '\U{2029}' || c == '\U{202F}' || c == '\U{205F}' || c == '\U{3000}'
  }

  predicate IsAsciiDigit(c: char) { '0' <= c <= '9' }

  predicate IsAsciiLetter(c: char) { ('a' <= c <= 'z') || ('A' <= c <= 'Z') }

  /** Upper-case letters of the ASCII and Latin-1 ranges (U+00D7 is the multiplication sign). */
  predicate IsUpper(c: char) {
    ('A' <= c <= 'Z') || ('\U{00C0}' <= c <= '\U{00DE}' && c != '\U{00D7}')
  }

  /** The regular expression `\w`: letters, digits and underscore. Outside Latin-1 every
      non-space character is taken to be a word character. */
  predicate IsWordChar(c: char) {
    || IsAsciiLetter(c) || IsAsciiDigit(c) || c == '_'
    || c == '\U{00AA}' || c == '\U{00B2}' || c == '\U{00B3}' || c == '\U{00B5}'
    || c == '\U{00B9}' || c == '\U{00BA}' || ('\U{00BC}' <= c <= '\U{00BE}')
    || ('\U{00C0}' <= c <= '\U{00FF}' && c != '\U{00D7}' && c != '\U{00F7}')
    || (c > '\U{00FF}' && !IsSpace(c))
  }

  function LowerChar(c: char): (r: char)
    ensures !IsUpper(r)
    ensures !IsUpper(c) ==> r == c
  {
    if IsUpper(c) then (c as int + 32) as char else c
  }

  /** `str.lower()` on the ASCII and Latin-1 letters. */
  function Lower(s: string): (r: string)
    ensures |r| == |s|
    ensures forall i :: 0 <= i < |s| ==> r[i] == LowerChar(s[i])
  {
    seq(|s|, i requires 0 <= i < |s| => LowerChar(s[i]))
  }

  /** A letter `str.upper()` maps to its capital by subtracting 32: ASCII and Latin-1 small letters. */
  predicate IsLowerLetter(c: char) {
    ('a' <= c <= 'z') || ('\U{00E0}' <= c <= '\U{00FE}' && c != '\U{00F7}')
  }

  function UpperChar(c: char): (r: char)
    ensures !IsLowerLetter(r)
    ensures !IsLowerLetter(c) ==> r == c
  {
    if IsLowerLetter(c) then (c as int - 32) as char else c
  }

  /** `str.upper()` on the ASCII and Latin-1 letters. */
  function Upper(s: string): (r: string)
    ensures |r| == |s|
    ensures forall i :: 0 <= i < |s| ==> r[i] == UpperChar(s[i])
  {
    seq(|s|, i requires 0 <= i < |s| => UpperChar(s[i]))
  }

  predicate NoUpper(s: string) {
    forall i :: 0 <= i < |s| ==> !IsUpper(s[i])
  }

  lemma LowerAppend(a: string, b: string)
    ensures Lower(a + b) == Lower(a) + Lower(b)
  {
    assert forall i :: 0 <= i < |a + b| ==> Lower(a + b)[i] == (Lower(a) + Lower(b))[i];
  }

  /** Lowering twice is lowering once, so every test made on `Lower(s)` is case-insensitive. */
  lemma LowerIdempotent(s: string)
    ensures Lower(Lower(s)) == Lower(s)
    ensures NoUpper(Lower(s))
  {
  }

  // ---------------------------------------------------------------------------
  // Stripping: `lstrip`, `rstrip`, `strip`
  // ---------------------------------------------------------------------------

  /** Drops the longest prefix whose characters all satisfy `drop`. */
  function LStripWhile(s: string, drop: char -> bool): (r: string)
    ensures |r| <= |s| && r == s[|s| - |r|..]
    ensures |r| > 0 ==> !drop(r[0])
    decreases |s|
  {
    if |s| > 0 && drop(s[0]) then LStripWhile(s[1..], drop) else s
  }

  /** Drops the longest suffix whose characters all satisfy `drop`. */
  function RStripWhile(s: string, drop: char -> bool): (r: string)
    ensures |r| <= |s| && r == s[..|r|]
    ensures |r| > 0 ==> !drop(r[|r| - 1])
    decreases |s|
  {
    if |s| > 0 && drop(s[|s| - 1]) then RStripWhile(s[..|s| - 1], drop) else s
  }

  /** Everything `rstrip` removes satisfies `drop`. */
  lemma {:induction false} RStripDropped(s: string, drop: char -> bool)
    ensures forall i :: |RStripWhile(s, drop)| <= i < |s| ==> drop(s[i])
    decreases |s|
  {
    if |s| > 0 && drop(s[|s| - 1]) {
      var t := s[..|s| - 1];
      RStripDropped(t, drop);
      assert forall i :: 0 <= i < |t| ==> t[i] == s[i];
    }
  }

  /** Python's `s.strip()`. */
  function Strip(s: string): string {
    RStripWhile(LStripWhile(s, IsSpace), IsSpace)
  }

  lemma LStripNoop(s: string, drop: char -> bool)
    requires |s| == 0 || !drop(s[0])
    ensures LStripWhile(s, drop) == s
  {
  }

  lemma RStripNoop(s: string, drop: char -> bool)
    requires |s| == 0 || !drop(s[|s| - 1])
    ensures RStripWhile(s, drop) == s
  {
  }

  lemma LStripIdempotent(s: string, drop: char -> bool)
    ensures LStripWhile(LStripWhile(s, drop), drop) == LStripWhile(s, drop)
  {
    LStripNoop(LStripWhile(s, drop), drop);
  }

  lemma RStripIdempotent(s: string, drop: char -> bool)
    ensures RStripWhile(RStripWhile(s, drop), drop) == RStripWhile(s, drop)
  {
    RStripNoop(RStripWhile(s, drop), drop);
  }

  /** Stripping a string that starts with a kept character stops at once. */
  lemma {:induction false} LStripPrefix(pre: string, s: string, drop: char -> bool)
    requires forall i :: 0 <= i < |pre| ==> drop(pre[i])
    ensures LStripWhile(pre + s, drop) == LStripWhile(s, drop)
    decreases |pre|
  {
    if |pre| > 0 {
      assert (pre + s)[0] == pre[0] && drop(pre[0]);
      assert (pre + s)[1..] == pre[1..] + s;
      assert LStripWhile(pre + s, drop) == LStripWhile(pre[1..] + s, drop);
      LStripPrefix(pre[1..], s, drop);
    } else {
      assert pre + s == s;
    }
  }

  lemma {:induction false} RStripSuffix(s: string, suf: string, drop: char -> bool)
    requires forall i :: 0 <= i < |suf| ==> drop(suf[i])
    ensures RStripWhile(s + suf, drop) == RStripWhile(s, drop)
    decreases |suf|
  {
    if |suf| > 0 {
      assert (s + suf)[|s + suf| - 1] == suf[|suf| - 1] && drop(suf[|suf| - 1]);
      assert (s + suf)[..|s + suf| - 1] == s + suf[..|suf| - 1];
      assert RStripWhile(s + suf, drop) == RStripWhile(s + suf[..|suf| - 1], drop);
      RStripSuffix(s, suf[..|suf| - 1], drop);
    } else {
      assert s + suf == s;
    }
  }

  /** Left-stripping a concatenation whose left part ends in a kept character strips only that part. */
  lemma {:induction false} LStripAppend(a: string, b: string, drop: char -> bool)
    requires |a| > 0 && !drop(a[|a| - 1])
    ensures LStripWhile(a + b, drop) == LStripWhile(a, drop) + b
    decreases |a|
  {
    assert (a + b)[0] == a[0];
    if drop(a[0]) {
      assert (a + b)[1..] == a[1..] + b;
      LStripAppend(a[1..], b, drop);
    }
  }

  /** Left-stripping never reaches a kept last character. */
  lemma {:induction false} LStripKeepsLast(s: string, drop: char -> bool)
    requires |s| > 0 && !drop(s[|s| - 1])
    ensures |LStripWhile(s, drop)| > 0
    ensures LStripWhile(s, drop)[|LStripWhile(s, drop)| - 1] == s[|s| - 1]
    decreases |s|
  {
    if drop(s[0]) {
      LStripKeepsLast(s[1..], drop);
    }
  }

  // ---------------------------------------------------------------------------
  // Whitespace collapsing: `re.sub(r"\s+", " ", s).strip()`
  // ---------------------------------------------------------------------------

  /** Replaces every maximal run of whitespace by one plain space. */
  function SquashRuns(s: string): string
    decreases |s|
  {
    if |s| == 0 then ""
    else if IsSpace(s[0]) then " " + SquashRuns(LStripWhile(s[1..], IsSpace))
    else [s[0]] + SquashRuns(s[1..])
  }

  /** Python's `re.sub(r"\s+", " ", s).strip()`. */
  function Collapse(s: string): string {
    Strip(SquashRuns(s))
  }

  /** Every whitespace character is a plain space, followed by a non-space when anything follows. */
  predicate NoRuns(s: string) {
    forall i :: 0 <= i < |s| && IsSpace(s[i]) ==> s[i] == ' ' && (i + 1 == |s| || !IsSpace(s[i + 1]))
  }

  /** Words separated by exactly one plain space, with no space at either end. */
  predicate IsCollapsed(s: string) {
    && NoRuns(s)
    && (|s| > 0 ==> !IsSpace(s[0]) && !IsSpace(s[|s| - 1]))
  }

  /** Every character of `s` satisfies `p`. */
  predicate AllChars(s: string, p: char -> bool) {
    forall i :: 0 <= i < |s| ==> p(s[i])
  }

  /** Prepending a character keeps a string run-free when that character cannot start a run. */
  lemma NoRunsCons(c: char, r: string)
    requires NoRuns(r)
    requires IsSpace(c) ==> c == ' ' && (|r| == 0 || !IsSpace(r[0]))
    ensures NoRuns([c] + r)
  {
    var t := [c] + r;
    forall i | 0 <= i < |t| && IsSpace(t[i])
      ensures t[i] == ' ' && (i + 1 == |t| || !IsSpace(t[i + 1]))
    {
      if i > 0 {
        assert t[i] == r[i - 1];
        if i + 1 < |t| {
          assert t[i + 1] == r[i];
        }
      }
    }
  }

  lemma {:induction false} SquashRunsShape(s: string)
    ensures NoRuns(SquashRuns(s))
    ensures |SquashRuns(s)| == 0 <==> |s| == 0
    ensures |s| > 0 ==> SquashRuns(s)[0] == (if IsSpace(s[0]) then ' ' else s[0])
    decreases |s|
  {
    if |s| == 0 {
    } else if IsSpace(s[0]) {
      var t := LStripWhile(s[1..], IsSpace);
      SquashRunsShape(t);
      var r := SquashRuns(t);
      assert SquashRuns(s) == [' '] + r;
      NoRunsCons(' ', r);
    } else {
      SquashRunsShape(s[1..]);
      var r := SquashRuns(s[1..]);
      assert SquashRuns(s) == [s[0]] + r;
      NoRunsCons(s[0], r);
    }
  }

  /** One step of `SquashRuns` at a leading whitespace character. */
  lemma SquashRunsSpaceStep(s: string)
    requires |s| > 0 && IsSpace(s[0])
    ensures SquashRuns(s) == [' '] + SquashRuns(LStripWhile(s[1..], IsSpace))
  {
  }

  /** One step of `SquashRuns` at a leading non-space character. */
  lemma SquashRunsWordStep(s: string)
    requires |s| > 0 && !IsSpace(s[0])
    ensures SquashRuns(s) == [s[0]] + SquashRuns(s[1..])
  {
  }

  lemma AllCharsCons(c: char, r: string, p: char -> bool)
    requires p(c) && AllChars(r, p)
    ensures AllChars([c] + r, p)
  {
    var t := [c] + r;
    forall i | 0 <= i < |t| ensures p(t[i]) {
      if i > 0 {
        assert t[i] == r[i - 1];
      }
    }
  }

  lemma AllCharsDrop(s: string, k: nat, p: char -> bool)
    requires k <= |s| && AllChars(s, p)
    ensures AllChars(s[k..], p)
  {
    forall i | 0 <= i < |s[k..]| ensures p(s[k..][i]) {
      assert s[k..][i] == s[k + i];
    }
  }

  /** What `lstrip` leaves is a tail of the string, so it keeps any character property. */
  lemma LStripChars(s: string, drop: char -> bool, p: char -> bool)
    requires AllChars(s, p)
    ensures AllChars(LStripWhile(s, drop), p)
  {
    var t := LStripWhile(s, drop);
    AllCharsDrop(s, |s| - |t|, p);
  }

  /** The characters of `SquashRuns(s)` come from `s`, plus plain spaces. */
  lemma {:induction false} SquashRunsChars(s: string, p: char -> bool)
    requires p(' ') && AllChars(s, p)
    ensures AllChars(SquashRuns(s), p)
    decreases |s|
  {
    if |s| > 0 {
      AllCharsDrop(s, 1, p);
      if IsSpace(s[0]) {
        var t := LStripWhile(s[1..], IsSpace);
        LStripChars(s[1..], IsSpace, p);
        SquashRunsChars(t, p);
        SquashRunsSpaceStep(s);
        AllCharsCons(' ', SquashRuns(t), p);
      } else {
        SquashRunsChars(s[1..], p);
        SquashRunsWordStep(s);
        AllCharsCons(s[0], SquashRuns(s[1..]), p);
      }
    }
  }

  /** Any stretch of a run-free string is run-free. */
  lemma NoRunsSlice(s: string, a: nat, b: nat)
    requires a <= b <= |s| && NoRuns(s)
    ensures NoRuns(s[a..b])
  {
    var r := s[a..b];
    forall i | 0 <= i < |r| && IsSpace(r[i])
      ensures r[i] == ' ' && (i + 1 == |r| || !IsSpace(r[i + 1]))
    {
      assert r[i] == s[a + i];
      if i + 1 < |r| {
        assert r[i + 1] == s[a + i + 1];
      }
    }
  }

  /** Stripping a run-free string leaves a collapsed one. */
  lemma StripNoRuns(s: string)
    requires NoRuns(s)
    ensures IsCollapsed(Strip(s))
  {
    var l := LStripWhile(s, IsSpace);
    NoRunsSuffix(s, l);
    NoRunsPrefix(l, RStripWhile(l, IsSpace));
    StripEnds(s);
  }

  lemma NoRunsSuffix(s: string, l: string)
    requires NoRuns(s) && |l| <= |s| && l == s[|s| - |l|..]
    ensures NoRuns(l)
  {
    NoRunsSlice(s, |s| - |l|, |s|);
    assert s[|s| - |l|..|s|] == l;
  }

  lemma NoRunsPrefix(l: string, r: string)
    requires NoRuns(l) && |r| <= |l| && r == l[..|r|]
    ensures NoRuns(r)
  {
    NoRunsSlice(l, 0, |r|);
    assert l[0..|r|] == r;
  }

  /** `strip` leaves neither a leading nor a trailing whitespace character. */
  lemma StripEnds(s: string)
    ensures |Strip(s)| > 0 ==> !IsSpace(Strip(s)[0]) && !IsSpace(Strip(s)[|Strip(s)| - 1])
  {
    var l := LStripWhile(s, IsSpace);
    var r := RStripWhile(l, IsSpace);
    if |r| > 0 {
      assert r[0] == l[0];
    }
  }

  /** Stripping keeps every character property. */
  lemma StripChars(s: string, p: char -> bool)
    requires AllChars(s, p)
    ensures AllChars(Strip(s), p)
  {
    var l := LStripWhile(s, IsSpace);
    var r := RStripWhile(l, IsSpace);
    forall i | 0 <= i < |r| ensures p(r[i]) {
      assert r[i] == l[i] == s[|s| - |l| + i];
    }
  }

  /** `Collapse` always yields single-space-separated words with no outer space. */
  lemma CollapseIsCollapsed(s: string)
    ensures IsCollapsed(Collapse(s))
  {
    SquashRunsShape(s);
    StripNoRuns(SquashRuns(s));
  }

  /** `Collapse` keeps a character property that plain spaces also have. */
  lemma CollapseChars(s: string, p: char -> bool)
    requires p(' ') && AllChars(s, p)
    ensures AllChars(Collapse(s), p)
  {
    SquashRunsChars(s, p);
    StripChars(SquashRuns(s), p);
  }

  lemma {:induction false} SquashRunsNoRuns(s: string)
    requires NoRuns(s)
    ensures SquashRuns(s) == s
    decreases |s|
  {
    if |s| > 0 {
      NoRunsSlice(s, 1, |s|);
      assert s[1..|s|] == s[1..];
      SquashRunsNoRuns(s[1..]);
      assert s == [s[0]] + s[1..];
      if IsSpace(s[0]) {
        assert |s| == 1 || !IsSpace(s[1]);
        LStripNoop(s[1..], IsSpace);
        SquashRunsSpaceStep(s);
      } else {
        SquashRunsWordStep(s);
      }
    }
  }

  lemma StripCollapsed(s: string)
    requires IsCollapsed(s)
    ensures Strip(s) == s
  {
    LStripNoop(s, IsSpace);
    RStripNoop(s, IsSpace);
  }

  /** A collapsed string is its own collapse; in particular `Collapse` is idempotent. */
  lemma CollapseFixpoint(s: string)
    requires IsCollapsed(s)
    ensures Collapse(s) == s
  {
    SquashRunsNoRuns(s);
    StripCollapsed(s);
  }

  lemma CollapseIdempotent(s: string)
    ensures Collapse(Collapse(s)) == Collapse(s)
  {
    CollapseIsCollapsed(s);
    CollapseFixpoint(Collapse(s));
  }

  /** Squashing distributes over a cut made just after a non-space character. */
  lemma {:induction false} SquashRunsAppend(a: string, b: string)
    requires |a| > 0 && !IsSpace(a[|a| - 1])
    ensures SquashRuns(a + b) == SquashRuns(a) + SquashRuns(b)
    decreases |a|, 1
  {
    if |a| == 1 {
      SquashRunsAppendOne(a, b);
    } else if IsSpace(a[0]) {
      SquashRunsAppendSpace(a, b);
    } else {
      SquashRunsAppendWord(a, b);
    }
  }

  /** The case of `SquashRunsAppend` where `a` is one non-space character. */
  lemma SquashRunsAppendOne(a: string, b: string)
    requires |a| == 1 && !IsSpace(a[0])
    ensures SquashRuns(a + b) == SquashRuns(a) + SquashRuns(b)
  {
    var ab := a + b;
    assert ab[0] == a[0];
    assert ab[1..] == b;
    assert a[1..] == "";
    assert SquashRuns(a) == [a[0]];
  }

  /** The case of `SquashRunsAppend` where `a` opens with a non-space character. */
  lemma {:induction false} SquashRunsAppendWord(a: string, b: string)
    requires |a| > 1 && !IsSpace(a[0]) && !IsSpace(a[|a| - 1])
    ensures SquashRuns(a + b) == SquashRuns(a) + SquashRuns(b)
    decreases |a|, 0
  {
    var ab := a + b;
    assert ab[0] == a[0];
    assert ab[1..] == a[1..] + b;
    SquashRunsAppend(a[1..], b);
    assert SquashRuns(ab) == [a[0]] + SquashRuns(a[1..] + b);
  }

  /** The case of `SquashRunsAppend` where `a` opens with whitespace. */
  lemma {:induction false} SquashRunsAppendSpace(a: string, b: string)
    requires |a| > 1 && IsSpace(a[0]) && !IsSpace(a[|a| - 1])
    ensures SquashRuns(a + b) == SquashRuns(a) + SquashRuns(b)
    decreases |a|, 0
  {
    var u := LStripWhile(a[1..], IsSpace);
    LStripTailAppend(a, b);
    SquashRunsAppend(u, b);
    SquashRunsSpaceStep(a + b);
    SquashRunsSpaceStep(a);
    SpaceJoin(SquashRuns(a + b), SquashRuns(a), SquashRuns(u), SquashRuns(b), SquashRuns(u + b));
  }

  /** The sequence algebra closing `SquashRunsAppendSpace`. */
  lemma SpaceJoin(sab: string, sa: string, su: string, sb: string, sub: string)
    requires sab == [' '] + sub && sa == [' '] + su && sub == su + sb
    ensures sab == sa + sb
  {
  }

  /** Left-stripping the tail of `a + b`, when `a` ends in a non-space, strips only `a`'s part. */
  lemma LStripTailAppend(a: string, b: string)
    requires |a| > 1 && !IsSpace(a[|a| - 1])
    ensures var u := LStripWhile(a[1..], IsSpace);
      && (a + b)[0] == a[0]
      && LStripWhile((a + b)[1..], IsSpace) == u + b
      && |u| > 0 && !IsSpace(u[|u| - 1])
  {
    var t := a[1..];
    assert (a + b)[1..] == t + b;
    assert t[|t| - 1] == a[|a| - 1];
    LStripAppend(t, b, IsSpace);
    LStripKeepsLast(t, IsSpace);
  }

  // ---------------------------------------------------------------------------
  // `str.split(sep)` and `sep.join(parts)` on a one-character separator
  // ---------------------------------------------------------------------------

  function Split(s: string, sep: char): (parts: seq<string>)
    ensures |parts| >= 1
    decreases |s|
  {
    if |s| == 0 then [""]
    else
      var rest := Split(s[1..], sep);
      if s[0] == sep then [""] + rest else [[s[0]] + rest[0]] + rest[1..]
  }

  function Join(parts: seq<string>, sep: char): string
    decreases |parts|
  {
    if |parts| == 0 then ""
    else if |parts| == 1 then parts[0]
    else parts[0] + [sep] + Join(parts[1..], sep)
  }

  /** No part produced by `Split` contains the separator. */
  lemma {:induction false} SplitPartsFree(s: string, sep: char)
    ensures forall k :: 0 <= k < |Split(s, sep)| ==> sep !in Split(s, sep)[k]
    decreases |s|
  {
    if |s| > 0 {
      SplitPartsFree(s[1..], sep);
    }
  }

  /** Joining the parts back with the separator restores the string. */
  lemma {:induction false} JoinSplit(s: string, sep: char)
    ensures Join(Split(s, sep), sep) == s
    decreases |s|
  {
    if |s| > 0 {
      var rest := Split(s[1..], sep);
      JoinSplit(s[1..], sep);
      if s[0] == sep {
        assert Split(s, sep) == [""] + rest;
        assert (([""] + rest)[1..]) == rest;
      } else {
        var parts := [[s[0]] + rest[0]] + rest[1..];
        if |rest| == 1 {
          assert Join(parts, sep) == [s[0]] + rest[0];
        } else {
          assert parts[1..] == rest[1..];
          assert Join(rest, sep) == rest[0] + [sep] + Join(rest[1..], sep);
        }
      }
    }
  }

  /** A string without the separator splits into itself alone. */
  lemma SplitNoSep(s: string, sep: char)
    requires sep !in s
    ensures Split(s, sep) == [s]
  {
    JoinSplit(s, sep);
    SplitPartsFree(s, sep);
  }

  /** Splitting `a + [sep] + b` at its first separator, when `a` has none. */
  lemma {:induction false} SplitAtFirst(a: string, sep: char, b: string)
    requires sep !in a
    ensures Split(a + [sep] + b, sep) == [a] + Split(b, sep)
    decreases |a|
  {
    var s := a + [sep] + b;
    if |a| == 0 {
      assert s[1..] == b;
    } else {
      assert s[1..] == a[1..] + [sep] + b;
      SplitAtFirst(a[1..], sep, b);
      assert [a[0]] + a[1..] == a;
    }
  }

  /** Joining splits at any inner position. */
  lemma {:induction false} JoinCut(parts: seq<string>, m: nat, sep: char)
    requires 0 < m < |parts|
    ensures Join(parts[..m], sep) + [sep] + Join(parts[m..], sep) == Join(parts, sep)
    decreases m
  {
    if m > 1 {
      JoinCut(parts[1..], m - 1, sep);
      assert parts[1..][..m - 1] == parts[..m][1..];
      assert parts[1..][m - 1..] == parts[m..];
    }
  }

  /** Splitting a join of separator-free parts gives the parts back. */
  lemma {:induction false} SplitJoin(parts: seq<string>, sep: char)
    requires |parts| >= 1
    requires forall k :: 0 <= k < |parts| ==> sep !in parts[k]
    ensures Split(Join(parts, sep), sep) == parts
    decreases |parts|
  {
    if |parts| == 1 {
      SplitNoSep(parts[0], sep);
    } else {
      SplitJoin(parts[1..], sep);
      SplitAtFirst(parts[0], sep, Join(parts[1..], sep));
      assert [parts[0]] + parts[1..] == parts;
    }
  }

  /** Cutting a collapsed string at one of its spaces leaves two non-empty collapsed halves. */
  lemma CollapsedCut(s: string, k: int)
    requires IsCollapsed(s) && 0 <= k < |s| && s[k] == ' '
    ensures 0 < k < |s| - 1
    ensures IsCollapsed(s[..k]) && IsCollapsed(s[k + 1..])
  {
    assert IsSpace(s[k]);
    assert !IsSpace(s[k - 1]);
    var a, b := s[..k], s[k + 1..];
    forall i | 0 <= i < |a| && IsSpace(a[i])
      ensures a[i] == ' ' && (i + 1 == |a| || !IsSpace(a[i + 1]))
    {
      assert a[i] == s[i];
      if i + 1 < |a| {
        assert a[i + 1] == s[i + 1];
      }
    }
    forall i | 0 <= i < |b| && IsSpace(b[i])
      ensures b[i] == ' ' && (i + 1 == |b| || !IsSpace(b[i + 1]))
    {
      assert b[i] == s[k + 1 + i];
      if i + 1 < |b| {
        assert b[i + 1] == s[k + 2 + i];
      }
    }
    assert a[|a| - 1] == s[k - 1];
    assert b[0] == s[k + 1] && b[|b| - 1] == s[|s| - 1];
  }

  // ---------------------------------------------------------------------------
  // Substring tests: Python's `p in s` and the regular expression `\bword\b`
  // ---------------------------------------------------------------------------

  predicate OccursAt(s: string, p: string, i: int) {
    0 <= i && i + |p| <= |s| && s[i..i + |p|] == p
  }

  /** Python's `p in s`. */
  predicate Contains(s: string, p: string) {
    exists i :: 0 <= i <= |s| - |p| && OccursAt(s, p, i)
  }

  /** Adding text on either side never removes an occurrence. */
  lemma ContainsExtend(s: string, p: string, pre: string, post: string)
    requires Contains(s, p)
    ensures Contains(pre + s + post, p)
  {
    var i :| 0 <= i <= |s| - |p| && OccursAt(s, p, i);
    var t := pre + s + post;
    assert t[|pre| + i..|pre| + i + |p|] == s[i..i + |p|];
    assert OccursAt(t, p, |pre| + i);
  }

  /** An occurrence of `p` carries every occurrence inside `p` with it. */
  lemma ContainsInner(s: string, p: string, q: string, j: nat)
    requires Contains(s, p) && OccursAt(p, q, j)
    ensures Contains(s, q)
  {
    var i :| 0 <= i <= |s| - |p| && OccursAt(s, p, i);
    forall k | 0 <= k < |q| ensures s[i + j + k] == q[k] {
      assert s[i..i + |p|][j + k] == p[j + k];
      assert p[j..j + |q|][k] == q[k];
    }
    assert s[i + j..i + j + |q|] == q;
    assert OccursAt(s, q, i + j);
  }

  /** A pattern with a character the text lacks does not occur in it. */
  lemma MissingCharNotContained(s: string, p: string, c: char)
    requires c in p && c !in s
    ensures !Contains(s, p)
  {
    var j :| 0 <= j < |p| && p[j] == c;
    forall i | 0 <= i <= |s| - |p| ensures !OccursAt(s, p, i) {
      assert s[i..i + |p|][j] == s[i + j];
    }
  }

  /** A whole-word occurrence, as the regular expression `\bw\b` finds it (w made of word characters). */
  predicate WordAt(s: string, w: string, i: int) {
    && OccursAt(s, w, i)
    && (i == 0 || !IsWordChar(s[i - 1]))
    && (i + |w| == |s| || !IsWordChar(s[i + |w|]))
  }

  predicate ContainsWord(s: string, w: string) {
    exists i :: 0 <= i <= |s| - |w| && WordAt(s, w, i)
  }

  // ---------------------------------------------------------------------------
  // Python's `<=` on strings: code-point lexicographic order
  // ---------------------------------------------------------------------------

  predicate LexLe(a: string, b: string)
    decreases |a|
  {
    |a| == 0 || (|b| > 0 && (a[0] < b[0] || (a[0] == b[0] && LexLe(a[1..], b[1..]))))
  }

  lemma {:induction false} LexLeTotal(a: string, b: string)
    ensures LexLe(a, b) || LexLe(b, a)
    decreases |a|
  {
    if |a| > 0 && |b| > 0 && a[0] == b[0] {
      LexLeTotal(a[1..], b[1..]);
    }
  }

  lemma {:induction false} LexLeAntisymmetric(a: string, b: string)
    requires LexLe(a, b) && LexLe(b, a)
    ensures a == b
    decreases |a|
  {
    if |a| > 0 {
      LexLeAntisymmetric(a[1..], b[1..]);
      assert a == [a[0]] + a[1..] && b == [b[0]] + b[1..];
    }
  }

  lemma {:induction false} LexLeTransitive(a: string, b: string, c: string)
    requires LexLe(a, b) && LexLe(b, c)
    ensures LexLe(a, c)
    decreases |a|
  {
    if |a| > 0 && a[0] == b[0] && b[0] == c[0] {
      LexLeTransitive(a[1..], b[1..], c[1..]);
    }
  }

  lemma {:induction false} LexLeReflexive(a: string)
    ensures LexLe(a, a)
    decreases |a|
  {
    if |a| > 0 {
      LexLeReflexive(a[1..]);
    }
  }

  /** Python's `a or b` on strings: the empty string is false. */
  function OrElse(a: string, b: string): string {
    if a != "" then a else b
  }

  /** `min` and `max` of two strings under Python's order. */
  function LexMin(a: string, b: string): string { if LexLe(a, b) then a else b }

  function LexMax(a: string, b: string): string { if LexLe(a, b) then b else a }
}

=== FILE: ttl_cache.dfy ===
/**
 The in-memory response cache: entries keyed by a request key, each holding
 the data and the moment it was saved, served while younger than one hour.
 Expired entries are not removed; the next save for the key replaces them.
 Moments are microseconds on the server clock (the resolution of Python's
 `datetime`) and are passed in by the caller.
 */
module TtlCache {
  import opened Opt

  /** `timedelta(hours=1)`, in microseconds. */
  const CacheDuration: int := 3_600_000_000

  datatype Entry<V> = Entry(data: V, savedAt: int)

  type Cache<V> = map<string, Entry<V>>

  /** `get_from_cache` (api/main_backup.py:53-59), also inlined at api/main.py:1902-1907. */
  function Get<V>(c: Cache<V>, key: string, now: int): (r: Option<V>)
    ensures r.Some? ==> key in c && r.value == c[key].data
  {
    if key in c && now - c[key].savedAt < CacheDuration then Some(c[key].data) else None
  }

  /** `save_to_cache` (api/main_backup.py:61-63). */
  function Save<V>(c: Cache<V>, key: string, data: V, now: int): (c': Cache<V>)
    ensures key in c' && c'[key] == Entry(data, now)
    ensures forall k :: k != key ==> (k in c' <==> k in c)
    ensures forall k :: k != key && k in c ==> c'[k] == c[k]
  {
    c[key := Entry(data, now)]
  }

  /** `clear_cache` (api/main_backup.py:314-318). */
  function Clear<V>(c: Cache<V>): (c': Cache<V>)
    ensures forall k :: k !in c'
  {
    map[]
  }

  /** What was saved is served back for the next hour and not after. */
  lemma SaveThenGet<V>(c: Cache<V>, key: string, data: V, saved: int, now: int)
    ensures Get(Save(c, key, data, saved), key, now) == (if now - saved < CacheDuration then Some(data) else None)
    ensures saved <= now < saved + CacheDuration ==> Get(Save(c, key, data, saved), key, now) == Some(data)
  {
  }

  /** Saving under one key leaves every other key's lookups as they were. */
  lemma SaveKeepsOtherKeys<V>(c: Cache<V>, key: string, data: V, saved: int, other: string, now: int)
    requires other != key
    ensures Get(Save(c, key, data, saved), other, now) == Get(c, other, now)
  {
  }

  /** The last save of a key wins. */
  lemma LastSaveWins<V>(c: Cache<V>, key: string, d1: V, t1: int, d2: V, t2: int)
    ensures Save(Save(c, key, d1, t1), key, d2, t2) == Save(c, key, d2, t2)
  {
  }

  /** After a clear every lookup misses. */
  lemma ClearMisses<V>(c: Cache<V>, key: string, now: int)
    ensures Get(Clear(c), key, now) == None
  {
  }

  /** Once expired, an entry stays expired as time goes on; it is still stored. */
  lemma ExpiryIsFinal<V>(c: Cache<V>, key: string, t: int, t': int)
    requires key in c && Get(c, key, t) == None && t <= t'
    ensures Get(c, key, t') == None
    ensures key in c
  {
  }

  /** The backup scraper's use of the cache (api/main_backup.py:98-101): `if cached_data:` takes
      an empty list for a miss. */
  function ServedByScraper<T>(c: Cache<seq<T>>, key: string, now: int): (r: Option<seq<T>>)
    ensures r.Some? ==> |r.value| > 0 && Get(c, key, now) == r
    ensures r.None? ==> Get(c, key, now).None? || Get(c, key, now) == Some([])
  {
    match Get(c, key, now)
    case Some(d) => if |d| > 0 then Some(d) else None
    case None => None
  }

  /** An empty result is cached but never served: the scraper runs again on every call, while
      the inline lookup of api/main.py:1902-1907 serves it. */
  lemma EmptyResultRescraped<T>(c: Cache<seq<T>>, key: string, saved: int, now: int)
    requires saved <= now < saved + CacheDuration
    ensures ServedByScraper(Save(c, key, [], saved), key, now) == None
    ensures Get(Save(c, key, [], saved), key, now) == Some([])
  {
  }

  /** A non-empty result is served back for the hour after it is saved. */
  lemma NonEmptyResultServed<T>(c: Cache<seq<T>>, key: string, data: seq<T>, saved: int, now: int)
    requires |data| > 0
    ensures ServedByScraper(Save(c, key, data, saved), key, now) == Some(data) <==> now - saved < CacheDuration
  {
  }
}
